=== FILE: README.md ===
# Batch rename: the rename-planning core

This project models in Dafny the planning logic of the file manager's
batch-rename dialog. The dialog takes a selection of files and builds a new
name for each one. The name comes from appending, prepending, find-and-replace,
or a template of literal text and tag markers. Before any file is renamed, the
dialog checks the plan for conflicts and orders the renames so that no file
is renamed onto a name another file still holds. The GTK wiring around this
logic is not modelled.

The modules follow the program's structure:

- `Text`: string helpers. Substring occurrence, last occurrence (g_strrstr),
  and splitting on a delimiter then joining the pieces (g_strsplit / join).
- `Lists`: list reversal. The C code builds lists by prepending and reverses
  them once at the end.
- `Selection`: the selected file (name, parent URI, desktop-launcher flag), the
  mode and sort enumerations, and the distinct parent directories of a
  selection.
- `Transforms`: append, prepend and literal replace, and the new-name list.
- `Conflicts`: the self-exclusion predicate `file_name_changed`, the
  single-parent duplicate scan `list_has_duplicates`, and the older dialog's
  per-directory check and membership test.
- `DialogConflicts`: the current dialog's per-directory check. It yields
  (new name, selection index) pairs. Also here: the walk over all parents,
  the message classification, the row highlighting, and the unsafe-name gate.
- `Ordering`: creation-date ranks from the metadata store, the FIRST_CREATED /
  LAST_CREATED sort, and the reordering done before renaming.
- `RenameIntent`: the state machine around the rename button. A rename
  requested while a conflict check runs is queued; a cancelled check's result
  is discarded.
- `Tags`: the current dialog's tag table. Covers the template tokenizer, offset
  bookkeeping after edits, tag insertion and deletion, and the
  numbering-exclusivity rule as a map from action name to enabled.
- `LegacyTags`: the older dialog's variant. Each tag is one integer offset, the
  tokenizer recognises markers by a three-character prefix, and offsets are
  refreshed from each marker's last occurrence.

Modelling conventions:

- Strings are sequences of characters and offsets are character indices.
- C NULL pointers become `Option` values.
- A `GList` becomes a sequence.
- The tag hash table becomes a sequence in the table's key order. That order is
  arbitrary but fixed.
- Action enablement is a map from action to boolean.
- Directory listings and the metadata store's answers are inputs.
- Selection entries are distinct files, so a file's selection index is its
  position; `g_list_index` returns the first occurrence, which is that position.

## Model

| member | source | states |
|---|---|---|
| Text.LastIndexOf | src/nautilus-batch-rename-dialog.c:1977-1978 | The offset found is an occurrence of the marker and no later occurrence exists; there is none exactly when the marker does not occur |
| Text.SplitJoinRoundTrip | src/nautilus-batch-rename-utilities.c:95-109 | Rejoining the pieces of a split with the delimiter itself gives back the original string |
| Text.SplitCount | src/nautilus-batch-rename-utilities.c:95-109 | A split yields one more piece than there are non-overlapping, left-to-right occurrences of the delimiter |
| Text.JoinLength | src/nautilus-batch-rename-utilities.c:95-109 | A joined string is as long as all pieces together plus one separator between each consecutive pair |
| Text.SplitNoOccurrence | src/nautilus-batch-rename-utilities.c:95-109 | When the delimiter does not occur, the string is the single piece |
| Text.SplitPiecesFree | src/nautilus-batch-rename-utilities.c:95-109 | No piece of a split contains the delimiter |
| Text.SplitFirstIsPrefix | src/nautilus-batch-rename-utilities.c:95-109 | The first piece is a prefix of the split string |
| Text.SplitCharsFromSource | src/nautilus-batch-rename-utilities.c:95-109 | A character absent from the string is absent from every piece |
| Text.JoinCharsFromParts | src/nautilus-batch-rename-utilities.c:95-109 | A character in neither the pieces nor the separator is not in the joined string |
| Lists.Reverse | src/nautilus-batch-rename-utilities.c:307 | The result has the same length and holds at position i the element at the mirrored position |
| Lists.ReverseInvolution | src/nautilus-batch-rename-dialog.c:459 | Reversing twice gives the list back, which is why the callers' second reversal restores selection order |
| Lists.ReverseAppend | src/nautilus-batch-rename.c:853-859 | Reversing a concatenation reverses the order of the parts |
| Selection.EnumCodesRoundTrip | src/nautilus-batch-rename.h:12-26 | The mode and sorting enumerations have distinct codes, in declaration order, and each code decodes back to its constructor |
| Selection.ModeFromCode | src/nautilus-batch-rename.h:12-17 | Exactly the codes 0 to 3 denote a mode |
| Selection.SortingFromCode | src/nautilus-batch-rename.h:19-26 | Exactly the codes 0 to 5 denote a sorting mode |
| Selection.DistinctFileParents | src/nautilus-batch-rename-utilities.c:633-663 | The result has no repeats, holds exactly the parents of the selected files, and ends with the first file's parent (each new parent is prepended) |
| Selection.SelectionHasSingleParent | src/nautilus-batch-rename-utilities.c:604-631 | TRUE exactly when every selected file has the first file's parent, which is exactly when there is one distinct parent |
| Selection.SingleParentIffOneDistinct | src/nautilus-batch-rename-utilities.c:604-663 | All parents agree if and only if the distinct-parent list has one entry |
| Transforms.BatchRenameAppend | src/nautilus-batch-rename-utilities.c:34-51 | The new name is the file name followed by the entry text |
| Transforms.BatchRenamePrepend | src/nautilus-batch-rename-utilities.c:53-70 | The new name is the entry text followed by the file name |
| Transforms.StrSplit | src/nautilus-batch-rename-utilities.c:95-96 | An empty name splits into no pieces at all, and only an empty name does |
| Transforms.BatchRenameReplace | src/nautilus-batch-rename-utilities.c:72-112 | A missing argument or empty find text leaves the name unchanged. So does a find text that does not occur. Otherwise the length changes by (replacement length − find length) per non-overlapping occurrence |
| Transforms.ReplaceFirstOccurrence | src/nautilus-batch-rename-utilities.c:95-109 | The leftmost occurrence of the find text becomes the replacement, the text before it is kept, and replacing goes on in the text after it. With the no-occurrence clause this fixes every character of the result |
| Transforms.ReplaceExample | src/nautilus-batch-rename-utilities.c:72-112 | Replacing "a" with "c" in "ab" gives "cb" |
| Text.JoinSplitFirstOccurrence | src/nautilus-batch-rename-utilities.c:95-109 | Splitting on a delimiter and joining with a separator puts the separator where the delimiter's leftmost occurrence was and carries on with the rest |
| Transforms.ReplaceLength | src/nautilus-batch-rename-utilities.c:95-109 | Splitting and rejoining with the replacement trades the find text's length for the replacement's at every occurrence |
| Transforms.ReplaceBySelfIsIdentity | src/nautilus-batch-rename-utilities.c:72-112 | Replacing a text by itself leaves every name unchanged |
| Transforms.ReplaceKeepsCharOut | src/nautilus-batch-rename-utilities.c:72-112 | A character found in neither the name nor the replacement never appears in the result |
| Transforms.NewName | src/nautilus-batch-rename-utilities.c:128-147 | Append, prepend and replace each produce a name; format mode produces none here |
| Transforms.GetNewNamesList | src/nautilus-batch-rename-utilities.c:114-152 | Outside format mode, exactly one new name per selected file, in reverse selection order: position i holds the name for file n−1−i |
| Transforms.GetNewNames | src/nautilus-batch-rename-dialog.c:459 | After the caller's reversal, the i-th new name belongs to the i-th selected file |
| Conflicts.FirstNameMatch | src/nautilus-batch-rename-utilities.c:171-189 | Finds the first selected file with the given current name, and only the first |
| Conflicts.FileNameChanged | src/nautilus-batch-rename-utilities.c:157-196 | FALSE when no selected file currently has the name. Otherwise only the first file with that name decides: FALSE when its new name equals the name and the parent matches or is not given, TRUE otherwise |
| Conflicts.FirstMatchDecidesAcrossParents | src/nautilus-batch-rename-utilities.c:177-188 | A renamed file of another directory that comes first clears a collision, even though a file of the asked-about directory keeps the name |
| Conflicts.FlaggedFromMembership | src/nautilus-batch-rename-utilities.c:243-298 | A name is reported exactly when some position is flagged with it, and at most one name is reported per position |
| Conflicts.SlashAlwaysReported | src/nautilus-batch-rename-utilities.c:256-260 | A new name with a slash on a file that is not a desktop launcher is always reported |
| Conflicts.UnchangedNotReported | src/nautilus-batch-rename-utilities.c:266-267 | An unchanged name without a slash is never reported by the single-parent scan |
| Conflicts.ListHasDuplicates | src/nautilus-batch-rename-utilities.c:240-307 | The result is, in selection order, the new name of every position that either has a slash or has changed and collides with an uncleared listing entry or another position's new name |
| Conflicts.IsFlagged | src/nautilus-batch-rename-utilities.c:256-295 | The per-position test: the listing scan with the self-exclusion check, then the scan of the other new names |
| Conflicts.ListHasDuplicatesAsWritten | src/nautilus-batch-rename-utilities.c:243-298 | The scan as written, with the file cursor that the slash branch does not advance; it reports at most one name per remaining position |
| Conflicts.AsWrittenAgreesWithoutSlash | src/nautilus-batch-rename-utilities.c:256-297 | While no new name holds a slash, the scan as written and the intended scan report the same list |
| Conflicts.AsWrittenMisalignsAfterSlash | src/nautilus-batch-rename-utilities.c:256-297 | After a slash name, unchanged names are judged against the previous file's name and reported; the intended scan reports only the slash name |
| Conflicts.LegacyScanDir | src/nautilus-batch-rename.c:823-851 | Prepends the names of the files of one directory that changed name, are listed there, and are not cleared by file_name_changed |
| Conflicts.InListing | src/nautilus-batch-rename.c:833-847 | TRUE exactly when the name is in the directory listing and no selected file clears it |
| Conflicts.CheckConflictForFile | src/nautilus-batch-rename.c:805-862 | Counts the directory as checked and prepends its names (reversed); on the last parent the whole list is reversed, which puts earlier directories first |
| Conflicts.LegacyCheckAllParents | src/nautilus-batch-rename.c:805-862 | After one call per distinct parent, the list holds every directory's names, directory by directory in the order visited, in selection order within each |
| Conflicts.LegacyMissesIntraBatch | src/nautilus-batch-rename.c:823-851 | Two files renamed to the same new name are not reported by the older check, because it compares only against the listing |
| Conflicts.FileHasConflict | src/nautilus-batch-rename.c:643-655 | TRUE exactly when the name is in the duplicates list |
| DialogConflicts.BuildNameTables | src/nautilus-batch-rename-dialog.c:1095-1123 | A name is in the new-names table exactly when some file of the directory gets it. It is in the conflicts table exactly when at least two do |
| DialogConflicts.FileConflicts | src/nautilus-batch-rename-dialog.c:1133-1186 | A file of the directory gets an entry when it has a changed name that is listed and not cleared. It also gets one when its new name occurs twice among the directory's new names. The clearing test is assumed to be `file_name_changed`'s, as Left out says |
| DialogConflicts.CheckConflictForFiles | src/nautilus-batch-rename-dialog.c:1058-1192 | Prepends onto the shared list one (name, index) entry per flagged file of the directory, in reverse selection order |
| DialogConflicts.CheckAllDirectories | src/nautilus-batch-rename-dialog.c:1279-1311 | After every distinct parent is checked and the list reversed once, the list is every directory's entries, directory by directory in `distinct_file_parents` order (assumed, as Left out says), each in selection order |
| DialogConflicts.DirEntriesWellFormed | src/nautilus-batch-rename-dialog.c:1133-1186 | Each entry names a file of the checked directory under its own new name, and the indices of one directory are strictly ascending, so an index appears at most once |
| DialogConflicts.DirEntriesComplete | src/nautilus-batch-rename-dialog.c:1133-1186 | Every flagged file of the directory has its entry |
| DialogConflicts.UnchangedDuplicateIsFlagged | src/nautilus-batch-rename-dialog.c:1167-1181 | A file that keeps its name is still reported when another file of its directory is renamed to that name |
| DialogConflicts.ChainIsNotAConflict | src/nautilus-batch-rename-dialog.c:1147-1165 | A rename chain a→b, b→c raises no conflict, because the file holding b is renamed away |
| DialogConflicts.SelectNthConflictKind | src/nautilus-batch-rename-dialog.c:846-866 | The message is "not unique" exactly when the conflicting name occurs more than once among all new names |
| DialogConflicts.SameDirCountBound | src/nautilus-batch-rename-dialog.c:1095-1123 | Occurrences of a name within one directory never exceed its occurrences among all new names |
| DialogConflicts.DuplicateEntryIsNotUnique | src/nautilus-batch-rename-dialog.c:846-866 | An entry flagged as a same-directory duplicate is always shown with the "not unique" message |
| DialogConflicts.RowHighlightAsWritten | src/nautilus-batch-rename-dialog.c:911-963 | The single-pointer row walk as written yields one highlight flag per row |
| DialogConflicts.RowHighlight | src/nautilus-batch-rename-dialog.c:911-963 | A row is highlighted exactly when some conflict entry names its index |
| DialogConflicts.AsWrittenCorrectWhenAscending | src/nautilus-batch-rename-dialog.c:944-959 | For entries in strictly ascending index order, each row the walk passes is highlighted exactly when some remaining entry names it |
| DialogConflicts.AscendingHighlightAgrees | src/nautilus-batch-rename-dialog.c:944-959 | On index-ascending entries the walk as written gives the intended highlighting |
| DialogConflicts.SingleDirHighlightAgrees | src/nautilus-batch-rename-dialog.c:944-959 | For a single-parent selection the full conflict list is index-ascending, so the walk as written is right |
| DialogConflicts.InterleavedParentsOrder | src/nautilus-batch-rename-utilities.c:633-663 | For files of /p, /q, /p the distinct parents come out as /q, /p |
| DialogConflicts.MultiDirEntriesNotAscending | src/nautilus-batch-rename-dialog.c:1279-1311 | With two directories interleaved in the selection, the list built directory by directory is not index-ascending |
| DialogConflicts.MultiDirHighlightMissesRow | src/nautilus-batch-rename-dialog.c:944-959 | On that list the walk as written highlights only row 1 of three conflicting rows |
| DialogConflicts.HaveUnallowedCharacter | src/nautilus-batch-rename-dialog.c:1403-1500 | Format mode passes exactly when the template has no slash and is neither "." nor "..". Replace mode passes exactly when the replacement has no slash and no new name is "." or "..". A slash verdict implies a slash in the text checked |
| DialogConflicts.ReplaceGateYieldsSafeNames | src/nautilus-batch-rename-dialog.c:1561-1564 | In replace mode, names that pass the gate contain no slash and are neither "." nor "..", given original names without slashes |
| Ordering.RanksFromFacts | src/nautilus-batch-rename-utilities.c:486-511 | From any row on, the query yields a table exactly when every remaining row is dated, and that table gives each row its index |
| Ordering.CreationRanksAreRowIndices | src/nautilus-batch-rename-utilities.c:463-512 | With distinct names, the rank table exists exactly when every row has a creation date. It then holds exactly the row names and ranks each at its row index |
| Ordering.InsertByKey | src/nautilus-batch-rename-utilities.c:435-440 | Inserting adds exactly the one element and keeps every element ranked |
| Ordering.InsertKeepsSorted | src/nautilus-batch-rename-utilities.c:435-440 | Inserting into a list sorted by key keeps it sorted |
| Ordering.SortByKey | src/nautilus-batch-rename-utilities.c:435-440 | The result is a permutation of the input, sorted by key |
| Ordering.CreatedSort | src/nautilus-batch-rename-utilities.c:420-448 | FIRST_CREATED and LAST_CREATED give a permutation of the selection, ordered by rank ascending or descending |
| Ordering.SortedByRank | src/nautilus-batch-rename-utilities.c:371-394 | Sorted by the comparator's key means ascending rank for FIRST_CREATED and descending rank for LAST_CREATED |
| Ordering.FirstCreatedFollowsRows | src/nautilus-batch-rename-utilities.c:463-512 | FIRST_CREATED over the store's rank table lists the files in the order of their store rows |
| Ordering.RemoveAt | src/nautilus-batch-rename-dialog.c:498-505 | Unlinking a node removes exactly that element |
| Ordering.FirstHolder | src/nautilus-batch-rename-dialog.c:485-496 | Finds the first other file whose current name is this file's new name, and only the first |
| Ordering.ReorderFrom | src/nautilus-batch-rename-dialog.c:478-514 | The reordering pass from any node keeps files and new names paired and is a permutation |
| Ordering.BeginBatchRenameAsWritten | src/nautilus-batch-rename-dialog.c:478-514 | The reordering as written is a permutation of the (file, new name) pairs |
| Ordering.ReorderMoveStep | src/nautilus-batch-rename-dialog.c:485-514 | A visited file with a holder has that holder unlinked and prepended, and the walk goes on from the node after the visited one |
| Ordering.TwoRenamesAsWritten | src/nautilus-batch-rename-dialog.c:478-514 | With two files the pass as written moves the file holding the other's new name in front, and otherwise keeps the order. Unless the two swap names, the result is a safe order |
| Ordering.TwoRenamesDependencyOrder | src/nautilus-batch-rename-dialog.c:478-514 | With two files that do not swap names, the pass as written gives the same order as the dependency order |
| Ordering.ChainOrderAsWritten | src/nautilus-batch-rename-dialog.c:478-514 | For the chain a→b, b→c, c→d the pass as written yields b→c, a→b, c→d, which renames b onto c while c still exists |
| Ordering.FirstReady | src/nautilus-batch-rename-dialog.c:478-514 | Finds a rename whose new name no other file holds, or shows that every remaining rename is blocked |
| Ordering.DependencyOrder | src/nautilus-batch-rename-dialog.c:478-514 | Either a safe order of all pairs, in which no rename targets a name a later file still holds, or a non-empty group of them each blocked by another |
| Ordering.ReadyFirstIsSafe | src/nautilus-batch-rename-dialog.c:478-514 | A rename nothing else is in the way of can go in front of any safe order of the others |
| Ordering.BlockedPartHasNoSafeOrder | src/nautilus-batch-rename-dialog.c:478-514 | A list containing a mutually blocked group has no safe order |
| Ordering.StuckMeansNoSafeOrder | src/nautilus-batch-rename-dialog.c:478-514 | When the planner is stuck, no arrangement of the renames is safe; so it finds a safe order exactly when one exists |
| Ordering.IndependentRenamesKeepOrder | src/nautilus-batch-rename-dialog.c:478-514 | When no file holds another's new name, both the pass as written and the dependency order keep the selection order |
| Ordering.PairOrder | src/nautilus-batch-rename-dialog.c:478-514 | Of two renames where the second file holds the first's new name, the second goes first |
| Ordering.DependencyOrderStep | src/nautilus-batch-rename-dialog.c:478-514 | The first ready rename goes first, ahead of the order of the rest |
| Ordering.ChainOrderCorrected | src/nautilus-batch-rename-dialog.c:478-514 | The chain a→b, b→c, c→d comes out as c→d, b→c, a→b, which is safe |
| RenameIntent.StartCheck | src/nautilus-batch-rename-dialog.c:1331-1352 | Starting a check marks it running under a fresh token newer than any before, and leaves the rest alone |
| RenameIntent.UpdateDisplayText | src/nautilus-batch-rename-dialog.c:1523-1569 | Every edit cancels the running check. With a selection it drops shown conflicts and takes the new names. It then either stops at the gate with the button disabled or starts a newer check |
| RenameIntent.PrepareBatchRename | src/nautilus-batch-rename-dialog.c:695-734 | A request during a check is queued. A rename starts, with the shown names, exactly when no check runs and the button is enabled |
| RenameIntent.CheckFinished | src/nautilus-batch-rename-dialog.c:1205-1224 | A stale token changes nothing. The live check stores its conflicts reversed, ends, and enables the button exactly when there are none. It runs the queued rename exactly when there are no conflicts |
| RenameIntent.InitialConsistent | src/nautilus-batch-rename-dialog.c:2292-2297 | The dialog starts in a consistent state |
| RenameIntent.StepsKeepConsistent | src/nautilus-batch-rename-dialog.c:1009-1054 | Edits, rename requests and check results keep the state consistent: queued only while checking, only the newest token live, the button off while conflicts show |
| RenameIntent.RenameOnlyWithoutConflicts | src/nautilus-batch-rename-dialog.c:708-711 | A rename never starts while conflicts are on show |
| RenameIntent.EditMakesEarlierChecksStale | src/nautilus-batch-rename-dialog.c:1525-1528 | After an edit no earlier check can deliver a result |
| RenameIntent.QueuedRenameCompletes | src/nautilus-batch-rename-dialog.c:1045-1054 | A rename queued during a check is carried out when the check finds no conflicts and dropped when it finds some |
| RenameIntent.BlockedEditKeepsCheckingFlag | src/nautilus-batch-rename-dialog.c:1561-1564 | An edit stopped by the gate cancels the check but leaves the checking flag set, so a later request is queued and no result ever runs it |
| Tags.SetPositions | src/nautilus-batch-rename-dialog.c:356-366 | Collects the offset of every set tag, and nothing else |
| Tags.SortPositions | src/nautilus-batch-rename-dialog.c:368 | The offsets sorted ascending, as a permutation |
| Tags.TagAt | src/nautilus-batch-rename-dialog.c:384-396 | Finds a set tag recorded at the offset, or shows that none is |
| Tags.SplitWalk | src/nautilus-batch-rename-dialog.c:370-408 | From any cut point the walk emits no empty literal, and its markers are the tags at the given offsets, in order |
| Tags.SplitEntryText | src/nautilus-batch-rename-dialog.c:332-412 | No empty literal run, and the markers are the set tags' names in ascending offset order |
| Tags.SplitEntryTextMarkerOrder | src/nautilus-batch-rename-dialog.c:332-412 | One marker per set tag. The offsets walked are strictly ascending, and the k-th marker names the set tag at the k-th smallest offset |
| Tags.SplitEntryTextRoundTrip | src/nautilus-batch-rename-dialog.c:332-412 | With every marker at its recorded offset, the segments spell the entry text out again |
| Tags.SplitWalkRoundTrip | src/nautilus-batch-rename-dialog.c:370-408 | From any cut point the walk spells the rest of the text |
| Tags.SetPositionsDistinct | src/nautilus-batch-rename-dialog.c:356-366 | Set tags that do not overlap sit at distinct offsets |
| Tags.SortedPositionsFacts | src/nautilus-batch-rename-dialog.c:356-368 | The sorted offsets of a well-placed table are strictly ascending and each belongs to a set tag |
| Tags.UpdateTags | src/nautilus-batch-rename-dialog.c:1379-1399 | A just-added tag keeps its offset and loses the flag. A set tag at or after the cursor moves by the change in length. Every other tag is unchanged, and no field but offset and flag ever changes |
| Tags.OnChanged | src/nautilus-batch-rename-dialog.c:1379-1399 | After an edit the stored length is the new text length and the tags are updated against the old stored length |
| Tags.EffectiveCursor | src/nautilus-batch-rename-dialog.c:1366-1370 | The stored manual cursor is used while the dialog rewrites the text itself, otherwise the entry's cursor |
| Tags.InsertKeepsMarkers | src/nautilus-batch-rename-dialog.c:1379-1399 | Inserting text at a cursor outside every marker, then updating the tags, keeps every marker at its recorded offset |
| Tags.DeleteKeepsMarkers | src/nautilus-batch-rename-dialog.c:1379-1399 | Deleting a range that touches no marker, then updating the tags, keeps every marker at its recorded offset |
| Tags.NumberingTagIsSomeAdded | src/nautilus-batch-rename-dialog.c:1503-1520 | TRUE exactly when some numbering tag is set |
| Tags.EnableNumberingIfNoneSet | src/nautilus-batch-rename-dialog.c:2060-2069 | With no numbering tag set, all three numbering actions are enabled, and no other action changes |
| Tags.KeyDeletes | src/nautilus-batch-rename-dialog.c:1859-1892 | Backspace deletes for pos < cursor ≤ pos+len, Delete for pos ≤ cursor < pos+len, and another non-modifier editing key for pos < cursor < pos+len. Navigation and modifier keys never delete |
| Tags.RemoveTag | src/nautilus-batch-rename-dialog.c:1834-1922 | Does nothing for an unset tag or a key outside the zone. Otherwise it cuts the marker out of the text, unsets that tag alone and re-enables its action |
| Tags.RemoveTagRestores | src/nautilus-batch-rename-dialog.c:1900-1906 | Putting the marker back at the tag's offset gives the text as it was before the deletion |
| Tags.RemoveTagKeepsEntryOk | src/nautilus-batch-rename-dialog.c:1894-1913 | Removing a tag keeps the entry invariant: the other markers stay at their offsets, moved by the deletion, and actions stay in step with set tags |
| Tags.AddTag | src/nautilus-batch-rename-dialog.c:184-206 | The tag becomes set and available at the cursor, its marker is inserted there, and no other tag's set flag changes |
| Tags.AddTagPlacement | src/nautilus-batch-rename-dialog.c:184-206 | Adding at a cursor outside every marker keeps all markers at their offsets, including the new one |
| Tags.AddMetadataTag | src/nautilus-batch-rename-dialog.c:208-230 | Afterwards the chosen action is disabled or nothing happened, and the text only changes for a metadata tag with that action |
| Tags.DisableNumbering | src/nautilus-batch-rename-dialog.c:244-253 | All three numbering actions are disabled and no other action changes |
| Tags.AddNumberingTag | src/nautilus-batch-rename-dialog.c:232-254 | Adding any numbering tag disables all three numbering actions and changes no other |
| Tags.AddMetadataTagKeepsEntryOk | src/nautilus-batch-rename-dialog.c:208-230 | Adding through an enabled metadata action keeps the entry invariant |
| Tags.AddNumberingTagKeepsEntryOk | src/nautilus-batch-rename-dialog.c:232-254 | Adding through an enabled numbering action keeps the entry invariant, with exactly one numbering tag then set |
| Tags.FirstRemoval | src/nautilus-batch-rename-dialog.c:2086-2098 | Finds the first tag in key order that the key press deletes, or shows that none is |
| Tags.KeyPressRemoval | src/nautilus-batch-rename-dialog.c:2084-2117 | Delete and Backspace are stopped exactly when some tag is deleted. With no tag hit the text and tags are unchanged. With no numbering tag left, all numbering actions are on |
| Tags.KeyPressRemovesFirst | src/nautilus-batch-rename-dialog.c:2086-2098 | The handler runs remove_tag on the first deleting tag in key order and on no other |
| Tags.KeyPressRemovalKeepsEntryOk | src/nautilus-batch-rename-dialog.c:2084-2110 | The key-press handler without a selection keeps the entry invariant |
| Tags.UpdateTagPosition | src/nautilus-batch-rename-dialog.c:1965-1980 | For a set tag, the old offset is kept and the new offset is the marker's last occurrence; an unset tag is unchanged |
| Tags.UpdateTagPositionFindsMarker | src/nautilus-batch-rename-dialog.c:1974-1979 | A marker at its recorded offset with no later occurrence is found there |
| Tags.RemoveTagSelection | src/nautilus-batch-rename-dialog.c:1924-1963 | A set tag is removed exactly when its recorded range meets the selection. The cut is at the found offset and putting the marker back restores the text; otherwise nothing changes |
| Tags.SelectionStep | src/nautilus-batch-rename-dialog.c:2034-2057 | One loop step touches only its own tag. It fails only when a set tag's marker is missing. It shortens the text by the marker if removed and enables that action |
| Tags.SelectionFromFlags | src/nautilus-batch-rename-dialog.c:2032-2058 | The selection loop unsets exactly the set tags whose recorded range meets the selection |
| Tags.SelectionFromMinimum | src/nautilus-batch-rename-dialog.c:2046-2054 | The loop's minimum is the smallest recorded offset of a removed tag |
| Tags.SelectionFromLength | src/nautilus-batch-rename-dialog.c:2032-2058 | The loop shortens the text by the total length of the markers it removes |
| Tags.SelectionFromActions | src/nautilus-batch-rename-dialog.c:2032-2058 | The loop enables the action of every tag it removes and disables none |
| Tags.KeyPressSelection | src/nautilus-batch-rename-dialog.c:2017-2083 | The selection branch unsets exactly the tags the selection meets and shortens the text by their markers. It stops Delete and Backspace exactly when a tag went, re-enables their actions, and re-enables numbering when none is left set |
| Tags.FinishSelection | src/nautilus-batch-rename-dialog.c:2060-2082 | The new text is taken only when a tag went; numbering actions are re-enabled when no numbering tag is set |
| Tags.OnKeyPress | src/nautilus-batch-rename-dialog.c:1983-2118 | Control combinations pass untouched. A selection with an editing key takes the selection branch; anything else takes tag-by-tag removal |
| Tags.InitialTable | src/nautilus-batch-rename-dialog.c:2305-2330 | Every numbering tag is available and unset. Of the metadata tags only the original name is available and set. All are at offset 0 |
| Tags.InitialActions | src/nautilus-batch-rename-dialog.c:1807-1826 | Every registered action is enabled except the original-name action |
| Tags.InitialEntryOk | src/nautilus-batch-rename-dialog.c:2300-2334 | The entry after init meets the entry invariant. The original-name tag is the only set tag and no numbering tag is set, so every numbering action is on |
| LegacyTags.PlacedOffsets | src/nautilus-batch-rename.c:370-409 | The offsets collected are exactly the non-negative tag fields |
| LegacyTags.Prefix3 | src/nautilus-batch-rename.c:416-418 | Up to three characters at the offset, three whenever the text reaches that far |
| LegacyTags.MarkerIn | src/nautilus-batch-rename.c:429-468 | Finds a known marker whose first three characters are the prefix, or shows that none has them |
| LegacyTags.WalkHead | src/nautilus-batch-rename.c:413-470 | One tokenizer step emits no empty piece and leaves the cut point inside the text |
| LegacyTags.LegacyWalkNoEmptyPiece | src/nautilus-batch-rename.c:413-476 | The older tokenizer never emits an empty piece |
| LegacyTags.LegacyWalkRoundTrip | src/nautilus-batch-rename.c:359-479 | With known markers laid out in ascending order, the pieces spell the text again |
| LegacyTags.UnknownPrefixRepeatsText | src/nautilus-batch-rename.c:416-469 | An unknown prefix emits its three characters and leaves the cut point, so later text is emitted from the old cut point again |
| LegacyTags.PrefixesUnique | src/nautilus-batch-rename.c:429-468 | No two known markers share their first three characters |
| LegacyTags.KnownMarkerFound | src/nautilus-batch-rename.c:416-468 | A known marker at an offset is the marker the tokenizer recognises there |
| LegacyTags.EarlierMarkerEndsFirst | src/nautilus-batch-rename.c:413-470 | Of two bracketed markers in the text, the one starting earlier ends before the other starts |
| LegacyTags.SpacedRoundTrip | src/nautilus-batch-rename.c:359-479 | Distinct offsets each carrying a known marker, once sorted, tokenize back into the text |
| LegacyTags.RefreshedOffset | src/nautilus-batch-rename.c:920-954 | The marker's last occurrence when present. Otherwise −1 for a tag that was placed and the old value for one that was not |
| LegacyTags.RefreshedOffsetIdempotent | src/nautilus-batch-rename.c:920-954 | Refreshing an offset twice against the same text is refreshing it once |
| LegacyTags.CheckTag | src/nautilus-batch-rename.c:920-954 | A marker appearing for a missing tag disables its action, and a placed tag losing its marker re-enables it. No other action changes |
| LegacyTags.CheckTagKeepsInSync | src/nautilus-batch-rename.c:920-954 | A tag's action ends off while its marker is placed and on while it is missing |
| LegacyTags.NumberingMarkerIn | src/nautilus-batch-rename.c:999-1008 | The numbering marker taken is one of the three and is present whenever any is |
| LegacyTags.SetNumberingActions | src/nautilus-batch-rename.c:964-994 | Sets the three numbering actions together and no other |
| LegacyTags.CheckNumberingTags | src/nautilus-batch-rename.c:956-1010 | The offset is non-negative exactly when a numbering marker is present. The three actions go off together when one appears, and on together when the last one goes from a placed tag |
| LegacyTags.CheckNumberingTagsKeepsInSync | src/nautilus-batch-rename.c:956-1010 | The numbering actions end in step with the numbering offset |
| LegacyTags.CheckAvailable | src/nautilus-batch-rename.c:1019-1048 | An unavailable tag (−2) is not re-checked and keeps its value and actions |
| LegacyTags.CheckChainOffsets | src/nautilus-batch-rename.c:1019-1048 | Each checked metadata tag ends at its guarded refreshed offset; unchecked tags and the numbering actions are left alone |
| LegacyTags.UpdateTagsLegacyPositions | src/nautilus-batch-rename.c:1013-1051 | Each field holds its refreshed offset after update_tags, except an unavailable metadata tag, which stays −2 |
| LegacyTags.UpdateTagsLegacyFacts | src/nautilus-batch-rename.c:1013-1051 | Every placed field sits at its marker's last occurrence. Original name and numbering are placed exactly when their markers are present; an unavailable tag stays unavailable and any other is placed exactly when its marker is there |
| LegacyTags.UpdateTagsLegacyKeepsInSync | src/nautilus-batch-rename.c:1013-1051 | update_tags leaves every action in step with its tag's offset |
| LegacyTags.SplitAfterUpdateRoundTrip | src/nautilus-batch-rename.c:359-479 | After update_tags the tokenizer's offsets are usable and its pieces spell the entry text again |
| LegacyTags.QueryFinishedAsWritten | src/nautilus-batch-rename.c:1205-1245 | As written, a present season leaves the season tag untouched and sets the creation-date tag to −1. The actions end up exactly as in the corrected version |
| LegacyTags.QueryFinished | src/nautilus-batch-rename.c:1205-1245 | Each metadata tag becomes −1 when the first file has the field and −2 when it does not. Its action is on afterwards exactly when it was on before and the field is present. No other tag or action changes |
| LegacyTags.QueryFinishedAgreesWithoutSeason | src/nautilus-batch-rename.c:1219-1224 | Without a season field the code as written and the corrected one agree |
| LegacyTags.LegacyInitialActions | src/nautilus-batch-rename.c:1248-1268 | Every registered action is on except the original-name action |
| LegacyTags.QueryFinishedSyncs | src/nautilus-batch-rename.c:1205-1245 | The corrected query_finished leaves every action in step with its tag, given in-step placed tags and all metadata actions on |
| LegacyTags.StartupState | src/nautilus-batch-rename.c:1385-1394 | The constructor's first update_tags, on an entry text holding the original-name marker and no other, leaves the original-name tag at 0 and every other tag missing (−1). No action changes, and every action is in step with its tag |
| LegacyTags.StartupTextMarkers | src/nautilus-batch-rename.c:1432 | init's entry text "[Original file name]" holds the original-name marker and no other marker |
| LegacyTags.NameOnlyTextKeepsActions | src/nautilus-batch-rename.c:1012-1051 | On a text holding only the original-name marker, update_tags from a placed name tag and no numbering switches no action, given every metadata action on |
| LegacyTags.AbsentChecksKeepActions | src/nautilus-batch-rename.c:1012-1051 | Guarded check_tag calls whose markers are all missing and whose actions are already on change no action |
| LegacyTags.QueryFinishedEstablishesSync | src/nautilus-batch-rename.c:1205-1245 | From the state the constructor leaves, the corrected query_finished puts every action in step with its tag, whatever the first file's metadata |
| LegacyTags.QueryFinishedSeasonSlip | src/nautilus-batch-rename.c:1219-1224 | From the state the constructor leaves, with a season but no creation date, the code as written leaves the creation-date tag usable (−1) with its action off, so that tag and its action are out of step. The season tag stays at −1 with its action on. The corrected version marks the creation-date tag unavailable (−2) and keeps every action in step |

## Left out

- The metadata store query (Tracker SPARQL, the cursor loop's I/O): the rank table's rows and the first file's metadata fields are inputs.
- GTK widgets: row construction, labels, scrolling, popovers, menus, cursors, conflict navigation buttons. Action enablement is kept as a map from action to boolean.
- Threads, the mutex and condition waits, and cancellables. The conflict check is a sequential callback; cancellation is a generation token, and only the newest token may deliver a result.
- Directory enumeration: each parent's file listing is an input.
- The rename itself: `nautilus_file_batch_rename` is not part of this model.
- Format-mode name resolution (numbering padding, metadata substitution, extensions): that code is not part of this model, so `Transforms.NewName` yields no name in format mode.
- `file_name_conflicts_with_results` and `batch_rename_files_get_distinct_parents` are called by the newer dialog (src/nautilus-batch-rename-dialog.c:1155 and 1279), but their definitions are not part of this model. The model assumes that they behave like `file_name_changed` (src/nautilus-batch-rename-utilities.c:157-196) and `distinct_file_parents` (src/nautilus-batch-rename-utilities.c:633-663).
  - `DialogConflicts.FileConflicts` and `DialogConflicts.ExistingConflict` take `file_name_conflicts_with_results` to return TRUE exactly when `Conflicts.FileNameChanged` does. That is the case when some selected file currently has that name, and the first such file either gets a new name or lies in another directory. A TRUE answer means the collision is cleared, which fixes the sense of the negation at line 1155.
  - `DialogConflicts.CheckAllDirectories` takes the directories in the order `Selection.DistinctFileParents` gives.
  - Neither assumption is checked against code.
- The multi-parent branch of `list_has_duplicates` (src/nautilus-batch-rename-utilities.c:226-238): it only schedules directory loads and returns NULL.
- The name and modification-time sorts: they rely on the file manager's own comparators, which are external.
- The newer dialog's `nautilus_batch_rename_dialog_query_finished` (src/nautilus-batch-rename-dialog.c:1639-1706) is outside the rename-planning core modelled here. It stores the creation-date table and adds the "First Created" and "Last Created" menu items when there is one. For each metadata tag it disables the tag's action and marks the tag unavailable when the first file lacks that field, and otherwise marks the tag unset. The calls at src/nautilus-batch-rename-utilities.c:487, 503 and 536 pass two arguments, the dialog and the table (or NULL), and so match neither three-parameter definition. `LegacyTags.QueryFinished` models the older dialog's three-parameter `query_finished` (src/nautilus-batch-rename.c:1169-1245), with the first file's metadata as an input.
- Memory defects (the undersized allocation in the created sort, leaks) and byte/character offset mixing in `remove_tag`: strings are character sequences.
- `tags_deleted` in the dialog's `update_tags` (src/nautilus-batch-rename-dialog.c:1372-1377): the flag is never set to TRUE anywhere, so that branch is dead.
- Tags.InitialTable: `g_new` leaves each tag's `just_added`, `original_position` and `new_position` uninitialised (src/nautilus-batch-rename-dialog.c:2306-2327), and the dialog's `update_tags` reads `just_added` (src/nautilus-batch-rename-dialog.c:1388). The model starts them at false and 0, which the source does not promise.
- Tags.AddTag: `add_tag` reads an uninitialised `cursor_position` (src/nautilus-batch-rename-dialog.c:189-197). The cursor is an explicit parameter and must lie inside the text.
- Ordering.CreatedSort: requires every selected file to have a rank. The source dereferences the NULL a missing rank yields, so that case has no defined behaviour to model. The sort's stability is not stated.
- Tags.UpdateTagPosition: requires a set tag's marker to be in the text. The source hands NULL to the offset conversion otherwise. `Tags.SelectionStep` returns no state in that case.
- Tags.KeyPressSelection: a failed step (a set tag's marker missing from the text) yields no outcome rather than the source's undefined behaviour.
- Ordering.DependencyOrder: this is the order the reordering evidently intends, not code in the source; see Findings.

## Findings

| source | as written | input that shows it | evidently intended | confidence | as-written member | corrected member |
|---|---|---|---|---|---|---|
| src/nautilus-batch-rename-utilities.c:256-297 | After a name with a slash, `continue` skips the advance of the file cursor `l3`, so later new names are judged against the previous file's current name | files a, b, c in one directory renamed to "x/y", "b", "c" with listing a, b, c: "b" and "c" are reported although unchanged | every new name is compared with its own file's current name | not executed | Conflicts.ListHasDuplicatesAsWritten, Conflicts.AsWrittenMisalignsAfterSlash | Conflicts.ListHasDuplicates |
| src/nautilus-batch-rename-dialog.c:944-959 | The row walk advances one pointer through the conflict list and assumes it is index-ascending; the list is built directory by directory | selection a (/p), b (/q), c (/p) renamed to x, y, z, all conflicting: the list is (y,1), (x,0), (z,2) and only row 1 is highlighted | every row named by some conflict entry is highlighted | not executed | DialogConflicts.RowHighlightAsWritten, DialogConflicts.MultiDirHighlightMissesRow | DialogConflicts.RowHighlight |
| src/nautilus-batch-rename.c:1219-1224 | The season branch sets `creation_date_tag` to −1 instead of `season_tag` | after the constructor's update_tags, a first file with a season but no creation date: the creation-date tag becomes usable (−1) while its action is off | a present season sets the season tag to −1 | not executed | LegacyTags.QueryFinishedAsWritten, LegacyTags.QueryFinishedSeasonSlip | LegacyTags.QueryFinished, LegacyTags.QueryFinishedEstablishesSync |
| src/nautilus-batch-rename-dialog.c:478-514 | A single pass moves each file's first blocker in front of it. That orders any two files that do not swap names, but not chains of three or more | chain a→b, b→c, c→d: the order b→c, a→b, c→d renames b onto c while c still exists | every file is renamed only after the file holding its new name has moved | not executed | Ordering.BeginBatchRenameAsWritten, Ordering.TwoRenamesAsWritten, Ordering.ChainOrderAsWritten | Ordering.DependencyOrder, Ordering.ChainOrderCorrected |

=== FILE: conflicts.dfy ===
/**
  Conflict detection of the batch-rename utilities and of the older dialog:
  the self-exclusion predicate, the single-directory duplicate scan, the
  older per-directory listing check and the membership test on its result.
  New names are paired with selected files by position.
 */
module Conflicts {

  import opened Text
  import opened Selection
  import opened Lists

  /** The first selected file whose current name is `name`, if any. */
  function FirstNameMatch(sel: seq<File>, name: string): (r: Option<nat>)
    ensures r.Some? ==> r.value < |sel| && sel[r.value].name == name
    ensures r.Some? ==> forall j :: 0 <= j < r.value ==> sel[j].name != name
    ensures r.None? ==> forall j :: 0 <= j < |sel| ==> sel[j].name != name
  {
    if |sel| == 0 then None
    else if sel[0].name == name then Some(0)
    else
      var rest := FirstNameMatch(sel[1..], name);
      if rest.None? then None else Some(rest.value + 1)
  }

  /**
    file_name_changed: TRUE means "no conflict after all", because the file now
    holding `oldName` is itself selected and is being renamed away. Only the
    first selected file with that name is consulted. It keeps its name (FALSE)
    when its new name equals `oldName` and the parent matches or is not given.
   */
  function FileNameChanged(sel: seq<File>, newNames: seq<string>, oldName: string, parentUri: Option<string>): (r: bool)
    requires |newNames| == |sel|
    ensures r <==> (exists k :: 0 <= k < |sel| && sel[k].name == oldName
                     && (forall j :: 0 <= j < k ==> sel[j].name != oldName)
                     && (newNames[k] != oldName || (parentUri.Some? && parentUri.value != sel[k].parent)))
    ensures (forall k :: 0 <= k < |sel| ==> sel[k].name != oldName) ==> !r
  {
    match FirstNameMatch(sel, oldName)
    case None => false
    case Some(k) => !(newNames[k] == oldName && (parentUri.None? || parentUri.value == sel[k].parent))
  }

  /**
    The first name match decides, even when it lies in another directory than
    the one asked about: here the file "a" of /d2 keeps its name, yet the
    renamed "a" of /d1 comes first and clears the collision.
   */
  lemma FirstMatchDecidesAcrossParents()
    ensures FileNameChanged([File("a", "/d1", false), File("a", "/d2", false)], ["x", "a"], "a", Some("/d2"))
    ensures !FileNameChanged([File("a", "/d2", false)], ["a"], "a", Some("/d2"))
  {
    var sel := [File("a", "/d1", false), File("a", "/d2", false)];
    assert FirstNameMatch(sel, "a") == Some(0);
    assert FirstNameMatch([File("a", "/d2", false)], "a") == Some(0);
  }

  // ---------------------------------------------------------------------
  // list_has_duplicates, single-parent branch
  // ---------------------------------------------------------------------

  /** A new name with a slash on a file that is not a desktop launcher is always reported. */
  predicate SlashFlag(f: File, newName: string)
  {
    !f.isDesktop && HasChar(newName, '/')
  }

  /** Some other position of the plan produces `name` as well. */
  predicate OtherPositionHas(newNames: seq<string>, i: int, name: string)
  {
    exists j :: 0 <= j < |newNames| && j != i && newNames[j] == name
  }

  /** `name` is in the directory listing and no selected file is renaming itself away from it. */
  predicate ListingConflict(sel: seq<File>, newNames: seq<string>, listing: seq<string>, name: string)
    requires |newNames| == |sel|
  {
    name in listing && !FileNameChanged(sel, newNames, name, None)
  }

  /**
    The duplicate test applied to the new name at position `i`, judged against
    the current name of the file at position `k`: only a changed name is
    checked, first against the listing and then against the other new names.
   */
  predicate FlagAt(sel: seq<File>, newNames: seq<string>, listing: seq<string>, i: int, k: int)
    requires |newNames| == |sel| && 0 <= i < |sel| && 0 <= k < |sel|
  {
    newNames[i] != sel[k].name
    && (ListingConflict(sel, newNames, listing, newNames[i]) || OtherPositionHas(newNames, i, newNames[i]))
  }

  /** Whether position `i` is reported, with files and new names kept in step. */
  predicate Flagged(sel: seq<File>, newNames: seq<string>, listing: seq<string>, i: int)
    requires |newNames| == |sel| && 0 <= i < |sel|
  {
    SlashFlag(sel[i], newNames[i]) || FlagAt(sel, newNames, listing, i, i)
  }

  /** The reported names from position `i` on, in selection order: the reference result. */
  function FlaggedFrom(sel: seq<File>, newNames: seq<string>, listing: seq<string>, i: nat): (r: seq<string>)
    requires |newNames| == |sel| && i <= |sel|
    decreases |sel| - i
  {
    if i == |sel| then []
    else (if Flagged(sel, newNames, listing, i) then [newNames[i]] else [])
         + FlaggedFrom(sel, newNames, listing, i + 1)
  }

  /** A name is reported exactly when some position from `i` on is flagged with it. */
  lemma {:induction false} FlaggedFromMembership(sel: seq<File>, newNames: seq<string>, listing: seq<string>, i: nat, x: string)
    requires |newNames| == |sel| && i <= |sel|
    ensures x in FlaggedFrom(sel, newNames, listing, i)
        <==> exists p :: i <= p < |sel| && Flagged(sel, newNames, listing, p) && newNames[p] == x
    ensures |FlaggedFrom(sel, newNames, listing, i)| <= |sel| - i
    decreases |sel| - i
  {
    if i < |sel| {
      FlaggedFromMembership(sel, newNames, listing, i + 1, x);
    }
  }

  /** A slash name on an ordinary file is reported without looking at the directory. */
  lemma SlashAlwaysReported(sel: seq<File>, newNames: seq<string>, listing: seq<string>, i: nat)
    requires |newNames| == |sel| && i < |sel|
    requires SlashFlag(sel[i], newNames[i])
    ensures newNames[i] in FlaggedFrom(sel, newNames, listing, 0)
  {
    FlaggedFromMembership(sel, newNames, listing, 0, newNames[i]);
  }

  /** An unchanged name without a slash is never reported by the single-parent scan. */
  lemma UnchangedNotReported(sel: seq<File>, newNames: seq<string>, listing: seq<string>, i: nat)
    requires |newNames| == |sel| && i < |sel|
    requires newNames[i] == sel[i].name && !HasChar(newNames[i], '/')
    ensures !Flagged(sel, newNames, listing, i)
  {
  }

  /**
    list_has_duplicates for a selection with a single parent, with the file
    cursor advanced for every new name. The result is built by prepending and
    reversed once at the end.
   */
  method ListHasDuplicates(sel: seq<File>, newNames: seq<string>, listing: seq<string>) returns (r: seq<string>)
    requires |newNames| == |sel|
    ensures r == FlaggedFrom(sel, newNames, listing, 0)
  {
    var acc: seq<string> := [];
    for i := 0 to |newNames|
      invariant Reverse(acc) + FlaggedFrom(sel, newNames, listing, i) == FlaggedFrom(sel, newNames, listing, 0)
    {
      var flagged := IsFlagged(sel, newNames, listing, i);
      var x := if flagged then [newNames[i]] else [];
      PrependStep(acc, x, FlaggedFrom(sel, newNames, listing, i + 1), FlaggedFrom(sel, newNames, listing, 0));
      acc := x + acc;
    }
    r := Reverse(acc);
  }

  /**
    The test of one position in list_has_duplicates: a slash name is reported
    at once; a changed name is looked up in the listing and then among the
    other new names.
   */
  method IsFlagged(sel: seq<File>, newNames: seq<string>, listing: seq<string>, i: nat) returns (flagged: bool)
    requires |newNames| == |sel| && i < |sel|
    ensures flagged == Flagged(sel, newNames, listing, i)
  {
    var file := sel[i];
    var newName := newNames[i];
    flagged := false;
    if !file.isDesktop && HasChar(newName, '/') {
      flagged := true;
    } else if newName != file.name {
      var haveConflict := false;
      for m := 0 to |listing|
        invariant !haveConflict ==> forall q :: 0 <= q < m ==> !(listing[q] == newName && !FileNameChanged(sel, newNames, newName, None))
        invariant haveConflict ==> ListingConflict(sel, newNames, listing, newName)
      {
        if listing[m] == newName && !FileNameChanged(sel, newNames, newName, None) {
          haveConflict := true;
          break;
        }
      }
      if !haveConflict {
        for j := 0 to |newNames|
          invariant !haveConflict ==> forall q :: 0 <= q < j ==> !(q != i && newNames[q] == newName)
          invariant haveConflict ==> OtherPositionHas(newNames, i, newName)
        {
          if j != i && newNames[j] == newName {
            haveConflict := true;
            break;
          }
        }
      }
      flagged := haveConflict;
    }
  }

  /**
    list_has_duplicates as written: after a slash name the loop continues
    without advancing the file cursor, so from then on the new name at
    position `i` is judged against the current name of the file at `k < i`.
   */
  function ListHasDuplicatesAsWritten(sel: seq<File>, newNames: seq<string>, listing: seq<string>, i: nat, k: nat): (r: seq<string>)
    requires |newNames| == |sel| && k <= i <= |sel|
    decreases |sel| - i
    ensures |r| <= |sel| - i
  {
    if i == |sel| then []
    else if SlashFlag(sel[k], newNames[i]) then
      [newNames[i]] + ListHasDuplicatesAsWritten(sel, newNames, listing, i + 1, k)
    else
      (if FlagAt(sel, newNames, listing, i, k) then [newNames[i]] else [])
      + ListHasDuplicatesAsWritten(sel, newNames, listing, i + 1, k + 1)
  }

  /** While no new name holds a slash, the cursor stays in step and the two agree. */
  lemma {:induction false} AsWrittenAgreesWithoutSlash(sel: seq<File>, newNames: seq<string>, listing: seq<string>, i: nat)
    requires |newNames| == |sel| && i <= |sel|
    requires forall p :: i <= p < |sel| ==> !HasChar(newNames[p], '/')
    ensures ListHasDuplicatesAsWritten(sel, newNames, listing, i, i) == FlaggedFrom(sel, newNames, listing, i)
    decreases |sel| - i
  {
    if i < |sel| {
      AsWrittenAgreesWithoutSlash(sel, newNames, listing, i + 1);
    }
  }

  /**
    After "x/y" the cursor lags one file behind, so the unchanged names "b" and
    "c" are judged against "a" and "b", look renamed, and are reported.
   */
  lemma AsWrittenMisalignsAfterSlash()
    ensures ListHasDuplicatesAsWritten(
              [File("a", "/d", false), File("b", "/d", false), File("c", "/d", false)],
              ["x/y", "b", "c"], ["a", "b", "c"], 0, 0) == ["x/y", "b", "c"]
    ensures FlaggedFrom(
              [File("a", "/d", false), File("b", "/d", false), File("c", "/d", false)],
              ["x/y", "b", "c"], ["a", "b", "c"], 0) == ["x/y"]
  {
    var sel := [File("a", "/d", false), File("b", "/d", false), File("c", "/d", false)];
    var names := ["x/y", "b", "c"];
    var listing := ["a", "b", "c"];
    assert names[0][1] == '/';
    assert SlashFlag(sel[0], names[0]);
    assert !HasChar(names[1], '/') && !HasChar(names[2], '/') by {
      assert forall q :: 0 <= q < |names[1]| ==> names[1][q] == 'b';
      assert forall q :: 0 <= q < |names[2]| ==> names[2][q] == 'c';
    }
    assert FirstNameMatch(sel, "b") == Some(1);
    assert FirstNameMatch(sel, "c") == Some(2);
    assert ListingConflict(sel, names, listing, "b");
    assert ListingConflict(sel, names, listing, "c");
    assert FlagAt(sel, names, listing, 1, 0);
    assert FlagAt(sel, names, listing, 2, 1);
    assert !Flagged(sel, names, listing, 1);
    assert !Flagged(sel, names, listing, 2);
  }

  // ---------------------------------------------------------------------
  // Older dialog: check_conflict_for_file and file_has_conflict
  // ---------------------------------------------------------------------

  /**
    The older per-directory test: a file of this directory whose name changed,
    whose new name is listed there, and which no selected file clears.
   */
  predicate LegacyFlagged(sel: seq<File>, newNames: seq<string>, dir: string, listing: seq<string>, i: int)
    requires |newNames| == |sel| && 0 <= i < |sel|
  {
    sel[i].parent == dir && newNames[i] != sel[i].name
    && newNames[i] in listing && !FileNameChanged(sel, newNames, newNames[i], Some(dir))
  }

  /** The names one directory contributes, in selection order. */
  function LegacyDirNames(sel: seq<File>, newNames: seq<string>, dir: string, listing: seq<string>, i: nat): (r: seq<string>)
    requires |newNames| == |sel| && i <= |sel|
    decreases |sel| - i
  {
    if i == |sel| then []
    else (if LegacyFlagged(sel, newNames, dir, listing, i) then [newNames[i]] else [])
         + LegacyDirNames(sel, newNames, dir, listing, i + 1)
  }

  /** The duplicates list being built and the number of directories already checked. */
  datatype LegacyCheckState = LegacyCheckState(duplicates: seq<string>, checkedParents: nat)

  /** The conflicting names of one directory, prepended as they are found. */
  method LegacyScanDir(sel: seq<File>, newNames: seq<string>, dir: string, listing: seq<string>)
    returns (found: seq<string>)
    requires |newNames| == |sel|
    ensures Reverse(found) == LegacyDirNames(sel, newNames, dir, listing, 0)
  {
    found := [];
    for i := 0 to |sel|
      invariant Reverse(found) + LegacyDirNames(sel, newNames, dir, listing, i) == LegacyDirNames(sel, newNames, dir, listing, 0)
    {
      var flagged := false;
      if sel[i].parent == dir && newNames[i] != sel[i].name {
        flagged := InListing(sel, newNames, dir, listing, newNames[i]);
      }
      var x := if flagged then [newNames[i]] else [];
      PrependStep(found, x, LegacyDirNames(sel, newNames, dir, listing, i + 1), LegacyDirNames(sel, newNames, dir, listing, 0));
      found := x + found;
    }
  }

  /** The listing scan of file_has_conflict: the name is listed and no selected file of the directory clears it. */
  method InListing(sel: seq<File>, newNames: seq<string>, dir: string, listing: seq<string>, name: string) returns (b: bool)
    requires |newNames| == |sel|
    ensures b <==> name in listing && !FileNameChanged(sel, newNames, name, Some(dir))
  {
    b := false;
    for m := 0 to |listing|
      invariant !b ==> forall q :: 0 <= q < m ==> !(listing[q] == name && !FileNameChanged(sel, newNames, name, Some(dir)))
      invariant b ==> name in listing && !FileNameChanged(sel, newNames, name, Some(dir))
    {
      if listing[m] == name && !FileNameChanged(sel, newNames, name, Some(dir)) {
        b := true;
        break;
      }
    }
  }

  /**
    check_conflict_for_file: prepends this directory's conflicting names and,
    on the call for the last distinct parent, reverses the whole list.
   */
  method CheckConflictForFile(sel: seq<File>, newNames: seq<string>, dir: string, listing: seq<string>,
                              st: LegacyCheckState, parentsCount: nat)
    returns (st': LegacyCheckState)
    requires |newNames| == |sel|
    ensures st'.checkedParents == st.checkedParents + 1
    ensures st.checkedParents + 1 != parentsCount ==>
      st'.duplicates == Reverse(LegacyDirNames(sel, newNames, dir, listing, 0)) + st.duplicates
    ensures st.checkedParents + 1 == parentsCount ==>
      st'.duplicates == Reverse(st.duplicates) + LegacyDirNames(sel, newNames, dir, listing, 0)
  {
    var found := LegacyScanDir(sel, newNames, dir, listing);
    ReverseInvolution(found);
    var dups := found + st.duplicates;
    if st.checkedParents + 1 == parentsCount {
      ReverseAppend(found, st.duplicates);
      dups := Reverse(dups);
    }
    st' := LegacyCheckState(dups, st.checkedParents + 1);
  }

  /** The names all directories contribute, directory by directory, in the given order. */
  function LegacyAllNames(sel: seq<File>, newNames: seq<string>, dirs: seq<string>, listings: map<string, seq<string>>): (r: seq<string>)
    requires |newNames| == |sel|
    decreases |dirs|
  {
    if |dirs| == 0 then []
    else LegacyAllNames(sel, newNames, dirs[..|dirs| - 1], listings)
         + LegacyDirNames(sel, newNames, dirs[|dirs| - 1], Listing(listings, dirs[|dirs| - 1]), 0)
  }

  /** The listing of a directory; a directory missing from the map lists nothing. */
  function Listing(listings: map<string, seq<string>>, dir: string): seq<string>
  {
    if dir in listings then listings[dir] else []
  }

  /**
    The callbacks for all distinct parents, one after the other: once the last
    parent is checked the list holds every directory's names, directory by
    directory, each in selection order.
   */
  method LegacyCheckAllParents(sel: seq<File>, newNames: seq<string>, dirs: seq<string>, listings: map<string, seq<string>>)
    returns (st: LegacyCheckState)
    requires |newNames| == |sel|
    ensures st.checkedParents == |dirs|
    ensures st.duplicates == LegacyAllNames(sel, newNames, dirs, listings)
  {
    st := LegacyCheckState([], 0);
    for j := 0 to |dirs|
      invariant st.checkedParents == j
      invariant j < |dirs| ==> Reverse(st.duplicates) == LegacyAllNames(sel, newNames, dirs[..j], listings)
      invariant j == |dirs| ==> st.duplicates == LegacyAllNames(sel, newNames, dirs[..j], listings)
    {
      assert dirs[..j + 1][..j] == dirs[..j];
      var e := LegacyDirNames(sel, newNames, dirs[j], Listing(listings, dirs[j]), 0);
      ghost var before := st.duplicates;
      st := CheckConflictForFile(sel, newNames, dirs[j], Listing(listings, dirs[j]), st, |dirs|);
      if j + 1 < |dirs| {
        ReverseAppend(Reverse(e), before);
        ReverseInvolution(e);
      }
    }
    assert dirs[..|dirs|] == dirs;
  }

  /** The older check compares only against the listing: two files renamed to the same new name go unreported. */
  lemma LegacyMissesIntraBatch()
    ensures LegacyDirNames([File("a", "/d", false), File("b", "/d", false)], ["z", "z"], "/d", ["a", "b"], 0) == []
  {
    var sel := [File("a", "/d", false), File("b", "/d", false)];
    assert !LegacyFlagged(sel, ["z", "z"], "/d", ["a", "b"], 0);
    assert !LegacyFlagged(sel, ["z", "z"], "/d", ["a", "b"], 1);
  }

  /** file_has_conflict: a linear search of the duplicates list. */
  method FileHasConflict(duplicates: seq<string>, newName: string) returns (r: bool)
    ensures r <==> newName in duplicates
  {
    for i := 0 to |duplicates|
      invariant newName !in duplicates[..i]
    {
      if duplicates[i] == newName {
        return true;
      }
    }
    assert duplicates[..|duplicates|] == duplicates;
    return false;
  }
}

=== FILE: dialog_conflicts.dfy ===
/**
  Conflict detection of the current batch-rename dialog: the per-directory
  check that yields (new name, selection index) pairs, the walk over all
  distinct parents, the message classification, the highlighting of
  conflicting rows, and the gate that refuses unsafe names.
 */
module DialogConflicts {

  import opened Text
  import opened Selection
  import opened Lists
  import opened Transforms
  import opened Conflicts

  /** A conflict entry: the offending new name and the selection index of its file. */
  datatype ConflictData = ConflictData(name: string, index: nat)

  /** How many files of directory `dir` among the first `n` get the new name `name`. */
  function SameDirCount(sel: seq<File>, newNames: seq<string>, dir: string, name: string, n: nat): nat
    requires |newNames| == |sel| && n <= |sel|
  {
    if n == 0 then 0
    else SameDirCount(sel, newNames, dir, name, n - 1)
         + (if sel[n - 1].parent == dir && newNames[n - 1] == name then 1 else 0)
  }

  /**
    The two name tables of check_conflict_for_files: the first meeting of a
    new name in this directory goes into the new-names table, every later one
    into the conflicts table.
   */
  method BuildNameTables(sel: seq<File>, newNames: seq<string>, dir: string)
    returns (newNamesTable: set<string>, namesConflictsTable: set<string>)
    requires |newNames| == |sel|
    ensures forall x :: x in newNamesTable <==> SameDirCount(sel, newNames, dir, x, |sel|) >= 1
    ensures forall x :: x in namesConflictsTable <==> SameDirCount(sel, newNames, dir, x, |sel|) >= 2
  {
    newNamesTable := {};
    namesConflictsTable := {};
    for i := 0 to |sel|
      invariant forall x :: x in newNamesTable <==> SameDirCount(sel, newNames, dir, x, i) >= 1
      invariant forall x :: x in namesConflictsTable <==> SameDirCount(sel, newNames, dir, x, i) >= 2
    {
      var tagPresent := newNames[i] in newNamesTable;
      if sel[i].parent == dir {
        if !tagPresent {
          newNamesTable := newNamesTable + {newNames[i]};
        } else {
          namesConflictsTable := namesConflictsTable + {newNames[i]};
        }
      }
    }
  }

  /**
    An existing-file conflict: a file of this directory whose name changed,
    whose new name is listed there, and which no selected file clears.
    The dialog calls file_name_conflicts_with_results here. Its definition is
    not part of this model, so it is assumed to answer as file_name_changed.
   */
  predicate ExistingConflict(sel: seq<File>, newNames: seq<string>, dir: string, listing: seq<string>, i: int)
    requires |newNames| == |sel| && 0 <= i < |sel|
  {
    sel[i].parent == dir && newNames[i] != sel[i].name
    && newNames[i] in listing && !FileNameChanged(sel, newNames, newNames[i], Some(dir))
  }

  /** A not-unique conflict: a file of this directory whose new name another file of it also gets. */
  predicate DuplicateConflict(sel: seq<File>, newNames: seq<string>, dir: string, i: int)
    requires |newNames| == |sel| && 0 <= i < |sel|
  {
    sel[i].parent == dir && SameDirCount(sel, newNames, dir, newNames[i], |sel|) >= 2
  }

  predicate DirFlagged(sel: seq<File>, newNames: seq<string>, dir: string, listing: seq<string>, i: int)
    requires |newNames| == |sel| && 0 <= i < |sel|
  {
    ExistingConflict(sel, newNames, dir, listing, i) || DuplicateConflict(sel, newNames, dir, i)
  }

  /** The entries one directory contributes from position `i` on, in selection order. */
  function DirEntries(sel: seq<File>, newNames: seq<string>, dir: string, listing: seq<string>, i: nat): (r: seq<ConflictData>)
    requires |newNames| == |sel| && i <= |sel|
    decreases |sel| - i
  {
    if i == |sel| then []
    else (if DirFlagged(sel, newNames, dir, listing, i) then [ConflictData(newNames[i], i)] else [])
         + DirEntries(sel, newNames, dir, listing, i + 1)
  }

  /**
    check_conflict_for_files: the entries of one directory are prepended onto
    the shared duplicates list. Each file is taken at most once, first as an
    existing-file conflict, otherwise as a not-unique one.
   */
  method CheckConflictForFiles(sel: seq<File>, newNames: seq<string>, dir: string, listing: seq<string>,
                               duplicates: seq<ConflictData>)
    returns (r: seq<ConflictData>)
    requires |newNames| == |sel|
    ensures r == Reverse(DirEntries(sel, newNames, dir, listing, 0)) + duplicates
  {
    var newNamesTable, namesConflictsTable := BuildNameTables(sel, newNames, dir);
    var found: seq<ConflictData> := [];
    for i := 0 to |sel|
      invariant Reverse(found) + DirEntries(sel, newNames, dir, listing, i) == DirEntries(sel, newNames, dir, listing, 0)
    {
      var haveConflict := FileConflicts(sel, newNames, dir, listing, namesConflictsTable, i);
      var entry := if haveConflict then [ConflictData(newNames[i], i)] else [];
      PrependStep(found, entry, DirEntries(sel, newNames, dir, listing, i + 1), DirEntries(sel, newNames, dir, listing, 0));
      found := entry + found;
    }
    assert DirEntries(sel, newNames, dir, listing, |sel|) == [];
    ReverseInvolution(found);
    r := found + duplicates;
  }

  /** The decision for the file at position `i`, given the conflicts table of its directory. */
  method FileConflicts(sel: seq<File>, newNames: seq<string>, dir: string, listing: seq<string>,
                       namesConflictsTable: set<string>, i: nat)
    returns (haveConflict: bool)
    requires |newNames| == |sel| && i < |sel|
    requires forall x :: x in namesConflictsTable <==> SameDirCount(sel, newNames, dir, x, |sel|) >= 2
    ensures haveConflict == DirFlagged(sel, newNames, dir, listing, i)
  {
    haveConflict := false;
    if sel[i].parent == dir && newNames[i] != sel[i].name {
      if newNames[i] in listing && !FileNameChanged(sel, newNames, newNames[i], Some(dir)) {
        haveConflict := true;
      }
    }
    if !haveConflict {
      if newNames[i] in namesConflictsTable && sel[i].parent == dir {
        haveConflict := true;
      }
    }
  }

  /** All entries, directory by directory in the given order. */
  function AllEntries(sel: seq<File>, newNames: seq<string>, dirs: seq<string>, listings: map<string, seq<string>>): (r: seq<ConflictData>)
    requires |newNames| == |sel|
    decreases |dirs|
  {
    if |dirs| == 0 then []
    else AllEntries(sel, newNames, dirs[..|dirs| - 1], listings)
         + DirEntries(sel, newNames, dirs[|dirs| - 1], Listing(listings, dirs[|dirs| - 1]), 0)
  }

  /**
    The conflict check over every distinct parent, followed by the single
    reversal done when the check completes. The directories are assumed to
    come in the order of distinct_file_parents, since the dialog's
    batch_rename_files_get_distinct_parents is not part of this model.
   */
  method CheckAllDirectories(sel: seq<File>, newNames: seq<string>, listings: map<string, seq<string>>)
    returns (duplicates: seq<ConflictData>)
    requires |newNames| == |sel|
    ensures duplicates == AllEntries(sel, newNames, DistinctFileParents(sel), listings)
  {
    var dirs := DistinctFileParents(sel);
    var acc: seq<ConflictData> := [];
    for j := 0 to |dirs|
      invariant Reverse(acc) == AllEntries(sel, newNames, dirs[..j], listings)
    {
      assert dirs[..j + 1][..j] == dirs[..j];
      var e := DirEntries(sel, newNames, dirs[j], Listing(listings, dirs[j]), 0);
      ghost var before := acc;
      acc := CheckConflictForFiles(sel, newNames, dirs[j], Listing(listings, dirs[j]), acc);
      ReverseAppend(Reverse(e), before);
      ReverseInvolution(e);
    }
    assert dirs[..|dirs|] == dirs;
    duplicates := Reverse(acc);
  }

  /** Every entry from position `i` on names a file of `dir` at or after `i`, with its own new name, in strictly ascending order. */
  lemma {:induction false} DirEntriesWellFormed(sel: seq<File>, newNames: seq<string>, dir: string, listing: seq<string>, i: nat)
    requires |newNames| == |sel| && i <= |sel|
    ensures forall e :: e in DirEntries(sel, newNames, dir, listing, i) ==>
      i <= e.index < |sel| && sel[e.index].parent == dir && e.name == newNames[e.index]
      && DirFlagged(sel, newNames, dir, listing, e.index)
    ensures forall a, b :: 0 <= a < b < |DirEntries(sel, newNames, dir, listing, i)| ==>
      DirEntries(sel, newNames, dir, listing, i)[a].index < DirEntries(sel, newNames, dir, listing, i)[b].index
    decreases |sel| - i
  {
    if i < |sel| {
      DirEntriesWellFormed(sel, newNames, dir, listing, i + 1);
      var rest := DirEntries(sel, newNames, dir, listing, i + 1);
      if DirFlagged(sel, newNames, dir, listing, i) {
        var all := DirEntries(sel, newNames, dir, listing, i);
        assert all == [ConflictData(newNames[i], i)] + rest;
        forall a, b | 0 <= a < b < |all| ensures all[a].index < all[b].index {
          assert all[b] == rest[b - 1];
          if a > 0 {
            assert all[a] == rest[a - 1];
          } else {
            assert all[b] in rest;
          }
        }
      }
    }
  }

  /** A flagged file of the directory always has an entry. */
  lemma {:induction false} DirEntriesComplete(sel: seq<File>, newNames: seq<string>, dir: string, listing: seq<string>, i: nat, p: nat)
    requires |newNames| == |sel| && i <= p < |sel|
    requires DirFlagged(sel, newNames, dir, listing, p)
    ensures ConflictData(newNames[p], p) in DirEntries(sel, newNames, dir, listing, i)
    decreases p - i
  {
    if i < p {
      DirEntriesComplete(sel, newNames, dir, listing, i + 1, p);
    }
  }

  /**
    Flagging a duplicate does not require a name change: a file that keeps
    its name "a" while another file of its directory is renamed to "a" is
    reported along with it.
   */
  lemma UnchangedDuplicateIsFlagged()
    ensures DirEntries([File("a", "/d", false), File("b", "/d", false)], ["a", "a"], "/d", ["a", "b"], 0)
      == [ConflictData("a", 0), ConflictData("a", 1)]
  {
    var sel := [File("a", "/d", false), File("b", "/d", false)];
    assert SameDirCount(sel, ["a", "a"], "/d", "a", 2) == 2;
  }

  /** A rename chain a -> b, b -> c raises no conflict: the file "b" is itself renamed away. */
  lemma ChainIsNotAConflict()
    ensures DirEntries([File("a", "/d", false), File("b", "/d", false)], ["b", "c"], "/d", ["a", "b"], 0) == []
  {
    var sel := [File("a", "/d", false), File("b", "/d", false)];
    var names := ["b", "c"];
    assert FirstNameMatch(sel, "b") == Some(1);
    assert FileNameChanged(sel, names, "b", Some("/d"));
    assert SameDirCount(sel, names, "/d", "b", 2) == 1;
    assert SameDirCount(sel, names, "/d", "c", 2) == 1;
  }

  // ---------------------------------------------------------------------
  // Conflict message classification (select_nth_conflict)
  // ---------------------------------------------------------------------

  datatype ConflictKind = NotUnique | ExistingFile

  /**
    The message for the `nth` conflict: "not unique" when its name occurs more
    than once among all new names, otherwise "conflicts with an existing file".
   */
  method SelectNthConflictKind(duplicates: seq<ConflictData>, nth: nat, newNames: seq<string>)
    returns (kind: ConflictKind)
    requires nth < |duplicates|
    ensures kind == NotUnique <==> multiset(newNames)[duplicates[nth].name] > 1
  {
    var name := duplicates[nth].name;
    var occurrences := 0;
    for i := 0 to |newNames|
      invariant occurrences == multiset(newNames[..i])[name]
    {
      assert newNames[..i + 1] == newNames[..i] + [newNames[i]];
      if newNames[i] == name {
        occurrences := occurrences + 1;
      }
    }
    assert newNames[..|newNames|] == newNames;
    kind := if occurrences > 1 then NotUnique else ExistingFile;
  }

  /** Same-directory occurrences are occurrences among all new names. */
  lemma {:induction false} SameDirCountBound(sel: seq<File>, newNames: seq<string>, dir: string, name: string, n: nat)
    requires |newNames| == |sel| && n <= |sel|
    ensures SameDirCount(sel, newNames, dir, name, n) <= multiset(newNames[..n])[name]
  {
    if n > 0 {
      SameDirCountBound(sel, newNames, dir, name, n - 1);
      assert newNames[..n] == newNames[..n - 1] + [newNames[n - 1]];
    }
  }

  /** A not-unique entry is always shown with the "not unique" message. */
  lemma DuplicateEntryIsNotUnique(sel: seq<File>, newNames: seq<string>, dir: string, i: nat)
    requires |newNames| == |sel| && i < |sel|
    requires DuplicateConflict(sel, newNames, dir, i)
    ensures multiset(newNames)[newNames[i]] > 1
  {
    SameDirCountBound(sel, newNames, dir, newNames[i], |sel|);
    assert newNames[..|sel|] == newNames;
  }

  // ---------------------------------------------------------------------
  // Highlighting conflicting rows (update_conflict_row_background)
  // ---------------------------------------------------------------------

  /**
    The row walk as written: a single pointer into the duplicates list moves
    on only when the entry under it names the current row, which assumes the
    entries are in ascending index order.
   */
  function RowHighlightAsWritten(duplicates: seq<ConflictData>, p: nat, row: nat, rows: nat): (r: seq<bool>)
    requires row <= rows
    decreases rows - row
    ensures |r| == rows - row
  {
    if row == rows then []
    else if p < |duplicates| && duplicates[p].index == row then
      [true] + RowHighlightAsWritten(duplicates, p + 1, row + 1, rows)
    else
      [false] + RowHighlightAsWritten(duplicates, p, row + 1, rows)
  }

  /** Whether some entry at or after position `p` names row `row`. */
  predicate ConflictingFrom(duplicates: seq<ConflictData>, p: int, row: int)
  {
    exists m :: p <= m < |duplicates| && 0 <= m && duplicates[m].index == row
  }

  /** The intended highlighting: a row is highlighted exactly when some entry names it. */
  function RowHighlight(duplicates: seq<ConflictData>, rows: nat): (r: seq<bool>)
    ensures |r| == rows
    ensures forall row :: 0 <= row < rows ==> (r[row] <==> exists e :: e in duplicates && e.index == row)
  {
    var r := seq(rows, row => ConflictingFrom(duplicates, 0, row));
    assert forall row :: 0 <= row < rows ==> (r[row] <==> exists e :: e in duplicates && e.index == row) by {
      forall row | 0 <= row < rows
        ensures r[row] <==> exists e :: e in duplicates && e.index == row
      {
        if exists e :: e in duplicates && e.index == row {
          var e :| e in duplicates && e.index == row;
          var m :| 0 <= m < |duplicates| && duplicates[m] == e;
          assert duplicates[m].index == row;
        }
        if r[row] {
          var m :| 0 <= m < |duplicates| && duplicates[m].index == row;
          assert duplicates[m] in duplicates;
        }
      }
    }
    r
  }

  predicate StrictlyAscending(duplicates: seq<ConflictData>)
  {
    forall a, b :: 0 <= a < b < |duplicates| ==> duplicates[a].index < duplicates[b].index
  }

  /**
    With entries in strictly ascending index order and none before row `row`
    from position `p` on, the single-pointer walk highlights exactly the rows
    that some entry from `p` on names.
   */
  lemma {:induction false} AsWrittenCorrectWhenAscending(duplicates: seq<ConflictData>, p: nat, row: nat, rows: nat)
    requires row <= rows && p <= |duplicates|
    requires StrictlyAscending(duplicates)
    requires p < |duplicates| ==> duplicates[p].index >= row
    ensures forall k :: row <= k < rows ==>
      (RowHighlightAsWritten(duplicates, p, row, rows)[k - row] <==> ConflictingFrom(duplicates, p, k))
    decreases rows - row
  {
    if row < rows {
      var hit := p < |duplicates| && duplicates[p].index == row;
      var p' := if hit then p + 1 else p;
      AsWrittenCorrectWhenAscending(duplicates, p', row + 1, rows);
      var r := RowHighlightAsWritten(duplicates, p, row, rows);
      var rest := RowHighlightAsWritten(duplicates, p', row + 1, rows);
      assert r == [hit] + rest;
      forall k | row <= k < rows
        ensures r[k - row] <==> ConflictingFrom(duplicates, p, k)
      {
        if k == row {
          assert r[k - row] == hit;
          if hit {
            assert duplicates[p].index == k;
          } else if ConflictingFrom(duplicates, p, k) {
            assert false;
          }
        } else {
          assert r[k - row] == rest[k - (row + 1)];
          assert rest[k - (row + 1)] <==> ConflictingFrom(duplicates, p', k);
          if hit && ConflictingFrom(duplicates, p, k) {
            var m :| p <= m < |duplicates| && duplicates[m].index == k;
            assert m != p;
            assert ConflictingFrom(duplicates, p', k);
          }
          if ConflictingFrom(duplicates, p', k) {
            var m :| p' <= m < |duplicates| && duplicates[m].index == k;
            assert ConflictingFrom(duplicates, p, k);
          }
        }
      }
    }
  }

  /** For entries in strictly ascending index order the walk as written highlights the intended rows. */
  lemma AscendingHighlightAgrees(duplicates: seq<ConflictData>, rows: nat)
    requires StrictlyAscending(duplicates)
    ensures RowHighlightAsWritten(duplicates, 0, 0, rows) == RowHighlight(duplicates, rows)
  {
    AsWrittenCorrectWhenAscending(duplicates, 0, 0, rows);
    var a := RowHighlightAsWritten(duplicates, 0, 0, rows);
    var b := RowHighlight(duplicates, rows);
    forall k | 0 <= k < rows ensures a[k] == b[k] {
      if ConflictingFrom(duplicates, 0, k) {
        var m :| 0 <= m < |duplicates| && duplicates[m].index == k;
        assert duplicates[m] in duplicates;
      }
      if b[k] {
        var e :| e in duplicates && e.index == k;
        var m :| 0 <= m < |duplicates| && duplicates[m] == e;
        assert ConflictingFrom(duplicates, 0, k);
      }
    }
  }

  /** One directory's entries are in strictly ascending index order. */
  lemma DirEntriesAscending(sel: seq<File>, newNames: seq<string>, dir: string, listing: seq<string>)
    requires |newNames| == |sel|
    ensures StrictlyAscending(DirEntries(sel, newNames, dir, listing, 0))
  {
    DirEntriesWellFormed(sel, newNames, dir, listing, 0);
  }

  /** For a single-parent selection the full list is that directory's list, so the walk as written is right. */
  lemma SingleDirHighlightAgrees(sel: seq<File>, newNames: seq<string>, listings: map<string, seq<string>>, rows: nat)
    requires |newNames| == |sel| && |sel| > 0
    requires forall i :: 0 <= i < |sel| ==> sel[i].parent == sel[0].parent
    ensures RowHighlightAsWritten(AllEntries(sel, newNames, DistinctFileParents(sel), listings), 0, 0, rows)
      == RowHighlight(AllEntries(sel, newNames, DistinctFileParents(sel), listings), rows)
  {
    SingleParentIffOneDistinct(sel);
    var dirs := DistinctFileParents(sel);
    assert dirs[..0] == [];
    DirEntriesAscending(sel, newNames, dirs[0], Listing(listings, dirs[0]));
    assert AllEntries(sel, newNames, dirs, listings) == DirEntries(sel, newNames, dirs[0], Listing(listings, dirs[0]), 0);
    AscendingHighlightAgrees(AllEntries(sel, newNames, dirs, listings), rows);
  }

  /** The interleaved selection used below: "a" and "c" in /p, "b" in /q, renamed to x, y, z. */
  function InterleavedSel(): seq<File>
  {
    [File("a", "/p", false), File("b", "/q", false), File("c", "/p", false)]
  }

  function InterleavedListings(): map<string, seq<string>>
  {
    map["/p" := ["a", "c", "x", "z"], "/q" := ["b", "y"]]
  }

  lemma InterleavedDirEntries()
    ensures DirEntries(InterleavedSel(), ["x", "y", "z"], "/q", ["b", "y"], 0) == [ConflictData("y", 1)]
    ensures DirEntries(InterleavedSel(), ["x", "y", "z"], "/p", ["a", "c", "x", "z"], 0)
      == [ConflictData("x", 0), ConflictData("z", 2)]
  {
    var sel := InterleavedSel();
    assert FirstNameMatch(sel, "x") == None;
    assert FirstNameMatch(sel, "y") == None;
    assert FirstNameMatch(sel, "z") == None;
  }

  /**
    Files of two directories interleaved in the selection: the list built
    directory by directory is not index-ascending.
   */
  lemma MultiDirEntriesNotAscending()
    ensures AllEntries(InterleavedSel(), ["x", "y", "z"], DistinctFileParents(InterleavedSel()), InterleavedListings())
      == [ConflictData("y", 1), ConflictData("x", 0), ConflictData("z", 2)]
  {
    InterleavedParentsOrder();
    InterleavedDirEntries();
    var dirs := ["/q", "/p"];
    assert dirs[..1] == ["/q"];
    assert dirs[..1][..0] == [];
    assert Listing(InterleavedListings(), "/q") == ["b", "y"];
    assert Listing(InterleavedListings(), "/p") == ["a", "c", "x", "z"];
  }

  /** On that list the walk as written marks row 1 only, where rows 0, 1 and 2 all conflict. */
  lemma MultiDirHighlightMissesRow()
    ensures RowHighlightAsWritten([ConflictData("y", 1), ConflictData("x", 0), ConflictData("z", 2)], 0, 0, 3)
      == [false, true, false]
    ensures RowHighlight([ConflictData("y", 1), ConflictData("x", 0), ConflictData("z", 2)], 3)
      == [true, true, true]
  {
    var ds := [ConflictData("y", 1), ConflictData("x", 0), ConflictData("z", 2)];
    assert ds[1] in ds && ds[0] in ds && ds[2] in ds;
  }

  /** The parents of the interleaved selection above come out in the order /q, /p. */
  lemma InterleavedParentsOrder()
    ensures DistinctFileParents(InterleavedSel()) == ["/q", "/p"]
  {
    var sel := InterleavedSel();
    assert sel[..2][..1] == [sel[0]];
    assert [sel[0]][..0] == [];
  }

  // ---------------------------------------------------------------------
  // The unsafe-name gate (have_unallowed_character)
  // ---------------------------------------------------------------------

  /** The dialog's two modes. */
  datatype DialogMode = FormatMode | ReplaceMode

  /** Which message the label ends up showing; later checks overwrite earlier ones. */
  datatype UnallowedReason = SlashChar | DotName | DotDotName

  predicate SomeNameIs(newNames: seq<string>, bad: string)
  {
    exists i :: 0 <= i < |newNames| && newNames[i] == bad
  }

  /**
    The gate before the conflict check. In format mode it looks at the name
    template, in replace mode at the replacement text for a slash and at
    every new name for "." and "..". None means the names may go on to the
    conflict check.
   */
  function HaveUnallowedCharacter(mode: DialogMode, nameEntry: string, replaceEntry: string, newNames: seq<string>)
    : (r: Option<UnallowedReason>)
    ensures mode == FormatMode ==>
      (r.None? <==> !HasChar(nameEntry, '/') && nameEntry != "." && nameEntry != "..")
    ensures mode == ReplaceMode ==>
      (r.None? <==> !HasChar(replaceEntry, '/') && !SomeNameIs(newNames, ".") && !SomeNameIs(newNames, ".."))
    ensures r == Some(SlashChar) ==> HasChar(if mode == FormatMode then nameEntry else replaceEntry, '/')
  {
    var entryText := if mode == FormatMode then nameEntry else replaceEntry;
    var slash := HasChar(entryText, '/');
    var dot := if mode == FormatMode then entryText == "." else SomeNameIs(newNames, ".");
    var dotdot := if mode == FormatMode then entryText == ".." else SomeNameIs(newNames, "..");
    if dotdot then Some(DotDotName)
    else if dot then Some(DotName)
    else if slash then Some(SlashChar)
    else None
  }

  /**
    In replace mode a name that passes the gate is safe: when no current name
    holds a slash, no new name holds one, and none is "." or "..".
   */
  lemma ReplaceGateYieldsSafeNames(sel: seq<File>, findText: string, replaceEntry: string, newNames: seq<string>)
    requires |newNames| == |sel|
    requires forall i :: 0 <= i < |sel| ==> newNames[i] == BatchRenameReplace(sel[i].name, Some(findText), Some(replaceEntry))
    requires forall i :: 0 <= i < |sel| ==> !HasChar(sel[i].name, '/')
    requires HaveUnallowedCharacter(ReplaceMode, [], replaceEntry, newNames).None?
    ensures forall i :: 0 <= i < |newNames| ==>
      !HasChar(newNames[i], '/') && newNames[i] != "." && newNames[i] != ".."
  {
    forall i | 0 <= i < |newNames|
      ensures !HasChar(newNames[i], '/') && newNames[i] != "." && newNames[i] != ".."
    {
      ReplaceKeepsCharOut(sel[i].name, Some(findText), Some(replaceEntry), '/');
    }
  }
}

=== FILE: legacy_tags.dfy ===
/**
  The older batch-rename dialog's tag bookkeeping. Each tag is one integer
  field: its marker's character offset in the entry, -1 when the marker is
  absent, and -2 when the tag cannot be used for the selection at all. The
  tokenizer recognises a marker by its first three characters; the offsets are
  refreshed after every edit from the marker's last occurrence in the text.
 */
module LegacyTags {

  import opened Text
  import Tags

  /** TAG_UNAVAILABLE. */
  const TagUnavailable: int := -2
  /** The value of a tag whose marker is not in the entry. */
  const TagMissing: int := -1

  const OriginalNameMarker: string := "[Original file name]"
  const NumberingMarker0: string := "[1, 2, 3]"
  const NumberingMarker1: string := "[01, 02, 03]"
  const NumberingMarker2: string := "[001, 002, 003]"
  const CreationDateMarker: string := "[Date taken]"
  const EquipmentMarker: string := "[Camera model]"
  const SeasonMarker: string := "[Season nr]"
  const EpisodeNrMarker: string := "[Episode nr]"
  const TrackNrMarker: string := "[Track nr]"
  const ArtistNameMarker: string := "[Artist name]"

  /** The markers the tokenizer knows, in the order it tries their prefixes. */
  const LegacyMarkers: seq<string> :=
    [OriginalNameMarker, NumberingMarker0, NumberingMarker1, NumberingMarker2, CreationDateMarker,
     EquipmentMarker, SeasonMarker, EpisodeNrMarker, TrackNrMarker, ArtistNameMarker]

  /** The tag fields of the dialog. */
  datatype LegacyTagState = LegacyTagState(
    originalName: int,
    numbering: int,
    creationDate: int,
    equipment: int,
    season: int,
    episodeNr: int,
    trackNr: int,
    artistName: int)

  // ---------------------------------------------------------------------
  // split_entry_text
  // ---------------------------------------------------------------------

  /** The text the pieces spell out. */
  function Concat(parts: seq<string>): string
  {
    if |parts| == 0 then [] else parts[0] + Concat(parts[1..])
  }

  lemma {:induction false} ConcatAppend(a: seq<string>, b: seq<string>)
    ensures Concat(a + b) == Concat(a) + Concat(b)
  {
    if |a| == 0 {
      assert a + b == b;
    } else {
      assert (a + b)[0] == a[0];
      assert (a + b)[1..] == a[1..] + b;
      ConcatAppend(a[1..], b);
    }
  }

  /** The recorded offsets of the placed tags, in the order the tokenizer collects them. */
  function PlacedOffsets(t: LegacyTagState): (r: seq<int>)
    ensures forall x :: x in r <==> x >= 0 && x in Fields(t)
  {
    Placed(Fields(t))
  }

  /** The fields in collection order: numbering first, then the metadata tags. */
  function Fields(t: LegacyTagState): seq<int>
  {
    [t.numbering, t.originalName, t.creationDate, t.equipment, t.season, t.episodeNr, t.trackNr, t.artistName]
  }

  /** The non-negative values, in order. */
  function Placed(vals: seq<int>): (r: seq<int>)
    ensures forall x :: x in r <==> x >= 0 && x in vals
  {
    if |vals| == 0 then []
    else (if vals[0] >= 0 then [vals[0]] else []) + Placed(vals[1..])
  }

  /** The (up to) three characters at offset `p`, as far as the text reaches. */
  function Prefix3(text: string, p: int): (r: string)
    requires 0 <= p <= |text|
    ensures |r| <= 3 && p + |r| <= |text| && r == text[p..p + |r|]
    ensures p + 3 <= |text| ==> |r| == 3
  {
    text[p..if p + 3 <= |text| then p + 3 else |text|]
  }

  /** The first of the `known` markers whose first three characters are `prefix`. */
  function MarkerIn(prefix: string, known: seq<string>): (r: Option<string>)
    ensures r.Some? ==> r.value in known && |r.value| >= 3 && r.value[..3] == prefix
    ensures r.None? <==> forall i :: 0 <= i < |known| ==> |known[i]| < 3 || known[i][..3] != prefix
  {
    if |known| == 0 then None
    else if |known[0]| >= 3 && known[0][..3] == prefix then Some(known[0])
    else
      assert forall i :: 1 <= i < |known| ==> known[i] == known[1..][i - 1];
      MarkerIn(prefix, known[1..])
  }

  /** A one-piece list for a non-empty run, nothing for an empty one. */
  function NonEmpty(s: string): (r: seq<string>)
    ensures Concat(r) == s
    ensures forall k :: 0 <= k < |r| ==> r[k] == s && |s| > 0
  {
    if s == [] then [] else [s]
  }

  /** The offset is in the text and, when it starts a known prefix, the whole marker fits. */
  predicate OffsetOk(text: string, known: seq<string>, p: int)
  {
    0 <= p <= |text|
    && (MarkerIn(Prefix3(text, p), known).Some? ==> p + |MarkerIn(Prefix3(text, p), known).value| <= |text|)
  }

  predicate OffsetsOk(text: string, known: seq<string>, offs: seq<int>)
  {
    forall i :: 0 <= i < |offs| ==> OffsetOk(text, known, offs[i])
  }

  /** No piece of a split is the empty string. */
  predicate NoEmptyPiece(parts: seq<string>)
  {
    forall k :: 0 <= k < |parts| ==> |parts[k]| > 0
  }

  lemma NoEmptyPieceJoin(a: seq<string>, b: seq<string>)
    requires NoEmptyPiece(a) && NoEmptyPiece(b)
    ensures NoEmptyPiece(a + b)
  {
    forall k | 0 <= k < |a + b| ensures |(a + b)[k]| > 0 {
      if k < |a| {
        assert (a + b)[k] == a[k];
      } else {
        assert (a + b)[k] == b[k - |a|];
      }
    }
  }

  /** What one step of the walk emits and the cut point it leaves. */
  datatype WalkStep = WalkStep(pieces: seq<string>, next: int)

  /**
    One step of the tokenizer at offset `p` with cut point `j`: the run before
    the offset (the rest of the text when the offset lies behind the cut point),
    then the marker; a known prefix moves the cut point past the whole marker,
    an unknown one is emitted as its three characters and leaves the cut point
    where it was.
   */
  function WalkHead(text: string, known: seq<string>, p: int, j: int): (r: WalkStep)
    requires 0 <= j <= |text| && OffsetOk(text, known, p)
    ensures 0 <= r.next <= |text|
    ensures p < |text| ==> NoEmptyPiece(r.pieces)
  {
    var run := if p >= j then text[j..p] else text[j..];
    var prefix := Prefix3(text, p);
    match MarkerIn(prefix, known)
    case Some(m) => WalkStep(NonEmpty(run) + [m], p + |m|)
    case None => WalkStep(NonEmpty(run) + [prefix], j)
  }

  /** The tokenizer's walk over the sorted offsets, then the rest of the text from the last cut point. */
  function LegacyWalk(text: string, known: seq<string>, offs: seq<int>, j: int): (r: seq<string>)
    requires 0 <= j <= |text|
    requires OffsetsOk(text, known, offs)
    decreases |offs|
  {
    if |offs| == 0 then NonEmpty(text[j..])
    else
      assert OffsetOk(text, known, offs[0]);
      assert OffsetsOk(text, known, offs[1..]);
      var step := WalkHead(text, known, offs[0], j);
      step.pieces + LegacyWalk(text, known, offs[1..], step.next)
  }

  /** split_entry_text of the older dialog: the placed offsets sorted ascending, then the walk. */
  function SplitEntryTextLegacy(t: LegacyTagState, text: string): (r: seq<string>)
    requires OffsetsOk(text, LegacyMarkers, PlacedOffsets(t))
  {
    SortedOffsetsOk(text, LegacyMarkers, PlacedOffsets(t));
    LegacyWalk(text, LegacyMarkers, Tags.SortPositions(PlacedOffsets(t)), 0)
  }

  /** Sorting keeps every offset, so the sorted offsets are as good as the unsorted ones. */
  lemma SortedOffsetsOk(text: string, known: seq<string>, offs: seq<int>)
    requires OffsetsOk(text, known, offs)
    ensures OffsetsOk(text, known, Tags.SortPositions(offs))
  {
    var sorted := Tags.SortPositions(offs);
    forall i | 0 <= i < |sorted| ensures OffsetOk(text, known, sorted[i]) {
      assert sorted[i] in multiset(sorted);
      assert sorted[i] in multiset(offs);
      var k :| 0 <= k < |offs| && offs[k] == sorted[i];
    }
  }

  /** With every offset inside the text, no piece of the walk is empty. */
  lemma {:induction false} LegacyWalkNoEmptyPiece(text: string, known: seq<string>, offs: seq<int>, j: int)
    requires 0 <= j <= |text| && OffsetsOk(text, known, offs)
    requires forall i :: 0 <= i < |offs| ==> offs[i] < |text|
    ensures NoEmptyPiece(LegacyWalk(text, known, offs, j))
    decreases |offs|
  {
    if |offs| > 0 {
      assert OffsetOk(text, known, offs[0]);
      var tail := offs[1..];
      assert OffsetsOk(text, known, tail);
      assert forall i :: 0 <= i < |tail| ==> tail[i] < |text| by {
        forall i | 0 <= i < |tail| ensures tail[i] < |text| {
          assert tail[i] == offs[i + 1];
        }
      }
      var step := WalkHead(text, known, offs[0], j);
      LegacyWalkNoEmptyPiece(text, known, tail, step.next);
      NoEmptyPieceJoin(step.pieces, LegacyWalk(text, known, tail, step.next));
    }
  }

  /** A known marker sits at the offset. */
  predicate MarkedAt(text: string, known: seq<string>, p: int)
  {
    0 <= p <= |text| && MarkerIn(Prefix3(text, p), known).Some? && OccursAt(text, MarkerIn(Prefix3(text, p), known).value, p)
  }

  /** Offsets ascending, each carrying its marker, each marker ending at or before the next offset. */
  predicate Laid(text: string, known: seq<string>, offs: seq<int>)
  {
    (forall i :: 0 <= i < |offs| ==> MarkedAt(text, known, offs[i]))
    && (forall i :: 0 <= i < |offs| - 1 ==>
          MarkedAt(text, known, offs[i]) && offs[i] + |MarkerIn(Prefix3(text, offs[i]), known).value| <= offs[i + 1])
  }

  /** Laid offsets are all acceptable to the walk. */
  lemma LaidOffsetsOk(text: string, known: seq<string>, offs: seq<int>)
    requires Laid(text, known, offs)
    ensures OffsetsOk(text, known, offs)
  {
    forall i | 0 <= i < |offs| ensures OffsetOk(text, known, offs[i]) {
      assert MarkedAt(text, known, offs[i]);
    }
  }

  /** The first laid marker: where it is and what follows it. */
  lemma LaidHead(text: string, known: seq<string>, offs: seq<int>) returns (m: string)
    requires Laid(text, known, offs) && |offs| > 0
    ensures m == MarkerIn(Prefix3(text, offs[0]), known).value
    ensures OccursAt(text, m, offs[0])
    ensures Laid(text, known, offs[1..]) && (|offs[1..]| > 0 ==> offs[0] + |m| <= offs[1..][0])
  {
    assert MarkedAt(text, known, offs[0]);
    m := MarkerIn(Prefix3(text, offs[0]), known).value;
    var tail := offs[1..];
    forall i | 0 <= i < |tail| - 1
      ensures MarkedAt(text, known, tail[i]) && tail[i] + |MarkerIn(Prefix3(text, tail[i]), known).value| <= tail[i + 1]
    {
      assert tail[i] == offs[i + 1] && tail[i + 1] == offs[i + 2];
    }
    if |tail| > 0 {
      assert MarkedAt(text, known, offs[0]) && offs[0] + |m| <= offs[1];
    }
  }

  /** A step over a known marker at or after the cut point spells out the text up to the marker's end. */
  lemma KnownStepSpells(text: string, known: seq<string>, p: int, j: int, m: string)
    requires 0 <= j <= p && MarkedAt(text, known, p) && m == MarkerIn(Prefix3(text, p), known).value
    ensures OffsetOk(text, known, p)
    ensures WalkHead(text, known, p, j).next == p + |m| <= |text|
    ensures Concat(WalkHead(text, known, p, j).pieces) == text[j..p + |m|]
  {
    var head := NonEmpty(text[j..p]);
    assert WalkHead(text, known, p, j).pieces == head + [m];
    ConcatAppend(head, [m]);
    assert Concat([m]) == m + Concat([]);
    assert text[p..p + |m|] == m;
    assert text[j..p + |m|] == text[j..p] + text[p..p + |m|];
  }

  lemma {:induction false} StepThenRest(text: string, j: int, n: int, step: seq<string>, rest: seq<string>)
    requires 0 <= j <= n <= |text|
    requires Concat(step) == text[j..n] && Concat(rest) == text[n..]
    ensures Concat(step + rest) == text[j..]
  {
    ConcatAppend(step, rest);
    assert text[j..] == text[j..n] + text[n..];
  }

  /** With every marker laid out in order from the cut point on, the walk gives back the rest of the text. */
  lemma {:induction false} LegacyWalkRoundTrip(text: string, known: seq<string>, offs: seq<int>, j: int)
    requires 0 <= j <= |text|
    requires Laid(text, known, offs)
    requires |offs| > 0 ==> j <= offs[0]
    ensures OffsetsOk(text, known, offs)
    ensures Concat(LegacyWalk(text, known, offs, j)) == text[j..]
    decreases |offs|
  {
    LaidOffsetsOk(text, known, offs);
    if |offs| > 0 {
      var m := LaidHead(text, known, offs);
      KnownStepSpells(text, known, offs[0], j, m);
      var step := WalkHead(text, known, offs[0], j);
      LegacyWalkRoundTrip(text, known, offs[1..], step.next);
      StepThenRest(text, j, step.next, step.pieces, LegacyWalk(text, known, offs[1..], step.next));
    }
  }

  /**
    An unknown prefix leaves the cut point where it was, so the text after it is
    emitted from the old cut point again: the walk does not give the text back.
   */
  lemma UnknownPrefixRepeatsText(text: string, known: seq<string>, p: int, j: int)
    requires 0 <= j <= p <= |text| && OffsetOk(text, known, p)
    requires MarkerIn(Prefix3(text, p), known).None?
    ensures OffsetsOk(text, known, [p])
    ensures Concat(LegacyWalk(text, known, [p], j)) == text[j..p] + Prefix3(text, p) + text[j..]
  {
    var head := NonEmpty(text[j..p]);
    var prefix := Prefix3(text, p);
    assert OffsetsOk(text, known, [p]);
    assert LegacyWalk(text, known, [p], j) == (head + [prefix]) + NonEmpty(text[j..]);
    ConcatAppend(head + [prefix], NonEmpty(text[j..]));
    ConcatAppend(head, [prefix]);
    assert Concat([prefix]) == prefix + Concat([]);
  }

  // ---------------------------------------------------------------------
  // Marker geometry: why refreshed offsets never collide
  // ---------------------------------------------------------------------

  /** A marker opens with '[' , closes with ']' and has neither bracket inside. */
  predicate Bracketed(m: string)
  {
    |m| >= 3 && m[0] == '[' && m[|m| - 1] == ']'
    && forall i :: 0 < i < |m| - 1 ==> m[i] != '[' && m[i] != ']'
  }

  lemma MarkersBracketed()
    ensures forall m :: m in LegacyMarkers ==> Bracketed(m)
  {
    assert Bracketed(OriginalNameMarker);
    assert Bracketed(NumberingMarker0);
    assert Bracketed(NumberingMarker1);
    assert Bracketed(NumberingMarker2);
    assert Bracketed(CreationDateMarker);
    assert Bracketed(EquipmentMarker);
    assert Bracketed(SeasonMarker);
    assert Bracketed(EpisodeNrMarker);
    assert Bracketed(TrackNrMarker);
    assert Bracketed(ArtistNameMarker);
  }

  /** No two known markers share their first three characters. */
  lemma PrefixesUnique()
    ensures forall a, b :: 0 <= a < b < |LegacyMarkers| ==> LegacyMarkers[a][..3] != LegacyMarkers[b][..3]
  {
    var prefixes := ["[Or", "[1,", "[01", "[00", "[Da", "[Ca", "[Se", "[Ep", "[Tr", "[Ar"];
    assert forall a :: 0 <= a < |LegacyMarkers| ==> LegacyMarkers[a][..3] == prefixes[a];
  }

  lemma CharsAt(text: string, m: string, p: int)
    requires OccursAt(text, m, p)
    ensures forall i :: 0 <= i < |m| ==> text[p + i] == m[i]
  {
    forall i | 0 <= i < |m| ensures text[p + i] == m[i] {
      assert text[p..p + |m|][i] == m[i];
    }
  }

  /** Two bracketed markers starting at the same offset are the same marker. */
  lemma {:induction false} SameStartSameMarker(text: string, a: string, b: string, p: int)
    requires Bracketed(a) && Bracketed(b) && OccursAt(text, a, p) && OccursAt(text, b, p)
    ensures a == b
  {
    CharsAt(text, a, p);
    CharsAt(text, b, p);
    assert text[p + |a| - 1] == ']' && text[p + |b| - 1] == ']';
    assert a == text[p..p + |a|] && b == text[p..p + |b|];
  }

  /** A bracketed marker that starts earlier ends before a later one starts. */
  lemma {:induction false} EarlierMarkerEndsFirst(text: string, a: string, b: string, pa: int, pb: int)
    requires Bracketed(a) && Bracketed(b) && OccursAt(text, a, pa) && OccursAt(text, b, pb) && pa < pb
    ensures pa + |a| <= pb
  {
    CharsAt(text, a, pa);
    CharsAt(text, b, pb);
    assert text[pb + 0] == '[';
  }

  /** A known marker at an offset is what the tokenizer finds there. */
  lemma {:induction false} KnownMarkerFound(text: string, m: string, p: int)
    requires m in LegacyMarkers && OccursAt(text, m, p)
    ensures MarkedAt(text, LegacyMarkers, p)
    ensures MarkerIn(Prefix3(text, p), LegacyMarkers) == Some(m)
  {
    MarkersBracketed();
    PrefixesUnique();
    assert Prefix3(text, p) == text[p..p + 3] == m[..3];
    var found := MarkerIn(Prefix3(text, p), LegacyMarkers);
    var a :| 0 <= a < |LegacyMarkers| && LegacyMarkers[a] == found.value;
    var b :| 0 <= b < |LegacyMarkers| && LegacyMarkers[b] == m;
    assert a == b;
  }

  /** Offsets each carrying a known marker, any earlier marker ending before a later offset. */
  predicate Spaced(text: string, offs: seq<int>)
  {
    (forall x :: x in offs ==> MarkedAt(text, LegacyMarkers, x))
    && (forall x, y :: x in offs && y in offs && x < y ==>
          x + |MarkerIn(Prefix3(text, x), LegacyMarkers).value| <= y)
  }

  lemma AscendingSpacedIsLaid(text: string, offs: seq<int>)
    requires Tags.StrictlyAscending(offs) && Spaced(text, offs)
    ensures Laid(text, LegacyMarkers, offs)
  {
    forall i | 0 <= i < |offs| ensures MarkedAt(text, LegacyMarkers, offs[i]) {
      assert offs[i] in offs;
    }
    forall i | 0 <= i < |offs| - 1
      ensures offs[i] + |MarkerIn(Prefix3(text, offs[i]), LegacyMarkers).value| <= offs[i + 1]
    {
      assert offs[i] in offs && offs[i + 1] in offs && offs[i] < offs[i + 1];
    }
  }

  /** The offsets placed by the fields are distinct when no two placed fields share a value. */
  lemma {:induction false} PlacedDistinct(vals: seq<int>)
    requires forall i, j :: 0 <= i < j < |vals| && vals[i] >= 0 && vals[j] >= 0 ==> vals[i] != vals[j]
    ensures Tags.Distinct(Placed(vals))
    decreases |vals|
  {
    if |vals| > 0 {
      var tail := vals[1..];
      assert forall i, j :: 0 <= i < j < |tail| && tail[i] >= 0 && tail[j] >= 0 ==> tail[i] != tail[j] by {
        forall i, j | 0 <= i < j < |tail| && tail[i] >= 0 && tail[j] >= 0 ensures tail[i] != tail[j] {
          assert tail[i] == vals[i + 1] && tail[j] == vals[j + 1];
        }
      }
      PlacedDistinct(tail);
      if vals[0] >= 0 {
        assert vals[0] !in Placed(tail) by {
          forall k | 0 <= k < |tail| && tail[k] >= 0 ensures tail[k] != vals[0] {
            assert tail[k] == vals[k + 1];
          }
        }
        Tags.DistinctCons(vals[0], Placed(tail));
        assert Placed(vals) == [vals[0]] + Placed(tail);
      } else {
        assert Placed(vals) == Placed(tail);
      }
    }
  }

  /** Placed field values that each carry their own marker are distinct and spaced. */
  lemma {:induction false} MarkedFieldsSpaced(text: string, vals: seq<int>, marks: seq<string>)
    requires |vals| == |marks|
    requires forall i :: 0 <= i < |marks| ==> marks[i] in LegacyMarkers
    requires forall i, j :: 0 <= i < j < |marks| ==> marks[i] != marks[j]
    requires forall i :: 0 <= i < |vals| && vals[i] >= 0 ==> OccursAt(text, marks[i], vals[i])
    ensures Tags.Distinct(Placed(vals)) && Spaced(text, Placed(vals))
  {
    MarkersBracketed();
    var placed := Placed(vals);
    forall i, j | 0 <= i < j < |vals| && vals[i] >= 0 && vals[j] >= 0 ensures vals[i] != vals[j] {
      if vals[i] == vals[j] {
        SameStartSameMarker(text, marks[i], marks[j], vals[i]);
      }
    }
    PlacedDistinct(vals);
    forall x | x in placed
      ensures MarkedAt(text, LegacyMarkers, x) && MarkerIn(Prefix3(text, x), LegacyMarkers).value in LegacyMarkers
    {
      var i :| 0 <= i < |vals| && vals[i] == x;
      KnownMarkerFound(text, marks[i], x);
    }
    forall x, y | x in placed && y in placed && x < y
      ensures x + |MarkerIn(Prefix3(text, x), LegacyMarkers).value| <= y
    {
      EarlierMarkerEndsFirst(text, MarkerIn(Prefix3(text, x), LegacyMarkers).value,
        MarkerIn(Prefix3(text, y), LegacyMarkers).value, x, y);
    }
  }

  /** Distinct spaced offsets, sorted, tokenize back into the text. */
  lemma {:induction false} SpacedRoundTrip(text: string, offs: seq<int>)
    requires Tags.Distinct(offs) && Spaced(text, offs)
    ensures OffsetsOk(text, LegacyMarkers, offs)
    ensures OffsetsOk(text, LegacyMarkers, Tags.SortPositions(offs))
    ensures Concat(LegacyWalk(text, LegacyMarkers, Tags.SortPositions(offs), 0)) == text
  {
    var sorted := Tags.SortPositions(offs);
    assert forall x :: x in sorted <==> x in offs by {
      assert forall x :: x in sorted <==> x in multiset(sorted);
      assert forall x :: x in offs <==> x in multiset(offs);
    }
    Tags.SortedDistinctStrict(offs, sorted);
    assert Spaced(text, sorted);
    AscendingSpacedIsLaid(text, sorted);
    forall i | 0 <= i < |offs| ensures OffsetOk(text, LegacyMarkers, offs[i]) {
      assert offs[i] in offs;
      assert MarkedAt(text, LegacyMarkers, offs[i]);
    }
    LegacyWalkRoundTrip(text, LegacyMarkers, sorted, 0);
  }

  // ---------------------------------------------------------------------
  // check_tag, check_numbering_tags, update_tags
  // ---------------------------------------------------------------------

  /** The actions the dialog registers, one constructor per registered name. */
  datatype LegacyAction =
    | NumberingOrderChanged | OriginalNameAction | NumberingZeroAction | NumberingOneAction | NumberingTwoAction
    | CreationDateAction | EquipmentAction | SeasonAction | EpisodeNrAction | VideoAlbumAction
    | TrackNrAction | ArtistNameAction | AlbumTitleAction

  /** The registered action name. */
  function ActionName(a: LegacyAction): string
  {
    match a
    case NumberingOrderChanged => "numbering-order-changed"
    case OriginalNameAction => "add-original-file-name-tag"
    case NumberingZeroAction => "add-numbering-tag-zero"
    case NumberingOneAction => "add-numbering-tag-one"
    case NumberingTwoAction => "add-numbering-tag-two"
    case CreationDateAction => "add-creation-date-tag"
    case EquipmentAction => "add-equipment-tag"
    case SeasonAction => "add-season-tag"
    case EpisodeNrAction => "add-episode-tag"
    case VideoAlbumAction => "add-video-album-tag"
    case TrackNrAction => "add-track-number-tag"
    case ArtistNameAction => "add-artist-name-tag"
    case AlbumTitleAction => "add-album-title-tag"
  }

  /** Every registered action. */
  const LegacyDialogActions: set<LegacyAction> :=
    {NumberingOrderChanged, OriginalNameAction, NumberingZeroAction, NumberingOneAction, NumberingTwoAction,
     CreationDateAction, EquipmentAction, SeasonAction, EpisodeNrAction, VideoAlbumAction,
     TrackNrAction, ArtistNameAction, AlbumTitleAction}

  predicate IsNumberingAction(a: LegacyAction)
  {
    a == NumberingZeroAction || a == NumberingOneAction || a == NumberingTwoAction
  }

  /** The actions of the tags query_finished may mark unavailable. */
  predicate IsMetadataAction(a: LegacyAction)
  {
    a == CreationDateAction || a == EquipmentAction || a == SeasonAction
    || a == EpisodeNrAction || a == TrackNrAction || a == ArtistNameAction
  }

  /** The action is registered and enabled. */
  predicate On(actions: map<LegacyAction, bool>, a: LegacyAction)
  {
    a in actions && actions[a]
  }

  /**
    The offset check_tag leaves: the marker's last occurrence when the text has
    it; otherwise -1 for a tag that was placed, and the old value for one that
    was not.
   */
  function RefreshedOffset(text: string, marker: string, prev: int): (r: int)
    ensures r >= 0 <==> Contains(text, marker)
    ensures Contains(text, marker) ==> OccursAt(text, marker, r) && forall j :: r < j ==> !OccursAt(text, marker, j)
    ensures !Contains(text, marker) ==> r == (if prev >= 0 then TagMissing else prev)
  {
    match LastIndexOf(text, marker)
    case Some(p) => p
    case None => if prev >= 0 then TagMissing else prev
  }

  /** Refreshing twice against the same text is refreshing once. */
  lemma RefreshedOffsetIdempotent(text: string, marker: string, prev: int)
    ensures RefreshedOffset(text, marker, RefreshedOffset(text, marker, prev)) == RefreshedOffset(text, marker, prev)
  {
    if Contains(text, marker) {
      var r := RefreshedOffset(text, marker, prev);
      var r2 := RefreshedOffset(text, marker, r);
      assert !(r < r2) && !(r2 < r);
    }
  }

  datatype Checked = Checked(position: int, actions: map<LegacyAction, bool>)

  /**
    check_tag: a marker that appears while its tag was missing disables the
    tag's action; a placed tag whose marker has gone re-enables it.
   */
  function CheckTag(text: string, marker: string, action: LegacyAction, prev: int, actions: map<LegacyAction, bool>): (r: Checked)
    ensures r.position == RefreshedOffset(text, marker, prev)
    ensures Contains(text, marker) && prev == TagMissing ==> !On(r.actions, action)
    ensures !Contains(text, marker) && prev >= 0 ==> On(r.actions, action)
    ensures !(Contains(text, marker) && prev == TagMissing) && !(!Contains(text, marker) && prev >= 0) ==> r.actions == actions
    ensures forall a :: a != action ==> (On(r.actions, a) <==> On(actions, a))
  {
    var present := LastIndexOf(text, marker).Some?;
    var actions1 :=
      if present && prev == TagMissing then actions[action := false]
      else if !present && prev >= 0 then actions[action := true]
      else actions;
    Checked(RefreshedOffset(text, marker, prev), actions1)
  }

  /** A tag's action is off while its marker is placed and on while the marker is missing. */
  predicate InSync(position: int, actions: map<LegacyAction, bool>, action: LegacyAction)
  {
    (position >= 0 ==> !On(actions, action))
    && (position == TagMissing ==> On(actions, action))
  }

  /** check_tag keeps a tag's action in step with its offset. */
  lemma CheckTagKeepsInSync(text: string, marker: string, action: LegacyAction, prev: int, actions: map<LegacyAction, bool>)
    requires prev >= TagMissing
    requires InSync(prev, actions, action)
    ensures InSync(CheckTag(text, marker, action, prev, actions).position, CheckTag(text, marker, action, prev, actions).actions, action)
  {
  }

  /** Some numbering marker is in the text. */
  predicate NumberingPresent(text: string)
  {
    Contains(text, NumberingMarker0) || Contains(text, NumberingMarker1) || Contains(text, NumberingMarker2)
  }

  /** The numbering marker that wins: "[001, 002, 003]" over "[01, 02, 03]" over "[1, 2, 3]". */
  function NumberingMarkerIn(text: string): (r: string)
    ensures NumberingPresent(text) ==> Contains(text, r)
    ensures r in [NumberingMarker0, NumberingMarker1, NumberingMarker2]
  {
    if Contains(text, NumberingMarker2) then NumberingMarker2
    else if Contains(text, NumberingMarker1) then NumberingMarker1
    else NumberingMarker0
  }

  function SetNumberingActions(actions: map<LegacyAction, bool>, enabled: bool): (r: map<LegacyAction, bool>)
    ensures forall a :: IsNumberingAction(a) ==> (On(r, a) <==> enabled)
    ensures forall a :: !IsNumberingAction(a) ==> (On(r, a) <==> On(actions, a))
  {
    actions[NumberingZeroAction := enabled][NumberingOneAction := enabled][NumberingTwoAction := enabled]
  }

  /**
    check_numbering_tags: the three numbering actions go off together when a
    numbering marker appears and on together when the last one goes; the offset
    is the last occurrence of the winning marker, each later check overriding
    the one before.
   */
  function CheckNumberingTags(text: string, prev: int, actions: map<LegacyAction, bool>): (r: Checked)
    ensures r.position >= 0 <==> NumberingPresent(text)
    ensures NumberingPresent(text) ==>
      OccursAt(text, NumberingMarkerIn(text), r.position)
      && forall j :: r.position < j ==> !OccursAt(text, NumberingMarkerIn(text), j)
    ensures !NumberingPresent(text) ==> r.position == (if prev >= 0 then TagMissing else prev)
    ensures NumberingPresent(text) && prev == TagMissing ==> forall a :: IsNumberingAction(a) ==> !On(r.actions, a)
    ensures !NumberingPresent(text) && prev >= 0 ==> forall a :: IsNumberingAction(a) ==> On(r.actions, a)
    ensures !(NumberingPresent(text) && prev == TagMissing) && !(!NumberingPresent(text) && prev >= 0) ==> r.actions == actions
    ensures forall a :: !IsNumberingAction(a) ==> (On(r.actions, a) <==> On(actions, a))
  {
    var present := NumberingPresent(text);
    var actions1 :=
      if present && prev == TagMissing then SetNumberingActions(actions, false)
      else if !present && prev >= 0 then SetNumberingActions(actions, true)
      else actions;
    var p0 := if !present && prev >= 0 then TagMissing else prev;
    var p1 := match LastIndexOf(text, NumberingMarker0) case Some(p) => p as int case None => p0;
    var p2 := match LastIndexOf(text, NumberingMarker1) case Some(p) => p as int case None => p1;
    var p3 := match LastIndexOf(text, NumberingMarker2) case Some(p) => p as int case None => p2;
    Checked(p3, actions1)
  }

  predicate NumberingInSync(position: int, actions: map<LegacyAction, bool>)
  {
    (position >= 0 ==> forall a :: IsNumberingAction(a) ==> !On(actions, a))
    && (position == TagMissing ==> forall a :: IsNumberingAction(a) ==> On(actions, a))
  }

  /** check_numbering_tags keeps the numbering actions in step with the numbering offset. */
  lemma CheckNumberingTagsKeepsInSync(text: string, prev: int, actions: map<LegacyAction, bool>)
    requires prev >= TagMissing
    requires NumberingInSync(prev, actions)
    ensures NumberingInSync(CheckNumberingTags(text, prev, actions).position, CheckNumberingTags(text, prev, actions).actions)
  {
  }

  /** The `if (tag != TAG_UNAVAILABLE)` guard around check_tag. */
  function CheckAvailable(text: string, marker: string, action: LegacyAction, prev: int, actions: map<LegacyAction, bool>): (r: Checked)
    ensures prev == TagUnavailable ==> r == Checked(prev, actions)
    ensures prev != TagUnavailable ==> r == CheckTag(text, marker, action, prev, actions)
  {
    if prev != TagUnavailable then CheckTag(text, marker, action, prev, actions) else Checked(prev, actions)
  }

  datatype LegacyUpdate = LegacyUpdate(tags: LegacyTagState, actions: map<LegacyAction, bool>)

  /** One metadata tag's check: the marker looked for and the action it toggles. */
  datatype MetadataCheck = MetadataCheck(marker: string, action: LegacyAction)

  /** The metadata tags update_tags checks, in its order. */
  const MetadataChecks: seq<MetadataCheck> :=
    [MetadataCheck(CreationDateMarker, CreationDateAction), MetadataCheck(EquipmentMarker, EquipmentAction),
     MetadataCheck(SeasonMarker, SeasonAction), MetadataCheck(EpisodeNrMarker, EpisodeNrAction),
     MetadataCheck(TrackNrMarker, TrackNrAction), MetadataCheck(ArtistNameMarker, ArtistNameAction)]

  /** The tag state with the offset behind a metadata action replaced. */
  function WithOffset(t: LegacyTagState, a: LegacyAction, v: int): (r: LegacyTagState)
    ensures IsMetadataAction(a) ==> ActionOffset(r, a) == v
    ensures forall b :: b != a ==> ActionOffset(r, b) == ActionOffset(t, b)
    ensures r.originalName == t.originalName && r.numbering == t.numbering
  {
    match a
    case CreationDateAction => t.(creationDate := v)
    case EquipmentAction => t.(equipment := v)
    case SeasonAction => t.(season := v)
    case EpisodeNrAction => t.(episodeNr := v)
    case TrackNrAction => t.(trackNr := v)
    case ArtistNameAction => t.(artistName := v)
    case _ => t
  }

  /** The offset a guarded check_tag leaves. */
  function GuardedOffset(text: string, marker: string, prev: int): int
  {
    if prev == TagUnavailable then TagUnavailable else RefreshedOffset(text, marker, prev)
  }

  /** The guarded check_tag calls of update_tags, one after another. */
  function CheckChain(t: LegacyTagState, text: string, checks: seq<MetadataCheck>, actions: map<LegacyAction, bool>): LegacyUpdate
    decreases |checks|
  {
    if checks == [] then LegacyUpdate(t, actions)
    else
      var k := checks[0];
      var c := CheckAvailable(text, k.marker, k.action, ActionOffset(t, k.action), actions);
      CheckChain(WithOffset(t, k.action, c.position), text, checks[1..], c.actions)
  }

  /** Checks of distinct metadata tags. */
  predicate ChecksOk(checks: seq<MetadataCheck>)
  {
    (forall i :: 0 <= i < |checks| ==> IsMetadataAction(checks[i].action))
    && (forall i, j :: 0 <= i < j < |checks| ==> checks[i].action != checks[j].action)
  }

  /** Each checked tag ends at its guarded offset; the others and the numbering actions are left alone. */
  lemma {:induction false} CheckChainOffsets(t: LegacyTagState, text: string, checks: seq<MetadataCheck>, actions: map<LegacyAction, bool>)
    requires ChecksOk(checks)
    decreases |checks|
    ensures var r := CheckChain(t, text, checks, actions);
      && r.tags.originalName == t.originalName && r.tags.numbering == t.numbering
      && (forall i :: 0 <= i < |checks| ==>
            ActionOffset(r.tags, checks[i].action) == GuardedOffset(text, checks[i].marker, ActionOffset(t, checks[i].action)))
      && (forall a :: (forall i :: 0 <= i < |checks| ==> checks[i].action != a) ==> ActionOffset(r.tags, a) == ActionOffset(t, a))
      && (forall a :: IsNumberingAction(a) ==> (On(r.actions, a) <==> On(actions, a)))
  {
    if checks != [] {
      var k := checks[0];
      var c := CheckAvailable(text, k.marker, k.action, ActionOffset(t, k.action), actions);
      var t1 := WithOffset(t, k.action, c.position);
      var rest := checks[1..];
      assert ChecksOk(rest) by {
        forall i, j | 0 <= i < j < |rest| ensures rest[i].action != rest[j].action {
          assert rest[i] == checks[i + 1] && rest[j] == checks[j + 1];
        }
      }
      CheckChainOffsets(t1, text, rest, c.actions);
      var r := CheckChain(t, text, checks, actions);
      assert r == CheckChain(t1, text, rest, c.actions);
      assert IsMetadataAction(k.action);
      assert forall i :: 0 <= i < |rest| ==> rest[i].action != k.action by {
        forall i | 0 <= i < |rest| ensures rest[i].action != k.action {
          assert rest[i] == checks[i + 1];
        }
      }
      forall i | 0 <= i < |checks|
        ensures ActionOffset(r.tags, checks[i].action) == GuardedOffset(text, checks[i].marker, ActionOffset(t, checks[i].action))
      {
        if i > 0 {
          assert checks[i] == rest[i - 1];
        }
      }
      forall a | forall i :: 0 <= i < |checks| ==> checks[i].action != a
        ensures ActionOffset(r.tags, a) == ActionOffset(t, a)
      {
        assert checks[0].action != a;
        forall i | 0 <= i < |rest| ensures rest[i].action != a {
          assert rest[i] == checks[i + 1];
        }
      }
    }
  }

  /** The metadata half of update_tags: the original-name tag, then every metadata tag not unavailable. */
  function CheckMetadataTags(t: LegacyTagState, text: string, actions: map<LegacyAction, bool>): LegacyUpdate
  {
    var c0 := CheckTag(text, OriginalNameMarker, OriginalNameAction, t.originalName, actions);
    CheckChain(t.(originalName := c0.position), text, MetadataChecks, c0.actions)
  }

  /** update_tags of the older dialog: every metadata tag not unavailable is checked in turn, then the numbering tag. */
  function UpdateTagsLegacy(t: LegacyTagState, text: string, actions: map<LegacyAction, bool>): LegacyUpdate
  {
    var m := CheckMetadataTags(t, text, actions);
    var n := CheckNumberingTags(text, m.tags.numbering, m.actions);
    LegacyUpdate(m.tags.(numbering := n.position), n.actions)
  }

  /** Each field's marker, aligned with Fields. */
  function FieldMarkers(text: string): seq<string>
  {
    [NumberingMarkerIn(text), OriginalNameMarker, CreationDateMarker, EquipmentMarker, SeasonMarker,
     EpisodeNrMarker, TrackNrMarker, ArtistNameMarker]
  }

  /** The metadata fields' actions, aligned with Fields from the second field on. */
  const FieldActions: seq<LegacyAction> :=
    [OriginalNameAction, CreationDateAction, EquipmentAction, SeasonAction, EpisodeNrAction, TrackNrAction, ArtistNameAction]

  /** The offset each field holds after update_tags: refreshed, unless it is an unavailable metadata tag. */
  lemma UpdateTagsLegacyPositions(t: LegacyTagState, text: string, actions: map<LegacyAction, bool>)
    ensures var u := UpdateTagsLegacy(t, text, actions).tags;
      && u.originalName == RefreshedOffset(text, OriginalNameMarker, t.originalName)
      && u.creationDate == (if t.creationDate == TagUnavailable then TagUnavailable else RefreshedOffset(text, CreationDateMarker, t.creationDate))
      && u.equipment == (if t.equipment == TagUnavailable then TagUnavailable else RefreshedOffset(text, EquipmentMarker, t.equipment))
      && u.season == (if t.season == TagUnavailable then TagUnavailable else RefreshedOffset(text, SeasonMarker, t.season))
      && u.episodeNr == (if t.episodeNr == TagUnavailable then TagUnavailable else RefreshedOffset(text, EpisodeNrMarker, t.episodeNr))
      && u.trackNr == (if t.trackNr == TagUnavailable then TagUnavailable else RefreshedOffset(text, TrackNrMarker, t.trackNr))
      && u.artistName == (if t.artistName == TagUnavailable then TagUnavailable else RefreshedOffset(text, ArtistNameMarker, t.artistName))
      && u.numbering == CheckNumberingTags(text, t.numbering, actions).position
  {
    var c0 := CheckTag(text, OriginalNameMarker, OriginalNameAction, t.originalName, actions);
    var t0 := t.(originalName := c0.position);
    assert ChecksOk(MetadataChecks);
    CheckChainOffsets(t0, text, MetadataChecks, c0.actions);
    var m := CheckMetadataTags(t, text, actions);
    MetadataOffsetsFacts(t0, m.tags, text);
    NumberingPositionIgnoresActions(text, t.numbering, m.actions, actions);
  }

  /** The chain's per-check facts, field by field. */
  lemma MetadataOffsetsFacts(t0: LegacyTagState, u: LegacyTagState, text: string)
    requires forall i :: 0 <= i < |MetadataChecks| ==>
      ActionOffset(u, MetadataChecks[i].action) == GuardedOffset(text, MetadataChecks[i].marker, ActionOffset(t0, MetadataChecks[i].action))
    ensures u.creationDate == GuardedOffset(text, CreationDateMarker, t0.creationDate)
    ensures u.equipment == GuardedOffset(text, EquipmentMarker, t0.equipment)
    ensures u.season == GuardedOffset(text, SeasonMarker, t0.season)
    ensures u.episodeNr == GuardedOffset(text, EpisodeNrMarker, t0.episodeNr)
    ensures u.trackNr == GuardedOffset(text, TrackNrMarker, t0.trackNr)
    ensures u.artistName == GuardedOffset(text, ArtistNameMarker, t0.artistName)
  {
    assert ActionOffset(u, MetadataChecks[0].action) == GuardedOffset(text, MetadataChecks[0].marker, ActionOffset(t0, MetadataChecks[0].action));
    assert ActionOffset(u, MetadataChecks[1].action) == GuardedOffset(text, MetadataChecks[1].marker, ActionOffset(t0, MetadataChecks[1].action));
    assert ActionOffset(u, MetadataChecks[2].action) == GuardedOffset(text, MetadataChecks[2].marker, ActionOffset(t0, MetadataChecks[2].action));
    assert ActionOffset(u, MetadataChecks[3].action) == GuardedOffset(text, MetadataChecks[3].marker, ActionOffset(t0, MetadataChecks[3].action));
    assert ActionOffset(u, MetadataChecks[4].action) == GuardedOffset(text, MetadataChecks[4].marker, ActionOffset(t0, MetadataChecks[4].action));
    assert ActionOffset(u, MetadataChecks[5].action) == GuardedOffset(text, MetadataChecks[5].marker, ActionOffset(t0, MetadataChecks[5].action));
  }

  /** The numbering offset check_numbering_tags leaves depends on the text and the old offset only. */
  lemma NumberingPositionIgnoresActions(text: string, prev: int, a1: map<LegacyAction, bool>, a2: map<LegacyAction, bool>)
    ensures CheckNumberingTags(text, prev, a1).position == CheckNumberingTags(text, prev, a2).position
  {
  }

  /** A placed field sits at its marker's last occurrence. */
  ghost predicate LastPlaced(text: string, marker: string, now: int)
  {
    now >= 0 ==> OccursAt(text, marker, now) && forall j :: now < j ==> !OccursAt(text, marker, j)
  }

  /** A metadata field after update_tags: unavailable stays unavailable, otherwise placed exactly when its marker is there. */
  ghost predicate FieldRefreshed(text: string, marker: string, prev: int, now: int)
  {
    LastPlaced(text, marker, now)
    && (prev == TagUnavailable ==> now == TagUnavailable)
    && (prev != TagUnavailable ==> (now >= 0 <==> Contains(text, marker)))
  }

  lemma RefreshedMetadataField(text: string, marker: string, prev: int, now: int)
    requires now == if prev == TagUnavailable then TagUnavailable else RefreshedOffset(text, marker, prev)
    ensures FieldRefreshed(text, marker, prev, now)
  {
  }

  /** The field facts, from the offsets update_tags leaves. */
  lemma {:induction false} RefreshedFieldsFacts(t: LegacyTagState, u: LegacyTagState, text: string)
    requires u.originalName == RefreshedOffset(text, OriginalNameMarker, t.originalName)
    requires u.creationDate == (if t.creationDate == TagUnavailable then TagUnavailable else RefreshedOffset(text, CreationDateMarker, t.creationDate))
    requires u.equipment == (if t.equipment == TagUnavailable then TagUnavailable else RefreshedOffset(text, EquipmentMarker, t.equipment))
    requires u.season == (if t.season == TagUnavailable then TagUnavailable else RefreshedOffset(text, SeasonMarker, t.season))
    requires u.episodeNr == (if t.episodeNr == TagUnavailable then TagUnavailable else RefreshedOffset(text, EpisodeNrMarker, t.episodeNr))
    requires u.trackNr == (if t.trackNr == TagUnavailable then TagUnavailable else RefreshedOffset(text, TrackNrMarker, t.trackNr))
    requires u.artistName == (if t.artistName == TagUnavailable then TagUnavailable else RefreshedOffset(text, ArtistNameMarker, t.artistName))
    requires LastPlaced(text, NumberingMarkerIn(text), u.numbering)
    ensures forall i :: 0 <= i < 8 ==> LastPlaced(text, FieldMarkers(text)[i], Fields(u)[i])
    ensures forall i :: 2 <= i < 8 ==> FieldRefreshed(text, FieldMarkers(text)[i], Fields(t)[i], Fields(u)[i])
  {
    var fu, ft, fm := Fields(u), Fields(t), FieldMarkers(text);
    RefreshedMetadataField(text, CreationDateMarker, t.creationDate, u.creationDate);
    RefreshedMetadataField(text, EquipmentMarker, t.equipment, u.equipment);
    RefreshedMetadataField(text, SeasonMarker, t.season, u.season);
    RefreshedMetadataField(text, EpisodeNrMarker, t.episodeNr, u.episodeNr);
    RefreshedMetadataField(text, TrackNrMarker, t.trackNr, u.trackNr);
    RefreshedMetadataField(text, ArtistNameMarker, t.artistName, u.artistName);
    assert LastPlaced(text, OriginalNameMarker, u.originalName);
    assert fm[0] == NumberingMarkerIn(text) && fm[1] == OriginalNameMarker && fm[2] == CreationDateMarker;
    assert fm[3] == EquipmentMarker && fm[4] == SeasonMarker && fm[5] == EpisodeNrMarker;
    assert fm[6] == TrackNrMarker && fm[7] == ArtistNameMarker;
    assert fu[0] == u.numbering && fu[1] == u.originalName && fu[2] == u.creationDate && fu[3] == u.equipment;
    assert fu[4] == u.season && fu[5] == u.episodeNr && fu[6] == u.trackNr && fu[7] == u.artistName;
    assert ft[2] == t.creationDate && ft[3] == t.equipment && ft[4] == t.season;
    assert ft[5] == t.episodeNr && ft[6] == t.trackNr && ft[7] == t.artistName;
    IndexedFieldFacts(text, fm, ft, fu);
  }

  /** The per-field facts, gathered under an index. */
  lemma IndexedFieldFacts(text: string, fm: seq<string>, ft: seq<int>, fu: seq<int>)
    requires |fm| == 8 && |ft| == 8 && |fu| == 8
    requires LastPlaced(text, fm[0], fu[0]) && LastPlaced(text, fm[1], fu[1])
    requires FieldRefreshed(text, fm[2], ft[2], fu[2]) && FieldRefreshed(text, fm[3], ft[3], fu[3])
    requires FieldRefreshed(text, fm[4], ft[4], fu[4]) && FieldRefreshed(text, fm[5], ft[5], fu[5])
    requires FieldRefreshed(text, fm[6], ft[6], fu[6]) && FieldRefreshed(text, fm[7], ft[7], fu[7])
    ensures forall i :: 0 <= i < 8 ==> LastPlaced(text, fm[i], fu[i])
    ensures forall i :: 2 <= i < 8 ==> FieldRefreshed(text, fm[i], ft[i], fu[i])
  {
    forall i | 2 <= i < 8 ensures FieldRefreshed(text, fm[i], ft[i], fu[i]) {
      assert i == 2 || i == 3 || i == 4 || i == 5 || i == 6 || i == 7;
    }
    forall i | 0 <= i < 8 ensures LastPlaced(text, fm[i], fu[i]) {
      if i < 2 {
      } else {
        assert FieldRefreshed(text, fm[i], ft[i], fu[i]);
      }
    }
  }

  /**
    After update_tags every placed field sits at its own marker's last
    occurrence; the original name and the numbering are placed exactly when
    their markers are in the text; an unavailable metadata tag stays
    unavailable and any other one is placed exactly when its marker is there.
   */
  lemma {:induction false} UpdateTagsLegacyFacts(t: LegacyTagState, text: string, actions: map<LegacyAction, bool>)
    ensures forall i :: 0 <= i < 8 ==> LastPlaced(text, FieldMarkers(text)[i], Fields(UpdateTagsLegacy(t, text, actions).tags)[i])
    ensures forall i :: 2 <= i < 8 ==>
      FieldRefreshed(text, FieldMarkers(text)[i], Fields(t)[i], Fields(UpdateTagsLegacy(t, text, actions).tags)[i])
    ensures UpdateTagsLegacy(t, text, actions).tags.originalName >= 0 <==> Contains(text, OriginalNameMarker)
    ensures UpdateTagsLegacy(t, text, actions).tags.numbering >= 0 <==> NumberingPresent(text)
  {
    var u := UpdateTagsLegacy(t, text, actions).tags;
    UpdateTagsLegacyPositions(t, text, actions);
    assert LastPlaced(text, NumberingMarkerIn(text), u.numbering);
    RefreshedFieldsFacts(t, u, text);
  }

  /**
    After update_tags the tokenizer's offsets are all usable and the pieces it
    cuts spell the entry text out again.
   */
  lemma {:induction false} SplitAfterUpdateRoundTrip(t: LegacyTagState, text: string, actions: map<LegacyAction, bool>)
    ensures OffsetsOk(text, LegacyMarkers, PlacedOffsets(UpdateTagsLegacy(t, text, actions).tags))
    ensures Concat(SplitEntryTextLegacy(UpdateTagsLegacy(t, text, actions).tags, text)) == text
  {
    var u := UpdateTagsLegacy(t, text, actions).tags;
    UpdateTagsLegacyFacts(t, text, actions);
    var marks := FieldMarkers(text);
    var vals := Fields(u);
    assert forall i :: 0 <= i < |marks| ==> marks[i] in LegacyMarkers;
    assert forall i, j :: 0 <= i < j < |marks| ==> marks[i] != marks[j];
    forall i | 0 <= i < |vals| && vals[i] >= 0 ensures OccursAt(text, marks[i], vals[i]) {
      assert LastPlaced(text, marks[i], vals[i]);
    }
    MarkedFieldsSpaced(text, vals, marks);
    SpacedRoundTrip(text, PlacedOffsets(u));
  }

  /** The offset whose placement decides an action; actions without a tag map to -2, which constrains nothing. */
  function ActionOffset(t: LegacyTagState, a: LegacyAction): int
  {
    match a
    case OriginalNameAction => t.originalName
    case NumberingZeroAction => t.numbering
    case NumberingOneAction => t.numbering
    case NumberingTwoAction => t.numbering
    case CreationDateAction => t.creationDate
    case EquipmentAction => t.equipment
    case SeasonAction => t.season
    case EpisodeNrAction => t.episodeNr
    case TrackNrAction => t.trackNr
    case ArtistNameAction => t.artistName
    case _ => TagUnavailable
  }

  /** Every offset is one the dialog can hold: a position or -1, and -2 for the metadata tags. */
  predicate InRange(t: LegacyTagState)
  {
    t.originalName >= TagMissing && t.numbering >= TagMissing
    && forall a :: IsMetadataAction(a) ==> ActionOffset(t, a) >= TagUnavailable
  }

  /** Every tag's action in step with its offset. */
  predicate StateInSync(t: LegacyTagState, actions: map<LegacyAction, bool>)
  {
    InRange(t) && forall a :: InSync(ActionOffset(t, a), actions, a)
  }

  /** Changing the offsets and actions of some actions only keeps the others in step. */
  lemma SyncFrame(t: LegacyTagState, actions: map<LegacyAction, bool>, t2: LegacyTagState, actions2: map<LegacyAction, bool>, changed: set<LegacyAction>)
    requires forall a :: InSync(ActionOffset(t, a), actions, a)
    requires forall a :: a !in changed ==> ActionOffset(t2, a) == ActionOffset(t, a) && (On(actions2, a) <==> On(actions, a))
    requires forall a :: a in changed ==> InSync(ActionOffset(t2, a), actions2, a)
    ensures forall a :: InSync(ActionOffset(t2, a), actions2, a)
  {
    forall a ensures InSync(ActionOffset(t2, a), actions2, a) {
      if a !in changed {
        assert InSync(ActionOffset(t, a), actions, a);
      }
    }
  }

  /** One guarded check_tag keeps its own action in step and leaves the other actions alone. */
  lemma CheckAvailableStep(t: LegacyTagState, actions: map<LegacyAction, bool>, t2: LegacyTagState, text: string, marker: string, action: LegacyAction)
    requires forall a :: InSync(ActionOffset(t, a), actions, a)
    requires ActionOffset(t, action) >= TagUnavailable
    requires ActionOffset(t2, action) == CheckAvailable(text, marker, action, ActionOffset(t, action), actions).position
    requires forall a :: a != action ==> ActionOffset(t2, a) == ActionOffset(t, a)
    ensures ActionOffset(t2, action) >= TagUnavailable
    ensures forall a :: InSync(ActionOffset(t2, a), CheckAvailable(text, marker, action, ActionOffset(t, action), actions).actions, a)
  {
    var prev := ActionOffset(t, action);
    var c := CheckAvailable(text, marker, action, prev, actions);
    assert InSync(prev, actions, action);
    if prev != TagUnavailable {
      CheckTagKeepsInSync(text, marker, action, prev, actions);
    }
    SyncFrame(t, actions, t2, c.actions, {action});
  }

  /** check_numbering_tags keeps the three numbering actions in step and leaves the other actions alone. */
  lemma CheckNumberingStep(t: LegacyTagState, actions: map<LegacyAction, bool>, t2: LegacyTagState, text: string)
    requires forall a :: InSync(ActionOffset(t, a), actions, a)
    requires t.numbering >= TagMissing
    requires t2 == t.(numbering := CheckNumberingTags(text, t.numbering, actions).position)
    ensures t2.numbering >= TagMissing
    ensures forall a :: InSync(ActionOffset(t2, a), CheckNumberingTags(text, t.numbering, actions).actions, a)
  {
    var n := CheckNumberingTags(text, t.numbering, actions);
    assert NumberingInSync(t.numbering, actions) by {
      assert InSync(ActionOffset(t, NumberingZeroAction), actions, NumberingZeroAction);
      assert InSync(ActionOffset(t, NumberingOneAction), actions, NumberingOneAction);
      assert InSync(ActionOffset(t, NumberingTwoAction), actions, NumberingTwoAction);
    }
    CheckNumberingTagsKeepsInSync(text, t.numbering, actions);
    NumberingFrame(t, actions, t2, n.actions);
  }

  /** A numbering offset in step with the numbering actions, the other actions left alone. */
  lemma NumberingFrame(t: LegacyTagState, actions: map<LegacyAction, bool>, t2: LegacyTagState, actions2: map<LegacyAction, bool>)
    requires forall a :: InSync(ActionOffset(t, a), actions, a)
    requires NumberingInSync(t2.numbering, actions2)
    requires forall a :: !IsNumberingAction(a) ==> (On(actions2, a) <==> On(actions, a))
    requires t2 == t.(numbering := t2.numbering)
    ensures forall a :: InSync(ActionOffset(t2, a), actions2, a)
  {
    forall a ensures InSync(ActionOffset(t2, a), actions2, a) {
      if IsNumberingAction(a) {
        assert ActionOffset(t2, a) == t2.numbering;
      } else {
        assert ActionOffset(t2, a) == ActionOffset(t, a);
        assert InSync(ActionOffset(t, a), actions, a);
      }
    }
  }

  /** The guarded check_tag calls keep every action in step with its tag's offset. */
  lemma {:induction false} CheckChainKeepsInSync(t: LegacyTagState, text: string, checks: seq<MetadataCheck>, actions: map<LegacyAction, bool>)
    requires ChecksOk(checks)
    requires StateInSync(t, actions)
    decreases |checks|
    ensures StateInSync(CheckChain(t, text, checks, actions).tags, CheckChain(t, text, checks, actions).actions)
  {
    if checks != [] {
      var k := checks[0];
      var c := CheckAvailable(text, k.marker, k.action, ActionOffset(t, k.action), actions);
      var t1 := WithOffset(t, k.action, c.position);
      var rest := checks[1..];
      assert ChecksOk(rest) by {
        forall i, j | 0 <= i < j < |rest| ensures rest[i].action != rest[j].action {
          assert rest[i] == checks[i + 1] && rest[j] == checks[j + 1];
        }
      }
      assert IsMetadataAction(k.action);
      CheckAvailableStep(t, actions, t1, text, k.marker, k.action);
      assert InRange(t1);
      CheckChainKeepsInSync(t1, text, rest, c.actions);
      assert CheckChain(t, text, checks, actions) == CheckChain(t1, text, rest, c.actions);
    }
  }

  /** The metadata half of update_tags keeps every action in step with its tag's offset. */
  lemma {:induction false} CheckMetadataTagsKeepsInSync(t: LegacyTagState, text: string, actions: map<LegacyAction, bool>)
    requires StateInSync(t, actions)
    ensures StateInSync(CheckMetadataTags(t, text, actions).tags, CheckMetadataTags(t, text, actions).actions)
  {
    var c0 := CheckTag(text, OriginalNameMarker, OriginalNameAction, t.originalName, actions);
    var t1 := t.(originalName := c0.position);
    assert InSync(t.originalName, actions, OriginalNameAction) by { assert ActionOffset(t, OriginalNameAction) == t.originalName; }
    CheckTagKeepsInSync(text, OriginalNameMarker, OriginalNameAction, t.originalName, actions);
    SyncFrame(t, actions, t1, c0.actions, {OriginalNameAction});
    assert InRange(t1) by {
      assert forall a :: IsMetadataAction(a) ==> ActionOffset(t1, a) == ActionOffset(t, a);
    }
    assert ChecksOk(MetadataChecks);
    CheckChainKeepsInSync(t1, text, MetadataChecks, c0.actions);
  }

  /** update_tags keeps every action in step with its tag's offset. */
  lemma {:induction false} UpdateTagsLegacyKeepsInSync(t: LegacyTagState, text: string, actions: map<LegacyAction, bool>)
    requires StateInSync(t, actions)
    ensures StateInSync(UpdateTagsLegacy(t, text, actions).tags, UpdateTagsLegacy(t, text, actions).actions)
  {
    var m := CheckMetadataTags(t, text, actions);
    CheckMetadataTagsKeepsInSync(t, text, actions);
    var n := CheckNumberingTags(text, m.tags.numbering, m.actions);
    var t8 := m.tags.(numbering := n.position);
    CheckNumberingStep(m.tags, m.actions, t8, text);
    assert InRange(t8) by {
      assert forall a :: IsMetadataAction(a) ==> ActionOffset(t8, a) == ActionOffset(m.tags, a);
    }
  }

  // ---------------------------------------------------------------------
  // query_finished and init
  // ---------------------------------------------------------------------

  /** The first selected file's metadata, each field possibly missing. */
  datatype FileMetadata = FileMetadata(
    creationDate: Option<string>,
    equipment: Option<string>,
    season: Option<string>,
    episodeNr: Option<string>,
    trackNr: Option<string>,
    artistName: Option<string>)

  /** A field that is there and not empty. */
  predicate Present(field: Option<string>)
  {
    field.Some? && field.value != ""
  }

  /**
    query_finished as written: each metadata tag becomes -1 when the first
    file has the field and -2 (with its action disabled) when it does not,
    except that a present season sets the creation-date tag instead of the
    season tag.
   */
  function QueryFinishedAsWritten(t: LegacyTagState, actions: map<LegacyAction, bool>, md: FileMetadata): (r: LegacyUpdate)
    ensures r.tags.season == (if Present(md.season) then t.season else TagUnavailable)
    ensures Present(md.season) ==> r.tags.creationDate == TagMissing
    ensures r.actions == QueryFinished(t, actions, md).actions
  {
    var t1 := t.(creationDate := if Present(md.creationDate) then TagMissing else TagUnavailable);
    var t2 := t1.(equipment := if Present(md.equipment) then TagMissing else TagUnavailable);
    var t3 := if Present(md.season) then t2.(creationDate := TagMissing) else t2.(season := TagUnavailable);
    var t4 := t3.(episodeNr := if Present(md.episodeNr) then TagMissing else TagUnavailable);
    var t5 := t4.(trackNr := if Present(md.trackNr) then TagMissing else TagUnavailable);
    var t6 := t5.(artistName := if Present(md.artistName) then TagMissing else TagUnavailable);
    LegacyUpdate(t6, WithdrawMissing(actions, md))
  }

  /** The value query_finished evidently means for a metadata tag: -1 when usable, -2 when not. */
  function Availability(field: Option<string>): int
  {
    if Present(field) then TagMissing else TagUnavailable
  }

  /** query_finished with the season branch setting the season tag. */
  function QueryFinished(t: LegacyTagState, actions: map<LegacyAction, bool>, md: FileMetadata): (r: LegacyUpdate)
    ensures r.tags == t.(creationDate := Availability(md.creationDate), equipment := Availability(md.equipment),
      season := Availability(md.season), episodeNr := Availability(md.episodeNr),
      trackNr := Availability(md.trackNr), artistName := Availability(md.artistName))
    ensures On(r.actions, CreationDateAction) <==> On(actions, CreationDateAction) && Present(md.creationDate)
    ensures On(r.actions, EquipmentAction) <==> On(actions, EquipmentAction) && Present(md.equipment)
    ensures On(r.actions, SeasonAction) <==> On(actions, SeasonAction) && Present(md.season)
    ensures On(r.actions, EpisodeNrAction) <==> On(actions, EpisodeNrAction) && Present(md.episodeNr)
    ensures On(r.actions, TrackNrAction) <==> On(actions, TrackNrAction) && Present(md.trackNr)
    ensures On(r.actions, ArtistNameAction) <==> On(actions, ArtistNameAction) && Present(md.artistName)
    ensures forall a :: !IsMetadataAction(a) ==> (On(r.actions, a) <==> On(actions, a))
  {
    LegacyUpdate(t.(creationDate := Availability(md.creationDate), equipment := Availability(md.equipment),
      season := Availability(md.season), episodeNr := Availability(md.episodeNr),
      trackNr := Availability(md.trackNr), artistName := Availability(md.artistName)), WithdrawMissing(actions, md))
  }

  /** The metadata field behind a metadata tag's action. */
  function MetadataField(md: FileMetadata, a: LegacyAction): Option<string>
  {
    match a
    case CreationDateAction => md.creationDate
    case EquipmentAction => md.equipment
    case SeasonAction => md.season
    case EpisodeNrAction => md.episodeNr
    case TrackNrAction => md.trackNr
    case ArtistNameAction => md.artistName
    case _ => None
  }

  /** disable_action for every metadata tag whose field the first file lacks; the other actions as they were. */
  function WithdrawMissing(actions: map<LegacyAction, bool>, md: FileMetadata): (r: map<LegacyAction, bool>)
    ensures forall a :: On(r, a) <==> On(actions, a) && (IsMetadataAction(a) ==> Present(MetadataField(md, a)))
  {
    map a | a in actions :: actions[a] && (IsMetadataAction(a) ==> Present(MetadataField(md, a)))
  }

  /** The metadata fields in the order of the tag fields from creation date on. */
  function MetadataFields(md: FileMetadata): seq<Option<string>>
  {
    [md.creationDate, md.equipment, md.season, md.episodeNr, md.trackNr, md.artistName]
  }

  /** Without a season the code as written and the corrected one agree. */
  lemma QueryFinishedAgreesWithoutSeason(t: LegacyTagState, actions: map<LegacyAction, bool>, md: FileMetadata)
    requires !Present(md.season)
    ensures QueryFinishedAsWritten(t, actions, md) == QueryFinished(t, actions, md)
  {
  }

  /** The dialog as init leaves it: the original-name marker at 0, no numbering, the other fields zero-initialised. */
  const LegacyInitial: LegacyTagState := LegacyTagState(0, TagMissing, 0, 0, 0, 0, 0, 0)

  /** initialize_actions: every action on except the original-name one. */
  function LegacyInitialActions(): (r: map<LegacyAction, bool>)
    ensures forall a :: On(r, a) <==> a in LegacyDialogActions && a != OriginalNameAction
  {
    map a | a in LegacyDialogActions :: a != OriginalNameAction
  }

  /**
    The corrected query_finished leaves every action in step with its tag when
    the other tags were in step and every metadata action was on.
   */
  lemma QueryFinishedSyncs(t: LegacyTagState, actions: map<LegacyAction, bool>, md: FileMetadata)
    requires t.originalName >= TagMissing && t.numbering >= TagMissing
    requires forall a :: !IsMetadataAction(a) ==> InSync(ActionOffset(t, a), actions, a)
    requires forall a :: IsMetadataAction(a) ==> On(actions, a)
    ensures StateInSync(QueryFinished(t, actions, md).tags, QueryFinished(t, actions, md).actions)
  {
    var r := QueryFinished(t, actions, md);
    AvailabilityOffsets(t, md, r.tags);
    forall a ensures InSync(ActionOffset(r.tags, a), r.actions, a) {
      if IsMetadataAction(a) {
        MetadataActionSync(t, actions, md, a);
      }
    }
  }

  /** The offsets query_finished leaves: every metadata one negative, the others as they were. */
  lemma AvailabilityOffsets(t: LegacyTagState, md: FileMetadata, u: LegacyTagState)
    requires u == t.(creationDate := Availability(md.creationDate), equipment := Availability(md.equipment),
      season := Availability(md.season), episodeNr := Availability(md.episodeNr),
      trackNr := Availability(md.trackNr), artistName := Availability(md.artistName))
    ensures u.originalName == t.originalName && u.numbering == t.numbering
    ensures forall a :: IsMetadataAction(a) ==> TagUnavailable <= ActionOffset(u, a) < 0
    ensures forall a :: !IsMetadataAction(a) ==> ActionOffset(u, a) == ActionOffset(t, a)
  {
  }

  lemma MetadataActionSync(t: LegacyTagState, actions: map<LegacyAction, bool>, md: FileMetadata, a: LegacyAction)
    requires IsMetadataAction(a) && On(actions, a)
    ensures ActionOffset(QueryFinished(t, actions, md).tags, a) == TagMissing ==> On(QueryFinished(t, actions, md).actions, a)
  {
  }

  /**
    The dialog as the constructor hands it over: update_tags has already run
    once on the entry text (through the entry's change handler), while the
    metadata query is still under way. init sets that text to
    "[Original file name]", which holds that marker and no other
    (StartupTextMarkers).
   */
  function LegacyStartup(text: string): LegacyUpdate
  {
    UpdateTagsLegacy(LegacyInitial, text, LegacyInitialActions())
  }

  /** A character of `m` that `text` lacks keeps `m` out of `text`. */
  lemma MissingCharBarsMarker(text: string, m: string, i: nat)
    requires i < |m| && !HasChar(text, m[i])
    ensures !Contains(text, m)
  {
    forall p | 0 <= p <= |text| - |m| ensures !OccursAt(text, m, p) {
      assert text[p..p + |m|][i] == text[p + i];
    }
  }

  /** No marker other than its own occurs in the starting entry text. */
  lemma StartupTextMarkers()
    ensures NameOnlyText(OriginalNameMarker)
  {
    StartupNoMetadataMarker();
    StartupNoNumberingMarker();
    assert OccursAt(OriginalNameMarker, OriginalNameMarker, 0);
  }

  /** None of the metadata markers occurs in the starting entry text. */
  lemma StartupNoMetadataMarker()
    ensures forall i :: 0 <= i < |MetadataChecks| ==> !Contains(OriginalNameMarker, MetadataChecks[i].marker)
  {
    var text := OriginalNameMarker;
    MissingCharBarsMarker(text, CreationDateMarker, 1);
    MissingCharBarsMarker(text, EquipmentMarker, 1);
    MissingCharBarsMarker(text, SeasonMarker, 1);
    MissingCharBarsMarker(text, EpisodeNrMarker, 1);
    MissingCharBarsMarker(text, TrackNrMarker, 1);
    MissingCharBarsMarker(text, ArtistNameMarker, 1);
  }

  /** None of the numbering markers occurs in the starting entry text. */
  lemma StartupNoNumberingMarker()
    ensures !NumberingPresent(OriginalNameMarker)
  {
    var text := OriginalNameMarker;
    MissingCharBarsMarker(text, NumberingMarker0, 1);
    MissingCharBarsMarker(text, NumberingMarker1, 1);
    MissingCharBarsMarker(text, NumberingMarker2, 1);
  }

  /** Guarded checks of markers that are all missing, with their actions already on, change no action. */
  lemma {:induction false} AbsentChecksKeepActions(t: LegacyTagState, text: string, checks: seq<MetadataCheck>, actions: map<LegacyAction, bool>)
    requires forall i :: 0 <= i < |checks| ==> !Contains(text, checks[i].marker) && On(actions, checks[i].action)
    decreases |checks|
    ensures forall a :: On(CheckChain(t, text, checks, actions).actions, a) <==> On(actions, a)
  {
    if checks != [] {
      var k := checks[0];
      var c := CheckAvailable(text, k.marker, k.action, ActionOffset(t, k.action), actions);
      assert forall a :: On(c.actions, a) <==> On(actions, a) by {
        assert !Contains(text, k.marker) && On(actions, k.action);
      }
      var rest := checks[1..];
      forall i | 0 <= i < |rest| ensures !Contains(text, rest[i].marker) && On(c.actions, rest[i].action) {
        assert rest[i] == checks[i + 1];
      }
      AbsentChecksKeepActions(WithOffset(t, k.action, c.position), text, rest, c.actions);
    }
  }

  /**
    After the constructor's update_tags, on an entry text that holds the
    original-name marker and no other, the original-name tag is at 0, every
    other tag is missing, every action is as initialize_actions left it, and
    every action is in step with its tag.
   */
  lemma StartupState(text: string)
    requires NameOnlyText(text)
    ensures LegacyStartup(text).tags == LegacyTagState(0, TagMissing, TagMissing, TagMissing, TagMissing, TagMissing, TagMissing, TagMissing)
    ensures forall a :: On(LegacyStartup(text).actions, a) <==> On(LegacyInitialActions(), a)
    ensures StateInSync(LegacyStartup(text).tags, LegacyStartup(text).actions)
  {
    NameOnlyTextTags(text);
    NameOnlyTextActions(text);
    var u := LegacyStartup(text);
    NameTagOnlyInSync(u.tags, u.actions);
  }

  /** The original-name tag placed, every other tag missing, and only the original-name action off: all in step. */
  lemma NameTagOnlyInSync(t: LegacyTagState, actions: map<LegacyAction, bool>)
    requires t == LegacyTagState(0, TagMissing, TagMissing, TagMissing, TagMissing, TagMissing, TagMissing, TagMissing)
    requires forall a :: On(actions, a) <==> On(LegacyInitialActions(), a)
    ensures StateInSync(t, actions)
  {
    forall a ensures InSync(ActionOffset(t, a), actions, a) {
      assert On(actions, a) <==> a != OriginalNameAction;
      if IsNumberingAction(a) || IsMetadataAction(a) {
        assert ActionOffset(t, a) == TagMissing;
      } else if a != OriginalNameAction {
        assert ActionOffset(t, a) == TagUnavailable;
      }
    }
  }

  /** Exactly the original-name marker and no other marker. */
  predicate NameOnlyText(text: string)
  {
    OccursAt(text, OriginalNameMarker, 0) && |text| == |OriginalNameMarker|
    && (forall i :: 0 <= i < |MetadataChecks| ==> !Contains(text, MetadataChecks[i].marker))
    && !NumberingPresent(text)
  }

  lemma NameOnlyTextTags(text: string)
    requires NameOnlyText(text)
    ensures UpdateTagsLegacy(LegacyInitial, text, LegacyInitialActions()).tags
            == LegacyTagState(0, TagMissing, TagMissing, TagMissing, TagMissing, TagMissing, TagMissing, TagMissing)
  {
    UpdateTagsLegacyPositions(LegacyInitial, text, LegacyInitialActions());
    NameOnlyTextOffsets(text, LegacyInitialActions());
  }

  /** What check_tag and check_numbering_tags make of each tag on a text holding only the original-name marker. */
  lemma NameOnlyTextOffsets(text: string, actions: map<LegacyAction, bool>)
    requires NameOnlyText(text)
    ensures RefreshedOffset(text, OriginalNameMarker, 0) == 0
    ensures RefreshedOffset(text, CreationDateMarker, 0) == TagMissing
    ensures RefreshedOffset(text, EquipmentMarker, 0) == TagMissing
    ensures RefreshedOffset(text, SeasonMarker, 0) == TagMissing
    ensures RefreshedOffset(text, EpisodeNrMarker, 0) == TagMissing
    ensures RefreshedOffset(text, TrackNrMarker, 0) == TagMissing
    ensures RefreshedOffset(text, ArtistNameMarker, 0) == TagMissing
    ensures CheckNumberingTags(text, TagMissing, actions).position == TagMissing
  {
    assert OccursAt(text, OriginalNameMarker, RefreshedOffset(text, OriginalNameMarker, 0)) by {
      assert OccursAt(text, OriginalNameMarker, 0);
    }
    assert MetadataChecks[0].marker == CreationDateMarker && MetadataChecks[1].marker == EquipmentMarker;
    assert MetadataChecks[2].marker == SeasonMarker && MetadataChecks[3].marker == EpisodeNrMarker;
    assert MetadataChecks[4].marker == TrackNrMarker && MetadataChecks[5].marker == ArtistNameMarker;
  }

  lemma NameOnlyTextActions(text: string)
    requires NameOnlyText(text)
    ensures forall a :: On(UpdateTagsLegacy(LegacyInitial, text, LegacyInitialActions()).actions, a) <==> On(LegacyInitialActions(), a)
  {
    NameOnlyTextKeepsActions(LegacyInitial, text, LegacyInitialActions());
  }

  /** With only the original-name marker in the text, update_tags from a placed name tag and no numbering changes no action. */
  lemma NameOnlyTextKeepsActions(t: LegacyTagState, text: string, actions: map<LegacyAction, bool>)
    requires NameOnlyText(text)
    requires t.originalName >= 0 && t.numbering == TagMissing
    requires forall a :: IsMetadataAction(a) ==> On(actions, a)
    ensures forall a :: On(UpdateTagsLegacy(t, text, actions).actions, a) <==> On(actions, a)
  {
    var c0 := CheckTag(text, OriginalNameMarker, OriginalNameAction, t.originalName, actions);
    PlacedNameKeepsActions(text, t.originalName, actions);
    var t0 := t.(originalName := c0.position);
    AbsentMetadataKeepsActions(t0, text, actions);
    var m := CheckMetadataTags(t, text, actions);
    assert m == CheckChain(t0, text, MetadataChecks, actions);
    assert UpdateTagsLegacy(t, text, actions).actions == CheckNumberingTags(text, m.tags.numbering, m.actions).actions;
  }

  /** check_tag on a placed original-name tag whose marker is still there changes no action. */
  lemma PlacedNameKeepsActions(text: string, prev: int, actions: map<LegacyAction, bool>)
    requires OccursAt(text, OriginalNameMarker, 0) && prev >= 0
    ensures CheckTag(text, OriginalNameMarker, OriginalNameAction, prev, actions).actions == actions
  {
  }

  /** The metadata checks on a text without metadata markers change no action and keep the numbering offset. */
  lemma AbsentMetadataKeepsActions(t: LegacyTagState, text: string, actions: map<LegacyAction, bool>)
    requires NameOnlyText(text)
    requires forall a :: IsMetadataAction(a) ==> On(actions, a)
    ensures forall a :: On(CheckChain(t, text, MetadataChecks, actions).actions, a) <==> On(actions, a)
    ensures CheckChain(t, text, MetadataChecks, actions).tags.numbering == t.numbering
  {
    assert forall i :: 0 <= i < |MetadataChecks| ==> IsMetadataAction(MetadataChecks[i].action);
    AbsentChecksKeepActions(t, text, MetadataChecks, actions);
    assert ChecksOk(MetadataChecks);
    CheckChainOffsets(t, text, MetadataChecks, actions);
  }

  /** After the constructor and the corrected query_finished every action is in step with its tag, whatever the metadata. */
  lemma QueryFinishedEstablishesSync(text: string, md: FileMetadata)
    requires NameOnlyText(text)
    ensures StateInSync(QueryFinished(LegacyStartup(text).tags, LegacyStartup(text).actions, md).tags,
                        QueryFinished(LegacyStartup(text).tags, LegacyStartup(text).actions, md).actions)
  {
    var s := LegacyStartup(text);
    StartupState(text);
    StartupQueryFinishedSyncs(s.tags, s.actions, md);
  }

  lemma StartupQueryFinishedSyncs(t: LegacyTagState, actions: map<LegacyAction, bool>, md: FileMetadata)
    requires StateInSync(t, actions)
    requires forall a :: On(actions, a) <==> On(LegacyInitialActions(), a)
    ensures StateInSync(QueryFinished(t, actions, md).tags, QueryFinished(t, actions, md).actions)
  {
    assert forall a :: IsMetadataAction(a) ==> On(actions, a);
    QueryFinishedSyncs(t, actions, md);
  }

  /**
    From the constructor's state, with a creation date missing and a season
    present in the first file, the code as written
    leaves the creation-date tag usable (-1) with its action off, so that tag
    and its action are out of step; the season tag stays usable with its
    action on. The corrected version keeps every tag in step.
   */
  lemma QueryFinishedSeasonSlip(text: string, md: FileMetadata)
    requires NameOnlyText(text) && Present(md.season) && !Present(md.creationDate)
    ensures var s := LegacyStartup(text);
      var w := QueryFinishedAsWritten(s.tags, s.actions, md);
      && w.tags.creationDate == TagMissing && !On(w.actions, CreationDateAction)
      && w.tags.season == TagMissing && On(w.actions, SeasonAction)
      && !StateInSync(w.tags, w.actions)
      && QueryFinished(s.tags, s.actions, md).tags.creationDate == TagUnavailable
      && StateInSync(QueryFinished(s.tags, s.actions, md).tags, QueryFinished(s.tags, s.actions, md).actions)
  {
    var s := LegacyStartup(text);
    StartupState(text);
    var w := QueryFinishedAsWritten(s.tags, s.actions, md);
    assert On(s.actions, SeasonAction) && On(s.actions, CreationDateAction);
    assert !InSync(ActionOffset(w.tags, CreationDateAction), w.actions, CreationDateAction);
    QueryFinishedEstablishesSync(text, md);
  }
}

=== FILE: lists.dfy ===
/**
  List reversal, the companion of building lists by prepending: the C code
  collects results front-first and reverses them once at the end.
 */
module Lists {

  /** g_list_reverse. */
  function Reverse<T>(s: seq<T>): (r: seq<T>)
    ensures |r| == |s|
    ensures forall i :: 0 <= i < |s| ==> r[i] == s[|s| - 1 - i]
  {
    if |s| == 0 then [] else Reverse(s[1..]) + [s[0]]
  }

  lemma ReverseInvolution<T>(s: seq<T>)
    ensures Reverse(Reverse(s)) == s
  {
  }

  /** Reversing a concatenation reverses the order of the parts. */
  lemma ReverseAppend<T>(a: seq<T>, b: seq<T>)
    ensures Reverse(a + b) == Reverse(b) + Reverse(a)
  {
    var l := Reverse(a + b);
    var r := Reverse(b) + Reverse(a);
    assert |l| == |r|;
    forall i | 0 <= i < |l| ensures l[i] == r[i] {
      if i < |b| {
        assert r[i] == Reverse(b)[i];
      } else {
        assert r[i] == Reverse(a)[i - |b|];
      }
    }
  }

  /** Prepending at most one element to a reversed accumulator moves it from the pending part to the done part. */
  lemma PrependStep<T>(acc: seq<T>, x: seq<T>, rest: seq<T>, whole: seq<T>)
    requires |x| <= 1 && Reverse(acc) + (x + rest) == whole
    ensures Reverse(x + acc) + rest == whole
  {
    ReverseAppend(x, acc);
    assert Reverse(x) == x;
    assert Reverse(acc) + (x + rest) == (Reverse(acc) + x) + rest;
  }

  predicate NoDuplicates<T(==)>(s: seq<T>)
  {
    forall i, j :: 0 <= i < j < |s| ==> s[i] != s[j]
  }
}

=== FILE: ordering.dfy ===
/**
  Ordering the selection: the creation-date ranks read from the metadata
  store, the FIRST_CREATED / LAST_CREATED sort built on them, and the
  reordering begin_batch_rename applies so that a file whose current name is
  another file's new name is renamed out of the way first.
 */
module Ordering {

  import opened Text
  import opened Selection
  import opened Lists

  // ---------------------------------------------------------------------
  // Creation ranks
  // ---------------------------------------------------------------------

  /** One row of the metadata query: a file name and its creation date, if the store has one. */
  datatype CreationRow = CreationRow(name: string, created: Option<string>)

  /** No two rows carry the same name. */
  predicate DistinctNames(rows: seq<CreationRow>)
  {
    forall a, b :: 0 <= a < b < |rows| ==> rows[a].name != rows[b].name
  }

  predicate AllDated(rows: seq<CreationRow>)
  {
    forall i :: 0 <= i < |rows| ==> rows[i].created.Some?
  }

  /**
    cursor_callback from row i on: each row's name is inserted with the table's
    size before the insertion as its rank; a row without a creation date ends
    the query with no table at all.
   */
  function RanksFrom(rows: seq<CreationRow>, i: nat, table: map<string, int>): Option<map<string, int>>
    requires i <= |rows|
    decreases |rows| - i
  {
    if i == |rows| then Some(table)
    else
      var table2 := table[rows[i].name := |table|];
      if rows[i].created.None? then None else RanksFrom(rows, i + 1, table2)
  }

  /** The rank table the sort reads, or None when some file lacks a creation date. */
  function BuildCreationRanks(rows: seq<CreationRow>): Option<map<string, int>>
  {
    RanksFrom(rows, 0, map[])
  }

  /** The table so far: the first i rows, each under its own index. */
  ghost predicate RanksSoFar(rows: seq<CreationRow>, i: nat, table: map<string, int>)
    requires i <= |rows|
  {
    && |table| == i
    && (forall n :: n in table ==> 0 <= table[n] < i && rows[table[n]].name == n)
    && (forall k :: 0 <= k < i ==> rows[k].name in table)
  }

  /** Inserting row i keeps the table's invariant. */
  lemma RanksStep(rows: seq<CreationRow>, i: nat, table: map<string, int>)
    requires i < |rows| && DistinctNames(rows) && RanksSoFar(rows, i, table)
    ensures RanksSoFar(rows, i + 1, table[rows[i].name := |table|])
  {
    var x := rows[i].name;
    forall n | n in table ensures n != x {
      assert rows[table[n]].name == n;
    }
    var table2 := table[x := |table|];
    forall k | 0 <= k < i + 1 ensures rows[k].name in table2 {
    }
  }

  /**
    With distinct names, a row's rank is its index among the rows; the table
    holds exactly the row names; and there is a table exactly when every row
    is dated.
   */
  lemma {:induction false} RanksFromFacts(rows: seq<CreationRow>, i: nat, table: map<string, int>)
    requires i <= |rows| && DistinctNames(rows) && RanksSoFar(rows, i, table)
    decreases |rows| - i
    ensures RanksFrom(rows, i, table).Some? <==> forall k :: i <= k < |rows| ==> rows[k].created.Some?
    ensures RanksFrom(rows, i, table).Some? ==> RanksSoFar(rows, |rows|, RanksFrom(rows, i, table).value)
  {
    if i < |rows| && rows[i].created.Some? {
      RanksStep(rows, i, table);
      RanksFromFacts(rows, i + 1, table[rows[i].name := |table|]);
    }
  }

  /**
    The rank table of distinct rows exists exactly when every row is dated,
    holds exactly the row names, and gives every file its row index.
   */
  lemma CreationRanksAreRowIndices(rows: seq<CreationRow>)
    requires DistinctNames(rows)
    ensures BuildCreationRanks(rows).Some? <==> AllDated(rows)
    ensures BuildCreationRanks(rows).Some? ==>
      && (forall n :: n in BuildCreationRanks(rows).value ==> exists k :: 0 <= k < |rows| && rows[k].name == n)
      && forall k :: 0 <= k < |rows| ==>
           rows[k].name in BuildCreationRanks(rows).value && BuildCreationRanks(rows).value[rows[k].name] == k
  {
    RanksFromFacts(rows, 0, map[]);
    if AllDated(rows) {
      var t := BuildCreationRanks(rows).value;
      forall k | 0 <= k < |rows| ensures rows[k].name in t && t[rows[k].name] == k {
        assert rows[t[rows[k].name]].name == rows[k].name;
      }
      forall n | n in t ensures exists k :: 0 <= k < |rows| && rows[k].name == n {
        assert rows[t[n]].name == n;
      }
    }
  }

  // ---------------------------------------------------------------------
  // FIRST_CREATED / LAST_CREATED
  // ---------------------------------------------------------------------

  predicate AllRanked(s: seq<File>, ranks: map<string, int>)
  {
    forall i :: 0 <= i < |s| ==> s[i].name in ranks
  }

  /** The sort key: the rank, negated for LAST_CREATED so both modes sort ascending by key. */
  function RankKey(ranks: map<string, int>, descending: bool, f: File): int
    requires f.name in ranks
  {
    if descending then -ranks[f.name] else ranks[f.name]
  }

  predicate SortedByKey(s: seq<File>, ranks: map<string, int>, descending: bool)
    requires AllRanked(s, ranks)
  {
    forall i :: 0 <= i < |s| - 1 ==> RankKey(ranks, descending, s[i]) <= RankKey(ranks, descending, s[i + 1])
  }

  /** One step of a stable sort: x goes after every element whose key is not greater. */
  function InsertByKey(x: File, s: seq<File>, ranks: map<string, int>, descending: bool): (r: seq<File>)
    requires x.name in ranks && AllRanked(s, ranks)
    decreases |s|
    ensures multiset(r) == multiset(s) + multiset{x}
    ensures AllRanked(r, ranks)
    ensures |r| == |s| + 1 && (r[0] == x || (|s| > 0 && r[0] == s[0]))
  {
    if s == [] then [x]
    else if RankKey(ranks, descending, x) < RankKey(ranks, descending, s[0]) then [x] + s
    else
      assert s == [s[0]] + s[1..];
      [s[0]] + InsertByKey(x, s[1..], ranks, descending)
  }

  /** Inserting into a sorted list keeps it sorted. */
  lemma {:induction false} InsertKeepsSorted(x: File, s: seq<File>, ranks: map<string, int>, descending: bool)
    requires x.name in ranks && AllRanked(s, ranks) && SortedByKey(s, ranks, descending)
    decreases |s|
    ensures SortedByKey(InsertByKey(x, s, ranks, descending), ranks, descending)
  {
    if s != [] && RankKey(ranks, descending, x) >= RankKey(ranks, descending, s[0]) {
      var t := InsertByKey(x, s[1..], ranks, descending);
      InsertKeepsSorted(x, s[1..], ranks, descending);
      var r := [s[0]] + t;
      assert r == InsertByKey(x, s, ranks, descending);
      assert RankKey(ranks, descending, r[0]) <= RankKey(ranks, descending, r[1]);
      forall i | 1 <= i < |r| - 1 ensures RankKey(ranks, descending, r[i]) <= RankKey(ranks, descending, r[i + 1]) {
        assert r[i] == t[i - 1] && r[i + 1] == t[i];
      }
    }
  }

  /** g_list_sort with the rank comparator: a stable sort by key. */
  function SortByKey(s: seq<File>, ranks: map<string, int>, descending: bool): (r: seq<File>)
    requires AllRanked(s, ranks)
    decreases |s|
    ensures multiset(r) == multiset(s)
    ensures AllRanked(r, ranks) && SortedByKey(r, ranks, descending)
  {
    if s == [] then []
    else
      assert s == s[..|s| - 1] + [s[|s| - 1]];
      var sorted := SortByKey(s[..|s| - 1], ranks, descending);
      InsertKeepsSorted(s[|s| - 1], sorted, ranks, descending);
      InsertByKey(s[|s| - 1], sorted, ranks, descending)
  }

  /**
    nautilus_batch_rename_sort for FIRST_CREATED (descending false) and
    LAST_CREATED (descending true): the files, collected by prepending, sorted
    by rank, and written back over the selection.
   */
  function CreatedSort(sel: seq<File>, ranks: map<string, int>, descending: bool): (r: seq<File>)
    requires AllRanked(sel, ranks)
    ensures multiset(r) == multiset(sel)
    ensures AllRanked(r, ranks)
    ensures forall i :: 0 <= i < |r| - 1 ==>
      if descending then ranks[r[i].name] >= ranks[r[i + 1].name] else ranks[r[i].name] <= ranks[r[i + 1].name]
  {
    ReverseMultiset(sel);
    ReverseAllRanked(sel, ranks);
    var r := SortByKey(Reverse(sel), ranks, descending);
    SortedByRank(r, ranks, descending);
    r
  }

  lemma {:induction false} ReverseMultiset<T>(s: seq<T>)
    ensures multiset(Reverse(s)) == multiset(s)
  {
    if s != [] {
      ReverseMultiset(s[1..]);
      assert s == [s[0]] + s[1..];
    }
  }

  lemma ReverseAllRanked(s: seq<File>, ranks: map<string, int>)
    requires AllRanked(s, ranks)
    ensures AllRanked(Reverse(s), ranks)
  {
    forall i | 0 <= i < |s| ensures Reverse(s)[i].name in ranks {
      assert Reverse(s)[i] == s[|s| - 1 - i];
    }
  }

  /** Sorted by key is sorted by rank, ascending or descending. */
  lemma SortedByRank(r: seq<File>, ranks: map<string, int>, descending: bool)
    requires AllRanked(r, ranks) && SortedByKey(r, ranks, descending)
    ensures forall i :: 0 <= i < |r| - 1 ==>
      if descending then ranks[r[i].name] >= ranks[r[i + 1].name] else ranks[r[i].name] <= ranks[r[i + 1].name]
  {
    forall i | 0 <= i < |r| - 1
      ensures if descending then ranks[r[i].name] >= ranks[r[i + 1].name] else ranks[r[i].name] <= ranks[r[i + 1].name]
    {
      assert RankKey(ranks, descending, r[i]) <= RankKey(ranks, descending, r[i + 1]);
    }
  }

  /** The index of the first store row with this name, or the row count when there is none. */
  function RowOf(rows: seq<CreationRow>, name: string): (k: nat)
    ensures k <= |rows|
    ensures k < |rows| ==> rows[k].name == name
    ensures forall m :: 0 <= m < k ==> rows[m].name != name
  {
    if rows == [] then 0
    else if rows[0].name == name then 0
    else 1 + RowOf(rows[1..], name)
  }

  /** FIRST_CREATED on the store's rank table lists the files in the order of their rows, oldest first. */
  lemma FirstCreatedFollowsRows(rows: seq<CreationRow>, sel: seq<File>)
    requires DistinctNames(rows) && AllDated(rows)
    requires forall i :: 0 <= i < |sel| ==> exists k :: 0 <= k < |rows| && rows[k].name == sel[i].name
    ensures BuildCreationRanks(rows).Some?
    ensures AllRanked(sel, BuildCreationRanks(rows).value)
    ensures var r := CreatedSort(sel, BuildCreationRanks(rows).value, false);
      forall i :: 0 <= i < |r| - 1 ==> RowOf(rows, r[i].name) <= RowOf(rows, r[i + 1].name)
  {
    CreationRanksAreRowIndices(rows);
    var ranks := BuildCreationRanks(rows).value;
    var r := CreatedSort(sel, ranks, false);
    forall i | 0 <= i < |r| ensures RowOf(rows, r[i].name) < |rows| && ranks[r[i].name] == RowOf(rows, r[i].name) {
      assert r[i] in multiset(sel);
      var m :| 0 <= m < |sel| && sel[m] == r[i];
      var k :| 0 <= k < |rows| && rows[k].name == r[i].name;
      assert RowOf(rows, r[i].name) <= k;
    }
  }

  // ---------------------------------------------------------------------
  // begin_batch_rename
  // ---------------------------------------------------------------------

  /** A selected file paired with its new name; the two lists of the C code move in lockstep. */
  datatype Rename = Rename(file: File, newName: string)

  /** The list with position j taken out. */
  function RemoveAt<T>(s: seq<T>, j: nat): (r: seq<T>)
    requires j < |s|
    ensures |r| == |s| - 1
    ensures multiset(r) + multiset{s[j]} == multiset(s)
  {
    assert s == s[..j] + [s[j]] + s[j + 1..];
    s[..j] + s[j + 1..]
  }

  /** The first position other than i whose file currently has ps[i]'s new name. */
  function FirstHolder(ps: seq<Rename>, i: nat, j: nat): (r: Option<nat>)
    requires i < |ps| && j <= |ps|
    decreases |ps| - j
    ensures r.Some? ==> j <= r.value < |ps| && r.value != i && ps[r.value].file.name == ps[i].newName
    ensures r.Some? ==> forall k :: j <= k < r.value && k != i ==> ps[k].file.name != ps[i].newName
    ensures r.None? ==> forall k :: j <= k < |ps| && k != i ==> ps[k].file.name != ps[i].newName
  {
    if j == |ps| then None
    else if j != i && ps[j].file.name == ps[i].newName then Some(j)
    else FirstHolder(ps, i, j + 1)
  }

  /**
    The reordering loop of begin_batch_rename from the node at position i:
    the first other file holding the visited file's new name is unlinked and
    prepended, and the walk goes on from the node after the visited one, whose
    position moves up by one when the moved file came from behind it.
   */
  function ReorderFrom(ps: seq<Rename>, i: nat): (r: seq<Rename>)
    decreases |ps| - i
    ensures multiset(r) == multiset(ps)
  {
    if i >= |ps| then ps
    else
      match FirstHolder(ps, i, 0)
      case None => ReorderFrom(ps, i + 1)
      case Some(j) =>
        var moved := [ps[j]] + RemoveAt(ps, j);
        ReorderFrom(moved, if j > i then i + 2 else i + 1)
  }

  /** begin_batch_rename's reordering, as written. */
  function BeginBatchRenameAsWritten(ps: seq<Rename>): (r: seq<Rename>)
    ensures multiset(r) == multiset(ps)
  {
    ReorderFrom(ps, 0)
  }

  /** No rename targets a name that a file renamed after it still holds. */
  predicate SafeOrder(ps: seq<Rename>)
  {
    forall i, j :: 0 <= i < j < |ps| ==> ps[i].newName != ps[j].file.name
  }

  /** The chain a→b, b→c, c→d of three files in one directory. */
  function Chain(a: string, b: string, c: string, d: string, dir: string): seq<Rename>
  {
    [Rename(File(a, dir, false), b), Rename(File(b, dir, false), c), Rename(File(c, dir, false), d)]
  }

  /** The four names of a chain are distinct. */
  predicate ChainNames(a: string, b: string, c: string, d: string)
  {
    a != b && a != c && a != d && b != c && b != d && c != d
  }

  /** The visited rename's first holder is unlinked and prepended, and the walk goes on. */
  lemma ReorderMoveStep(ps: seq<Rename>, i: nat, j: nat)
    requires i < |ps| && FirstHolder(ps, i, 0) == Some(j)
    ensures ReorderFrom(ps, i) == ReorderFrom([ps[j]] + RemoveAt(ps, j), if j > i then i + 2 else i + 1)
  {
  }

  /** Three renames where nothing holds the third's new name: the walk from the third leaves them be. */
  lemma ThirdLeftAlone(x: Rename, y: Rename, z: Rename)
    requires x.file.name != z.newName && y.file.name != z.newName
    ensures ReorderFrom([x, y, z], 2) == [x, y, z]
  {
    var ps := [x, y, z];
    assert FirstHolder(ps, 2, 0) == None by {
      assert FirstHolder(ps, 2, 3) == None;
      assert FirstHolder(ps, 2, 2) == None;
      assert FirstHolder(ps, 2, 1) == None;
    }
  }

  lemma ChainFirstHolder(a: string, b: string, c: string, d: string, dir: string)
    requires ChainNames(a, b, c, d)
    ensures FirstHolder(Chain(a, b, c, d, dir), 0, 0) == Some(1)
  {
    var ps := Chain(a, b, c, d, dir);
    assert FirstHolder(ps, 0, 1) == Some(1);
  }

  /** The single pass moves b→c in front of a→b but leaves it in front of c→d, so b is renamed onto c while c still exists. */
  lemma ChainOrderAsWritten(a: string, b: string, c: string, d: string, dir: string)
    requires ChainNames(a, b, c, d)
    ensures var ps := Chain(a, b, c, d, dir);
      BeginBatchRenameAsWritten(ps) == [ps[1], ps[0], ps[2]] && !SafeOrder(BeginBatchRenameAsWritten(ps))
  {
    var ps := Chain(a, b, c, d, dir);
    ChainFirstHolder(a, b, c, d, dir);
    assert [ps[1]] + RemoveAt(ps, 1) == [ps[1], ps[0], ps[2]];
    ReorderMoveStep(ps, 0, 1);
    ThirdLeftAlone(ps[1], ps[0], ps[2]);
    var r := [ps[1], ps[0], ps[2]];
    assert r[0].newName == r[2].file.name;
  }

  /**
    With two files the single pass is enough: the rename whose file holds the
    other's new name is moved in front, so unless the two swap names the
    as-written order is safe.
   */
  lemma TwoRenamesAsWritten(ps: seq<Rename>)
    requires |ps| == 2
    ensures BeginBatchRenameAsWritten(ps) == if ps[1].file.name == ps[0].newName then [ps[1], ps[0]] else ps
    ensures !(ps[0].newName == ps[1].file.name && ps[1].newName == ps[0].file.name) ==>
              SafeOrder(BeginBatchRenameAsWritten(ps))
  {
    var x, y := ps[0], ps[1];
    assert ps == [x, y];
    if y.file.name == x.newName {
      HolderMovedInFront(x, y);
      if x.file.name != y.newName {
        PairOrder(x, y);
      }
    } else {
      NoHolderKeepsPair(x, y);
      ReadyFirstOfPair(x, y);
    }
  }

  /** For two files that do not swap names, the as-written pass and the dependency order agree. */
  lemma TwoRenamesDependencyOrder(ps: seq<Rename>)
    requires |ps| == 2
    requires !(ps[0].newName == ps[1].file.name && ps[1].newName == ps[0].file.name)
    ensures DependencyOrder(ps) == Ordered(BeginBatchRenameAsWritten(ps))
  {
    var x, y := ps[0], ps[1];
    assert ps == [x, y];
    if y.file.name == x.newName {
      HolderMovedInFront(x, y);
      PairOrder(x, y);
    } else {
      NoHolderKeepsPair(x, y);
      ReadyFirstOfPair(x, y);
    }
  }

  /** The second file holds the first's new name: the walk from the first moves it in front and stops. */
  lemma HolderMovedInFront(x: Rename, y: Rename)
    requires y.file.name == x.newName
    ensures ReorderFrom([x, y], 0) == [y, x]
  {
    var ps := [x, y];
    assert FirstHolder(ps, 0, 0) == Some(1) by {
      assert FirstHolder(ps, 0, 1) == Some(1);
    }
    assert RemoveAt(ps, 1) == [x];
    ReorderMoveStep(ps, 0, 1);
  }

  /** The second file does not hold the first's new name: the pair comes out as it went in. */
  lemma NoHolderKeepsPair(x: Rename, y: Rename)
    requires y.file.name != x.newName
    ensures ReorderFrom([x, y], 0) == [x, y]
  {
    var ps := [x, y];
    assert FirstHolder(ps, 0, 0).None? by {
      assert FirstHolder(ps, 0, 2).None?;
      assert FirstHolder(ps, 0, 1).None?;
    }
    if x.file.name == y.newName {
      assert FirstHolder(ps, 1, 0) == Some(0);
      assert RemoveAt(ps, 0) == [y];
      ReorderMoveStep(ps, 1, 0);
    } else {
      assert FirstHolder(ps, 1, 0).None? by {
        assert FirstHolder(ps, 1, 2).None?;
        assert FirstHolder(ps, 1, 1).None?;
      }
      assert ReorderFrom(ps, 1) == ReorderFrom(ps, 2) == ps;
    }
  }

  /** The second file does not hold the first's new name: the first rename is ready and goes first. */
  lemma ReadyFirstOfPair(x: Rename, y: Rename)
    requires y.file.name != x.newName
    ensures DependencyOrder([x, y]) == Ordered([x, y])
  {
    var ps := [x, y];
    FirstOfPairReady(x, y);
    assert DependencyOrder(RemoveAt(ps, 0)) == Ordered([y]) by {
      assert RemoveAt(ps, 0) == [y];
      SingleRenameOrdered(y);
    }
    DependencyOrderStep(ps, 0, [y]);
    assert [ps[0]] + [y] == ps;
  }

  lemma FirstOfPairReady(x: Rename, y: Rename)
    requires y.file.name != x.newName
    ensures FirstReady([x, y], 0) == Some(0)
  {
    var ps := [x, y];
    assert FirstHolder(ps, 0, 0).None? by {
      assert FirstHolder(ps, 0, 2).None?;
      assert FirstHolder(ps, 0, 1).None?;
    }
  }

  lemma SingleRenameOrdered(y: Rename)
    ensures DependencyOrder([y]) == Ordered([y])
  {
    IndependentDependencyOrder([y]);
  }

  /** A rename none of the other files is in the way of. */
  function FirstReady(ps: seq<Rename>, k: nat): (r: Option<nat>)
    requires k <= |ps|
    decreases |ps| - k
    ensures r.Some? ==> k <= r.value < |ps| && forall j :: 0 <= j < |ps| && j != r.value ==> ps[j].file.name != ps[r.value].newName
    ensures r.None? ==> forall m :: k <= m < |ps| ==> HeldByOther(ps, m)
  {
    if k == |ps| then None
    else if FirstHolder(ps, k, 0).None? then Some(k)
    else FirstReady(ps, k + 1)
  }

  /** Another rename's file holds the new name of rename m. */
  predicate HeldByOther(ps: seq<Rename>, m: int)
  {
    0 <= m < |ps| && exists j :: 0 <= j < |ps| && j != m && ps[j].file.name == ps[m].newName
  }

  /** Every rename has another one whose file holds its new name: no order of them is safe. */
  predicate Blocked(ps: seq<Rename>)
  {
    |ps| > 0 && forall m :: 0 <= m < |ps| ==> HeldByOther(ps, m)
  }

  datatype Plan = Ordered(renames: seq<Rename>) | Stuck(cycle: seq<Rename>)

  /**
    The order begin_batch_rename evidently intends: repeatedly take the first
    rename whose new name no remaining file holds. When none is left, the
    remaining renames block one another in a cycle.
   */
  function DependencyOrder(ps: seq<Rename>): (r: Plan)
    decreases |ps|
    ensures r.Ordered? ==> multiset(r.renames) == multiset(ps) && SafeOrder(r.renames)
    ensures r.Stuck? ==> Blocked(r.cycle) && multiset(r.cycle) <= multiset(ps)
  {
    if ps == [] then Ordered([])
    else
      match FirstReady(ps, 0)
      case None => Stuck(ps)
      case Some(k) =>
        var rest := RemoveAt(ps, k);
        match DependencyOrder(rest)
        case Stuck(c) => Stuck(c)
        case Ordered(r) =>
          ReadyFirstIsSafe(ps, k, r);
          Ordered([ps[k]] + r)
  }

  /** Putting a ready rename in front of a safe order of the others is safe. */
  lemma ReadyFirstIsSafe(ps: seq<Rename>, k: nat, r: seq<Rename>)
    requires k < |ps|
    requires forall j :: 0 <= j < |ps| && j != k ==> ps[j].file.name != ps[k].newName
    requires multiset(r) == multiset(RemoveAt(ps, k)) && SafeOrder(r)
    ensures SafeOrder([ps[k]] + r)
  {
    var rest := RemoveAt(ps, k);
    forall j | 0 <= j < |r| ensures r[j].file.name != ps[k].newName {
      assert r[j] in multiset(rest);
      var m :| 0 <= m < |rest| && rest[m] == r[j];
      if m < k {
        assert rest[m] == ps[m];
      } else {
        assert rest[m] == ps[m + 1];
      }
    }
    var s := [ps[k]] + r;
    forall i, j | 0 <= i < j < |s| ensures s[i].newName != s[j].file.name {
      if i == 0 {
        assert s[j] == r[j - 1];
      } else {
        assert s[i] == r[i - 1] && s[j] == r[j - 1];
      }
    }
  }

  /** A value at two positions is counted twice. */
  lemma TwoPositionsCount<T>(c: seq<T>, j: nat, m: nat)
    requires j < |c| && m < |c| && j != m && c[j] == c[m]
    ensures multiset(c)[c[m]] >= 2
  {
    var lo, hi := if j < m then j else m, if j < m then m else j;
    assert c == c[..lo] + [c[lo]] + c[lo + 1..hi] + [c[hi]] + c[hi + 1..];
  }

  /** The first position from `i` on whose element the multiset holds, or |r| when there is none. */
  function FirstIndexIn<T>(r: seq<T>, m: multiset<T>, i: nat): (q: nat)
    requires i <= |r|
    decreases |r| - i
    ensures i <= q <= |r|
    ensures q < |r| ==> r[q] in m
    ensures forall k :: i <= k < q ==> r[k] !in m
  {
    if i == |r| then i
    else if r[i] in m then i
    else FirstIndexIn(r, m, i + 1)
  }

  /** An element counted twice occurs at a second position. */
  lemma OtherOccurrence<T>(r: seq<T>, q: nat)
    requires q < |r| && multiset(r)[r[q]] >= 2
    ensures exists k :: 0 <= k < |r| && k != q && r[k] == r[q]
  {
    var x := r[q];
    assert r == r[..q] + [x] + r[q + 1..];
    assert multiset(r) == multiset(r[..q]) + multiset{x} + multiset(r[q + 1..]);
    if x in multiset(r[..q]) {
      var k :| 0 <= k < q && r[..q][k] == x;
      assert r[k] == x;
    } else {
      assert x in multiset(r[q + 1..]);
      var k :| 0 <= k < |r| - q - 1 && r[q + 1..][k] == x;
      assert r[q + 1 + k] == x;
    }
  }

  /**
    A list that contains a blocked group has no safe order: the group's
    member placed first still has the file in its way placed after it.
   */
  lemma BlockedPartHasNoSafeOrder(c: seq<Rename>, r: seq<Rename>)
    requires Blocked(c) && multiset(c) <= multiset(r)
    ensures !SafeOrder(r)
  {
    var mc := multiset(c);
    assert c[0] in mc;
    var q := FirstIndexIn(r, mc, 0);
    assert q < |r| by {
      assert c[0] in multiset(r);
      var k :| 0 <= k < |r| && r[k] == c[0];
    }
    assert r[q] in c;
    var m :| 0 <= m < |c| && c[m] == r[q];
    assert HeldByOther(c, m);
    var j :| 0 <= j < |c| && j != m && c[j].file.name == c[m].newName;
    var x := c[j];
    var k: nat;
    if x == r[q] {
      TwoPositionsCount(c, j, m);
      OtherOccurrence(r, q);
      k :| 0 <= k < |r| && k != q && r[k] == r[q];
    } else {
      assert x in mc;
      k :| 0 <= k < |r| && r[k] == x;
    }
    assert r[k] in mc;
    assert q < k;
    assert r[q].newName == r[k].file.name;
  }

  /**
    When the planner is stuck, no order of the renames is safe; together with
    the postcondition of DependencyOrder, it finds a safe order exactly when
    one exists.
   */
  lemma StuckMeansNoSafeOrder(ps: seq<Rename>, r: seq<Rename>)
    requires DependencyOrder(ps).Stuck? && multiset(r) == multiset(ps)
    ensures !SafeOrder(r)
  {
    BlockedPartHasNoSafeOrder(DependencyOrder(ps).cycle, r);
  }

  /** No rename's new name is held by another rename's file. */
  predicate Independent(ps: seq<Rename>)
  {
    forall a, b :: 0 <= a < |ps| && 0 <= b < |ps| && a != b ==> ps[b].file.name != ps[a].newName
  }

  lemma IndependentTail(ps: seq<Rename>)
    requires Independent(ps) && |ps| > 0
    ensures Independent(ps[1..]) && FirstHolder(ps, 0, 0).None?
  {
    var tail := ps[1..];
    forall a, b | 0 <= a < |tail| && 0 <= b < |tail| && a != b ensures tail[b].file.name != tail[a].newName {
      assert tail[a] == ps[a + 1] && tail[b] == ps[b + 1];
    }
  }

  /** Renames that nothing else is in the way of keep their order under both orderings. */
  lemma IndependentRenamesKeepOrder(ps: seq<Rename>)
    requires Independent(ps)
    ensures BeginBatchRenameAsWritten(ps) == ps
    ensures DependencyOrder(ps) == Ordered(ps)
  {
    IndependentReorder(ps, 0);
    IndependentDependencyOrder(ps);
  }

  lemma {:induction false} IndependentReorder(ps: seq<Rename>, i: nat)
    requires Independent(ps)
    decreases |ps| - i
    ensures ReorderFrom(ps, i) == ps
  {
    if i < |ps| {
      assert FirstHolder(ps, i, 0).None?;
      IndependentReorder(ps, i + 1);
    }
  }

  lemma {:induction false} IndependentDependencyOrder(ps: seq<Rename>)
    requires Independent(ps)
    decreases |ps|
    ensures DependencyOrder(ps) == Ordered(ps)
  {
    if ps != [] {
      IndependentTail(ps);
      assert FirstReady(ps, 0) == Some(0);
      var rest := RemoveAt(ps, 0);
      assert rest == ps[1..];
      IndependentDependencyOrder(rest);
      assert ps == [ps[0]] + rest;
    }
  }

  lemma ChainFirstReady(a: string, b: string, c: string, d: string, dir: string)
    requires ChainNames(a, b, c, d)
    ensures FirstReady(Chain(a, b, c, d, dir), 0) == Some(2)
  {
    var ps := Chain(a, b, c, d, dir);
    assert FirstHolder(ps, 0, 1) == Some(1);
    assert FirstHolder(ps, 1, 2) == Some(2);
    assert FirstHolder(ps, 2, 3).None?;
    assert FirstHolder(ps, 2, 2).None?;
    assert FirstHolder(ps, 2, 1).None?;
    assert FirstHolder(ps, 2, 0).None?;
    assert FirstReady(ps, 2) == Some(2);
    assert FirstReady(ps, 1) == Some(2);
  }

  /** Of two renames where the second holds the first's new name, the second goes first. */
  lemma PairOrder(x: Rename, y: Rename)
    requires y.file.name == x.newName && x.file.name != y.newName
    ensures DependencyOrder([x, y]) == Ordered([y, x])
  {
    var ps := [x, y];
    assert FirstHolder(ps, 0, 1) == Some(1);
    assert FirstHolder(ps, 1, 0).None? by {
      assert FirstHolder(ps, 1, 2).None?;
    }
    assert FirstReady(ps, 1) == Some(1);
    assert RemoveAt(ps, 1) == [x];
    IndependentDependencyOrder([x]);
    DependencyOrderStep(ps, 1, [x]);
  }

  /** The first ready rename goes first, ahead of the order of the others. */
  lemma DependencyOrderStep(ps: seq<Rename>, k: nat, r: seq<Rename>)
    requires |ps| > 0 && FirstReady(ps, 0) == Some(k)
    requires DependencyOrder(RemoveAt(ps, k)) == Ordered(r)
    ensures DependencyOrder(ps) == Ordered([ps[k]] + r)
  {
  }

  lemma ConsPair<T>(a: T, b: T, c: T)
    ensures [a] + [b, c] == [a, b, c]
  {
  }

  /** The chain comes out with c→d first, then b→c, then a→b. */
  lemma ChainOrderCorrected(a: string, b: string, c: string, d: string, dir: string)
    requires ChainNames(a, b, c, d)
    ensures var ps := Chain(a, b, c, d, dir);
      DependencyOrder(ps) == Ordered([ps[2], ps[1], ps[0]]) && SafeOrder([ps[2], ps[1], ps[0]])
  {
    var ps := Chain(a, b, c, d, dir);
    assert RemoveAt(ps, 2) == [ps[0], ps[1]];
    PairOrder(ps[0], ps[1]);
    ChainFirstReady(a, b, c, d, dir);
    ConsPair(ps[2], ps[1], ps[0]);
    DependencyOrderStep(ps, 2, [ps[1], ps[0]]);
  }
}

=== FILE: rename_intent.dfy ===
/**
  The small state machine around the rename button: a conflict check runs in
  the background after every edit; a rename requested while it runs is queued
  and carried out, or dropped, when the check reports back; a check that was
  cancelled by a later edit reports nothing. The cancellable of the C code is
  modelled as a generation token: each started check gets a fresh one, and
  only the token still live may deliver its result.
 */
module RenameIntent {

  import opened Text
  import opened Lists
  import opened DialogConflicts

  datatype DialogState = DialogState(
    checking: bool,                     // a conflict check is in flight
    renameClicked: bool,                // a rename was requested during the check
    live: Option<nat>,                  // the token of the check that may still report
    generation: nat,                    // the last token handed out
    duplicates: seq<ConflictData>,      // the conflicts last reported
    renameSensitive: bool,              // the rename button can be pressed
    newNames: seq<string>)              // the new names the dialog shows

  /** What a step did besides changing the state. */
  datatype Outcome = Stay | Queued | Renamed(names: seq<string>)

  datatype Step = Step(state: DialogState, outcome: Outcome)

  /** The dialog after init: nothing checked, nothing queued, the button enabled. */
  const Initial: DialogState := DialogState(false, false, None, 0, [], true, [])

  /**
    The states the dialog can be in: a queued rename only while a check runs,
    a live token only for the running check and only the newest one, and the
    button disabled while conflicts are shown.
   */
  predicate Consistent(s: DialogState)
  {
    && (s.renameClicked ==> s.checking)
    && (s.live.Some? ==> s.checking && s.live.value == s.generation)
    && (s.duplicates != [] ==> !s.renameSensitive)
  }

  /** file_names_list_has_duplicates_async: cancel a running check and start one with a fresh token. */
  function StartCheck(s: DialogState): (r: DialogState)
    ensures r.checking && r.live == Some(r.generation) && r.generation > s.generation
    ensures r.renameClicked == s.renameClicked && r.duplicates == s.duplicates
    ensures r.renameSensitive == s.renameSensitive && r.newNames == s.newNames
  {
    s.(checking := true, live := Some(s.generation + 1), generation := s.generation + 1)
  }

  /**
    update_display_text: cancel the running check; with a selection, drop the
    reported conflicts, take the new names, and either stop at the unsafe-name
    gate (which disables the button) or start a new check.
   */
  function UpdateDisplayText(s: DialogState, hasSelection: bool, blocked: bool, newNames: seq<string>): (r: DialogState)
    ensures r.live.Some? ==> r.live.value > s.generation
    ensures !hasSelection ==> r == s.(live := None)
    ensures hasSelection ==> r.duplicates == [] && r.newNames == newNames
    ensures hasSelection && blocked ==> !r.renameSensitive && r.checking == s.checking && r.live.None?
    ensures hasSelection && !blocked ==> r.checking && r.live.Some?
    ensures r.renameClicked == s.renameClicked
  {
    var s1 := s.(live := None);
    if !hasSelection then s1
    else
      var s2 := s1.(duplicates := [], newNames := newNames);
      if blocked then s2.(renameSensitive := false) else StartCheck(s2)
  }

  /**
    prepare_batch_rename: while a check runs the request is queued; a disabled
    button does nothing; otherwise the rename starts with the shown names.
   */
  function PrepareBatchRename(s: DialogState): (r: Step)
    ensures r.outcome.Renamed? <==> !s.checking && s.renameSensitive
    ensures r.outcome.Renamed? ==> r.outcome.names == s.newNames
    ensures s.checking ==> r.outcome == Queued && r.state == s.(renameClicked := true)
    ensures !s.checking ==> r.state == s
  {
    if s.checking then Step(s.(renameClicked := true), Queued)
    else if !s.renameSensitive then Step(s, Stay)
    else Step(s, Renamed(s.newNames))
  }

  /**
    on_file_names_list_has_duplicates followed by update_listbox: a cancelled
    check reports nothing; the live one stores its conflicts (collected
    front-first, so reversed), ends the check, disables the button on
    conflicts and re-enables it without; a queued rename is then carried out
    when there are no conflicts and dropped when there are.
   */
  function CheckFinished(s: DialogState, token: nat, found: seq<ConflictData>): (r: Step)
    ensures s.live != Some(token) ==> r == Step(s, Stay)
    ensures s.live == Some(token) ==>
      && !r.state.checking && r.state.live.None? && (r.state.renameClicked <==> r.outcome.Renamed?)
      && r.state.duplicates == Reverse(found)
      && (r.state.renameSensitive <==> found == [])
      && (r.outcome.Renamed? <==> s.renameClicked && found == [])
      && (r.outcome.Renamed? ==> r.outcome.names == s.newNames)
  {
    if s.live != Some(token) then Step(s, Stay)
    else
      var s1 := s.(duplicates := Reverse(found), checking := false, live := None);
      var s2 :=
        if s1.duplicates != [] then s1.(renameSensitive := false)
        else if !s1.renameSensitive then s1.(renameSensitive := true)
        else s1;
      if s2.renameClicked && s2.duplicates == [] then PrepareBatchRename(s2)
      else if s2.renameClicked && s2.duplicates != [] then Step(s2.(renameClicked := false), Stay)
      else Step(s2, Stay)
  }

  lemma InitialConsistent()
    ensures Consistent(Initial)
  {
  }

  /** Every step keeps the dialog in a consistent state; a step that renames destroys the dialog, so its state no longer matters. */
  lemma StepsKeepConsistent(s: DialogState, hasSelection: bool, blocked: bool, newNames: seq<string>, token: nat, found: seq<ConflictData>)
    requires Consistent(s)
    ensures Consistent(UpdateDisplayText(s, hasSelection, blocked, newNames))
    ensures Consistent(PrepareBatchRename(s).state)
    ensures !CheckFinished(s, token, found).outcome.Renamed? ==> Consistent(CheckFinished(s, token, found).state)
  {
  }

  /** A rename never starts while conflicts are on show. */
  lemma RenameOnlyWithoutConflicts(s: DialogState)
    requires Consistent(s)
    ensures PrepareBatchRename(s).outcome.Renamed? ==> s.duplicates == []
  {
  }

  /** Once an edit has restarted the check, no earlier check can report. */
  lemma EditMakesEarlierChecksStale(s: DialogState, hasSelection: bool, blocked: bool, newNames: seq<string>, token: nat, found: seq<ConflictData>)
    requires token <= s.generation
    ensures var u := UpdateDisplayText(s, hasSelection, blocked, newNames);
      CheckFinished(u, token, found) == Step(u, Stay)
  {
  }

  /**
    A rename requested during a check is carried out when that check reports
    no conflicts, and dropped when it reports some.
   */
  lemma QueuedRenameCompletes(s: DialogState, found: seq<ConflictData>)
    requires Consistent(s) && s.checking && s.live.Some?
    ensures var q := PrepareBatchRename(s);
      && q.outcome == Queued
      && (found == [] ==> CheckFinished(q.state, s.generation, found).outcome == Renamed(s.newNames))
      && (found != [] ==> CheckFinished(q.state, s.generation, found).outcome == Stay
                          && !CheckFinished(q.state, s.generation, found).state.renameClicked)
  {
  }

  /**
    An edit stopped by the unsafe-name gate cancels the running check but
    leaves the checking flag set, so a rename requested afterwards is queued
    rather than started, and waits for the next edit's check.
   */
  lemma BlockedEditKeepsCheckingFlag(s: DialogState, newNames: seq<string>)
    requires s.checking
    ensures var u := UpdateDisplayText(s, true, true, newNames);
      && u.checking && u.live.None?
      && PrepareBatchRename(u).outcome == Queued
      && forall token, found :: CheckFinished(PrepareBatchRename(u).state, token, found).outcome == Stay
  {
  }
}

=== FILE: selection.dfy ===
/**
  The files a batch rename works on, the enumerations that steer it, and the
  handling of selections that span several parent directories.
 */
module Selection {

  import opened Text
  import opened Lists

  /** A selected file: its current name and the URI of the directory holding it. */
  datatype File = File(name: string, parent: string, isDesktop: bool)

  /** How new names are built; the numbering matches the C enumeration. */
  datatype BatchRenameMode = Append | Prepend | Replace | Format

  /** How the selection is ordered before numbering; the numbering matches the C enumeration. */
  datatype SortingMode =
    | OriginalAscending
    | OriginalDescending
    | FirstModified
    | LastModified
    | FirstCreated
    | LastCreated

  function ModeCode(m: BatchRenameMode): (code: nat)
    ensures code <= 3
  {
    match m
    case Append => 0
    case Prepend => 1
    case Replace => 2
    case Format => 3
  }

  function ModeFromCode(code: nat): (m: Option<BatchRenameMode>)
    ensures m.Some? <==> code <= 3
  {
    if code == 0 then Some(Append)
    else if code == 1 then Some(Prepend)
    else if code == 2 then Some(Replace)
    else if code == 3 then Some(Format)
    else None
  }

  function SortingCode(m: SortingMode): (code: nat)
    ensures code <= 5
  {
    match m
    case OriginalAscending => 0
    case OriginalDescending => 1
    case FirstModified => 2
    case LastModified => 3
    case FirstCreated => 4
    case LastCreated => 5
  }

  function SortingFromCode(code: nat): (m: Option<SortingMode>)
    ensures m.Some? <==> code <= 5
  {
    if code == 0 then Some(OriginalAscending)
    else if code == 1 then Some(OriginalDescending)
    else if code == 2 then Some(FirstModified)
    else if code == 3 then Some(LastModified)
    else if code == 4 then Some(FirstCreated)
    else if code == 5 then Some(LastCreated)
    else None
  }

  /** The enumeration values are distinct and decode back to themselves. */
  lemma EnumCodesRoundTrip(m: BatchRenameMode, s: SortingMode)
    ensures ModeFromCode(ModeCode(m)) == Some(m)
    ensures SortingFromCode(SortingCode(s)) == Some(s)
    ensures forall a: BatchRenameMode, b: BatchRenameMode :: ModeCode(a) == ModeCode(b) ==> a == b
    ensures forall a: SortingMode, b: SortingMode :: SortingCode(a) == SortingCode(b) ==> a == b
  {
    forall a: BatchRenameMode, b: BatchRenameMode | ModeCode(a) == ModeCode(b) ensures a == b {
      assert ModeFromCode(ModeCode(a)) == Some(a);
      assert ModeFromCode(ModeCode(b)) == Some(b);
    }
    forall a: SortingMode, b: SortingMode | SortingCode(a) == SortingCode(b) ensures a == b {
      assert SortingFromCode(SortingCode(a)) == Some(a);
      assert SortingFromCode(SortingCode(b)) == Some(b);
    }
  }

  /** Some selected file lives in directory `p`. */
  predicate HasParent(sel: seq<File>, p: string)
  {
    exists k :: 0 <= k < |sel| && sel[k].parent == p
  }

  /**
    The parent directories of the selection, each once, built by prepending
    every parent not met before; the first selected file's parent ends up last.
   */
  function DistinctFileParents(sel: seq<File>): (r: seq<string>)
    decreases |sel|
    ensures NoDuplicates(r)
    ensures forall p :: p in r <==> HasParent(sel, p)
    ensures |sel| > 0 ==> |r| > 0 && r[|r| - 1] == sel[0].parent
  {
    if |sel| == 0 then []
    else
      var init := sel[..|sel| - 1];
      var rest := DistinctFileParents(init);
      var p := sel[|sel| - 1].parent;
      assert forall q :: HasParent(sel, q) <==> HasParent(init, q) || q == p by {
        forall q | HasParent(sel, q) ensures HasParent(init, q) || q == p {
          var k :| 0 <= k < |sel| && sel[k].parent == q;
          if k < |sel| - 1 {
            assert init[k] == sel[k];
          }
        }
        forall q | HasParent(init, q) ensures HasParent(sel, q) {
          var k :| 0 <= k < |init| && init[k].parent == q;
          assert sel[k] == init[k];
        }
      }
      assert |init| > 0 ==> init[0] == sel[0];
      if p in rest then rest else [p] + rest
  }

  /**
    Whether all selected files share the first file's parent. The selection
    must be non-empty: the first file is read unconditionally.
   */
  method SelectionHasSingleParent(sel: seq<File>) returns (r: bool)
    requires |sel| > 0
    ensures r <==> forall i :: 0 <= i < |sel| ==> sel[i].parent == sel[0].parent
    ensures r <==> |DistinctFileParents(sel)| == 1
  {
    SingleParentIffOneDistinct(sel);
    var first := sel[0].parent;
    var i := 1;
    while i < |sel|
      invariant 1 <= i <= |sel|
      invariant forall k :: 0 <= k < i ==> sel[k].parent == first
    {
      if sel[i].parent != first {
        return false;
      }
      i := i + 1;
    }
    return true;
  }

  /** All parents agree exactly when the list of distinct parents has one entry. */
  lemma SingleParentIffOneDistinct(sel: seq<File>)
    requires |sel| > 0
    ensures (forall i :: 0 <= i < |sel| ==> sel[i].parent == sel[0].parent)
        <==> |DistinctFileParents(sel)| == 1
  {
    var r := DistinctFileParents(sel);
    assert HasParent(sel, sel[0].parent);
    if forall i :: 0 <= i < |sel| ==> sel[i].parent == sel[0].parent {
    } else {
      var i :| 0 <= i < |sel| && sel[i].parent != sel[0].parent;
      assert HasParent(sel, sel[i].parent);
      assert sel[i].parent in r && sel[0].parent in r;
    }
  }
}

=== FILE: tags.dfy ===
/**
  The tag bookkeeping of the batch-rename dialog's name template. Each tag
  (a numbering style or a metadata field) has a marker text that appears in
  the entry, a recorded character offset, and an action that inserts it.
  The hash table of tags is a sequence in the table's key order; action
  enablement is a map from action name to enabled.
 */
module Tags {

  import opened Text

  datatype TagKind = Numbering | Metadata

  /** One entry of the tag table. */
  datatype TagData = TagData(
    name: string,
    action: string,
    kind: TagKind,
    available: bool,
    isSet: bool,
    position: int,
    originalPosition: int,
    newPosition: int,
    justAdded: bool)

  /** A run of the template: literal text, or a tag marker. */
  datatype Segment = Literal(text: string) | Marker(name: string)

  /** The three numbering actions, disabled and enabled together. */
  const NumberingActions: seq<string> :=
    ["add-numbering-no-zero-pad-tag", "add-numbering-one-zero-pad-tag", "add-numbering-two-zero-pad-tag"]

  /** The metadata actions, one per metadata tag. */
  const MetadataActions: seq<string> :=
    ["add-original-file-name-tag", "add-creation-date-tag", "add-equipment-tag",
     "add-season-number-tag", "add-episode-number-tag", "add-video-album-tag",
     "add-track-number-tag", "add-artist-name-tag", "add-title-tag", "add-album-name-tag"]

  /** The template text the segments spell out. */
  function Flatten(segs: seq<Segment>): string
  {
    if |segs| == 0 then []
    else (match segs[0] case Literal(t) => t case Marker(n) => n) + Flatten(segs[1..])
  }

  /** The marker names among the segments, in order. */
  function MarkerNames(segs: seq<Segment>): seq<string>
  {
    if |segs| == 0 then []
    else (if segs[0].Marker? then [segs[0].name] else []) + MarkerNames(segs[1..])
  }

  lemma FlattenAppend(a: seq<Segment>, b: seq<Segment>)
    ensures Flatten(a + b) == Flatten(a) + Flatten(b)
    ensures MarkerNames(a + b) == MarkerNames(a) + MarkerNames(b)
  {
    FlattenAppendText(a, b);
    MarkerNamesAppend(a, b);
  }

  lemma {:induction false} FlattenAppendText(a: seq<Segment>, b: seq<Segment>)
    ensures Flatten(a + b) == Flatten(a) + Flatten(b)
  {
    if |a| > 0 {
      var c := a + b;
      assert c[0] == a[0] && c[1..] == a[1..] + b;
      FlattenAppendText(a[1..], b);
    } else {
      assert a + b == b;
    }
  }

  lemma {:induction false} MarkerNamesAppend(a: seq<Segment>, b: seq<Segment>)
    ensures MarkerNames(a + b) == MarkerNames(a) + MarkerNames(b)
  {
    if |a| > 0 {
      var c := a + b;
      assert c[0] == a[0] && c[1..] == a[1..] + b;
      MarkerNamesAppend(a[1..], b);
    } else {
      assert a + b == b;
    }
  }

  /** Every set tag lies inside the text, has a non-empty marker, and no two set tags overlap. */
  predicate WellPlaced(tags: seq<TagData>, text: string)
  {
    (forall i :: 0 <= i < |tags| && tags[i].isSet ==>
       0 <= tags[i].position && tags[i].position + |tags[i].name| <= |text| && |tags[i].name| > 0)
    && (forall i, j :: 0 <= i < |tags| && 0 <= j < |tags| && i != j && tags[i].isSet && tags[j].isSet ==>
          tags[i].position + |tags[i].name| <= tags[j].position
          || tags[j].position + |tags[j].name| <= tags[i].position)
  }

  /** Every set tag's marker sits at its recorded offset. */
  predicate MarkersInPlace(tags: seq<TagData>, text: string)
  {
    forall i :: 0 <= i < |tags| && tags[i].isSet ==> OccursAt(text, tags[i].name, tags[i].position)
  }

  // ---------------------------------------------------------------------
  // split_entry_text
  // ---------------------------------------------------------------------

  /** The offsets of the set tags, in key order. */
  function SetPositions(tags: seq<TagData>): (r: seq<int>)
    ensures forall i :: 0 <= i < |tags| && tags[i].isSet ==> tags[i].position in r
    ensures forall x :: x in r ==> exists i :: 0 <= i < |tags| && tags[i].isSet && tags[i].position == x
    ensures |r| <= |tags|
  {
    if |tags| == 0 then []
    else
      var rest := SetPositions(tags[1..]);
      assert forall i :: 1 <= i < |tags| ==> tags[i] == tags[1..][i - 1];
      (if tags[0].isSet then [tags[0].position] else []) + rest
  }

  predicate Sorted(s: seq<int>)
  {
    forall a, b :: 0 <= a < b < |s| ==> s[a] <= s[b]
  }

  predicate StrictlyAscending(s: seq<int>)
  {
    forall a, b :: 0 <= a < b < |s| ==> s[a] < s[b]
  }

  predicate Distinct(s: seq<int>)
  {
    forall a, b :: 0 <= a < b < |s| ==> s[a] != s[b]
  }

  function InsertSorted(x: int, s: seq<int>): (r: seq<int>)
    requires Sorted(s)
    ensures Sorted(r)
    ensures multiset(r) == multiset(s) + multiset{x}
    ensures |r| == |s| + 1 && r[0] == (if |s| == 0 || x <= s[0] then x else s[0])
  {
    if |s| == 0 then [x]
    else if x <= s[0] then [x] + s
    else
      var rest := InsertSorted(x, s[1..]);
      assert s == [s[0]] + s[1..];
      assert s[0] <= rest[0];
      [s[0]] + rest
  }

  /** g_array_sort with an integer comparison: the offsets in ascending order. */
  function SortPositions(s: seq<int>): (r: seq<int>)
    ensures Sorted(r)
    ensures multiset(r) == multiset(s)
  {
    if |s| == 0 then []
    else
      assert s == [s[0]] + s[1..];
      InsertSorted(s[0], SortPositions(s[1..]))
  }

  /** The first set tag, in key order, recorded at offset `pos`. */
  function TagAt(tags: seq<TagData>, pos: int): (r: Option<TagData>)
    ensures r.Some? ==> r.value in tags && r.value.isSet && r.value.position == pos
    ensures r.None? ==> forall i :: 0 <= i < |tags| && tags[i].isSet ==> tags[i].position != pos
  {
    if |tags| == 0 then None
    else if tags[0].isSet && tags[0].position == pos then Some(tags[0])
    else
      var r := TagAt(tags[1..], pos);
      assert forall i :: 1 <= i < |tags| ==> tags[i] == tags[1..][i - 1];
      r
  }

  /** The marker emitted for offset `pos`: the tag's name, or nothing when no set tag is recorded there. */
  function TagNameAt(tags: seq<TagData>, pos: int): string
  {
    match TagAt(tags, pos)
    case Some(t) => t.name
    case None => []
  }

  /** The markers emitted for a run of offsets. */
  function NamesAt(tags: seq<TagData>, positions: seq<int>): (r: seq<string>)
    ensures |r| == |positions|
    ensures forall k :: 0 <= k < |positions| ==> r[k] == TagNameAt(tags, positions[k])
  {
    if |positions| == 0 then [] else [TagNameAt(tags, positions[0])] + NamesAt(tags, positions[1..])
  }

  /**
    The walk over sorted offsets can cut the text: each offset lies at or after
    the end of the previous marker and its marker ends inside the text.
   */
  predicate WalkOk(tags: seq<TagData>, text: string, positions: seq<int>, tagEnd: int)
    decreases |positions|
  {
    0 <= tagEnd <= |text|
    && (|positions| > 0 ==>
          tagEnd <= positions[0]
          && TagAt(tags, positions[0]).Some?
          && positions[0] + |TagAt(tags, positions[0]).value.name| <= |text|
          && WalkOk(tags, text, positions[1..], positions[0] + |TagAt(tags, positions[0]).value.name|))
  }

  /** The segments from `tagEnd` on, one marker per offset and the literal runs between them. */
  function SplitWalk(tags: seq<TagData>, text: string, positions: seq<int>, tagEnd: int): (r: seq<Segment>)
    requires WalkOk(tags, text, positions, tagEnd)
    decreases |positions|
    ensures forall k :: 0 <= k < |r| && r[k].Literal? ==> |r[k].text| > 0
    ensures MarkerNames(r) == NamesAt(tags, positions)
  {
    if |positions| == 0 then
      if tagEnd < |text| then [Literal(text[tagEnd..])] else []
    else
      var p := positions[0];
      var t := TagAt(tags, p).value;
      var literal := if tagEnd < p then [Literal(text[tagEnd..p])] else [];
      var rest := SplitWalk(tags, text, positions[1..], p + |t.name|);
      FlattenAppend(literal + [Marker(t.name)], rest);
      FlattenAppend(literal, [Marker(t.name)]);
      literal + [Marker(t.name)] + rest
  }

  /**
    split_entry_text: the template cut into literal runs and tag markers,
    walking the recorded offsets of the set tags in ascending order. No
    empty literal run is produced, and the markers appear in that order.
   */
  function SplitEntryText(tags: seq<TagData>, text: string): (r: seq<Segment>)
    requires WellPlaced(tags, text)
    ensures forall k :: 0 <= k < |r| && r[k].Literal? ==> |r[k].text| > 0
    ensures MarkerNames(r) == NamesAt(tags, SortPositions(SetPositions(tags)))
  {
    var positions := SortPositions(SetPositions(tags));
    WellPlacedWalkOk(tags, text);
    SplitWalk(tags, text, positions, 0)
  }

  /** A sequence without repeats holds each value at most once in its multiset. */
  lemma {:induction false} DistinctMultiset(s: seq<int>, x: int)
    requires Distinct(s)
    ensures multiset(s)[x] <= 1
  {
    if |s| > 0 {
      assert Distinct(s[1..]);
      DistinctMultiset(s[1..], x);
      assert s == [s[0]] + s[1..];
      if s[0] == x {
        assert x !in s[1..];
      }
    }
  }

  /** A value at two indices is counted twice. */
  lemma RepeatCountsTwice(p: seq<int>, a: nat, b: nat)
    requires a < b < |p| && p[a] == p[b]
    ensures multiset(p)[p[a]] >= 2
  {
    assert p == p[..b] + p[b..];
    assert p[..b][a] == p[a];
    assert p[b..][0] == p[b];
    assert multiset(p[..b])[p[a]] >= 1;
    assert multiset(p[b..])[p[a]] >= 1;
  }

  /** A sorted rearrangement of a sequence without repeats is strictly ascending. */
  lemma SortedDistinctStrict(s: seq<int>, p: seq<int>)
    requires Distinct(s) && Sorted(p) && multiset(p) == multiset(s)
    ensures StrictlyAscending(p)
  {
    forall a, b | 0 <= a < b < |p| ensures p[a] < p[b] {
      if p[a] == p[b] {
        DistinctMultiset(s, p[a]);
        RepeatCountsTwice(p, a, b);
      }
    }
  }

  /** Distinct set tags of a well-placed table sit at distinct offsets, so the set offsets have no repeats. */
  lemma {:induction false} SetPositionsDistinct(tags: seq<TagData>, text: string)
    requires WellPlaced(tags, text)
    ensures Distinct(SetPositions(tags))
  {
    if |tags| > 0 {
      var tail := tags[1..];
      WellPlacedTail(tags, text);
      SetPositionsDistinct(tail, text);
      var rest := SetPositions(tail);
      if tags[0].isSet {
        HeadOffsetUnshared(tags, text, rest);
        DistinctCons(tags[0].position, rest);
      } else {
        assert SetPositions(tags) == [] + rest;
      }
    }
  }

  lemma WellPlacedTail(tags: seq<TagData>, text: string)
    requires WellPlaced(tags, text) && |tags| > 0
    ensures WellPlaced(tags[1..], text)
  {
    var tail := tags[1..];
    forall i | 0 <= i < |tail| ensures tail[i] == tags[i + 1] {}
  }

  /** The first set tag's offset is no other set tag's. */
  lemma HeadOffsetUnshared(tags: seq<TagData>, text: string, rest: seq<int>)
    requires WellPlaced(tags, text) && |tags| > 0 && tags[0].isSet
    requires rest == SetPositions(tags[1..])
    ensures tags[0].position !in rest
  {
    var tail := tags[1..];
    forall i | 0 <= i < |tail| && tail[i].isSet ensures tail[i].position != tags[0].position {
      assert tail[i] == tags[i + 1];
    }
  }

  lemma DistinctCons(x: int, s: seq<int>)
    requires Distinct(s) && x !in s
    ensures Distinct([x] + s)
  {
    var r := [x] + s;
    forall a, b | 0 <= a < b < |r| ensures r[a] != r[b] {
      assert r[b] == s[b - 1];
      if a > 0 {
        assert r[a] == s[a - 1];
      }
    }
  }

  /** The sorted offsets of a well-placed table are strictly ascending, and each is a set tag's offset. */
  lemma SortedPositionsFacts(tags: seq<TagData>, text: string)
    requires WellPlaced(tags, text)
    ensures StrictlyAscending(SortPositions(SetPositions(tags)))
    ensures |SortPositions(SetPositions(tags))| == |SetPositions(tags)|
    ensures forall k :: 0 <= k < |SortPositions(SetPositions(tags))| ==>
      TagAt(tags, SortPositions(SetPositions(tags))[k]).Some?
  {
    var s := SetPositions(tags);
    var p := SortPositions(s);
    SetPositionsDistinct(tags, text);
    SortedDistinctStrict(s, p);
    assert |p| == |multiset(p)| == |multiset(s)| == |s|;
    forall k | 0 <= k < |p| ensures TagAt(tags, p[k]).Some? {
      assert p[k] in multiset(p);
      assert p[k] in s;
    }
  }

  /** A well-placed table can be walked along strictly ascending set offsets from index `k` on. */
  lemma {:induction false} WellPlacedWalkFrom(tags: seq<TagData>, text: string, p: seq<int>, k: nat, tagEnd: int)
    requires WellPlaced(tags, text)
    requires StrictlyAscending(p)
    requires forall j :: 0 <= j < |p| ==> TagAt(tags, p[j]).Some?
    requires k <= |p|
    requires 0 <= tagEnd <= |text|
    requires k < |p| ==> tagEnd <= p[k]
    ensures WalkOk(tags, text, p[k..], tagEnd)
    decreases |p| - k
  {
    if k < |p| {
      var t := TagAt(tags, p[k]).value;
      var i :| 0 <= i < |tags| && tags[i] == t;
      var e := p[k] + |t.name|;
      assert e <= |text|;
      if k + 1 < |p| {
        var t2 := TagAt(tags, p[k + 1]).value;
        var j :| 0 <= j < |tags| && tags[j] == t2;
        assert p[k] < p[k + 1];
        assert i != j;
        assert e <= p[k + 1];
      }
      WellPlacedWalkFrom(tags, text, p, k + 1, e);
      assert p[k..][1..] == p[k + 1..];
    }
  }

  lemma WellPlacedWalkOk(tags: seq<TagData>, text: string)
    requires WellPlaced(tags, text)
    ensures WalkOk(tags, text, SortPositions(SetPositions(tags)), 0)
  {
    var p := SortPositions(SetPositions(tags));
    SortedPositionsFacts(tags, text);
    if |p| > 0 {
      var t := TagAt(tags, p[0]).value;
      assert t in tags;
    }
    WellPlacedWalkFrom(tags, text, p, 0, 0);
    assert p[0..] == p;
  }

  /** The text a marker segment between two literal runs spells. */
  lemma FlattenStep(literal: seq<Segment>, name: string, rest: seq<Segment>)
    ensures Flatten(literal + [Marker(name)] + rest) == Flatten(literal) + name + Flatten(rest)
  {
    FlattenAppend(literal + [Marker(name)], rest);
    FlattenAppend(literal, [Marker(name)]);
    assert Flatten([Marker(name)]) == name;
  }

  lemma SliceThree(text: string, a: int, b: int, c: int)
    requires 0 <= a <= b <= c <= |text|
    ensures text[a..] == text[a..b] + text[b..c] + text[c..]
  {
  }

  /** With every marker at its offset, the segments spell the text out again from `tagEnd` on. */
  lemma {:induction false} SplitWalkRoundTrip(tags: seq<TagData>, text: string, positions: seq<int>, tagEnd: int)
    requires WalkOk(tags, text, positions, tagEnd)
    requires MarkersInPlace(tags, text)
    ensures Flatten(SplitWalk(tags, text, positions, tagEnd)) == text[tagEnd..]
    decreases |positions|
  {
    if |positions| > 0 {
      var literal, name, e := SplitWalkHead(tags, text, positions, tagEnd);
      SplitWalkRoundTrip(tags, text, positions[1..], e);
      WalkStepSpells(text, tagEnd, positions[0], name, literal, SplitWalk(tags, text, positions[1..], e));
    } else {
      SplitWalkEnd(tags, text, positions, tagEnd);
    }
  }

  /** Past the last marker, the walk's one literal run (if any) spells the rest of the text. */
  lemma SplitWalkEnd(tags: seq<TagData>, text: string, positions: seq<int>, tagEnd: int)
    requires WalkOk(tags, text, positions, tagEnd) && |positions| == 0
    ensures Flatten(SplitWalk(tags, text, positions, tagEnd)) == text[tagEnd..]
  {
    if tagEnd < |text| {
      assert Flatten([Literal(text[tagEnd..])]) == text[tagEnd..] + Flatten([]);
    }
  }

  /** The first step of the walk: the literal before the first marker, the marker, and where the walk goes on. */
  lemma SplitWalkHead(tags: seq<TagData>, text: string, positions: seq<int>, tagEnd: int)
    returns (literal: seq<Segment>, name: string, e: int)
    requires WalkOk(tags, text, positions, tagEnd) && MarkersInPlace(tags, text) && |positions| > 0
    ensures 0 <= tagEnd <= positions[0] && OccursAt(text, name, positions[0]) && e == positions[0] + |name|
    ensures literal == if tagEnd < positions[0] then [Literal(text[tagEnd..positions[0]])] else []
    ensures WalkOk(tags, text, positions[1..], e)
    ensures SplitWalk(tags, text, positions, tagEnd) == literal + [Marker(name)] + SplitWalk(tags, text, positions[1..], e)
  {
    var p := positions[0];
    name := TagAt(tags, p).value.name;
    e := p + |name|;
    literal := if tagEnd < p then [Literal(text[tagEnd..p])] else [];
    FoundTagInPlace(tags, text, p);
  }

  /** The set tag found at an offset has its marker there. */
  lemma FoundTagInPlace(tags: seq<TagData>, text: string, p: int)
    requires MarkersInPlace(tags, text) && TagAt(tags, p).Some?
    ensures OccursAt(text, TagAt(tags, p).value.name, p)
  {
    var t := TagAt(tags, p).value;
    var i :| 0 <= i < |tags| && tags[i] == t;
    assert OccursAt(text, tags[i].name, tags[i].position);
  }

  /** The literal before a marker, the marker, and segments spelling the rest spell the text from the cut point. */
  lemma WalkStepSpells(text: string, tagEnd: int, p: int, name: string, literal: seq<Segment>, rest: seq<Segment>)
    requires 0 <= tagEnd <= p && OccursAt(text, name, p)
    requires literal == if tagEnd < p then [Literal(text[tagEnd..p])] else []
    requires Flatten(rest) == text[p + |name|..]
    ensures Flatten(literal + [Marker(name)] + rest) == text[tagEnd..]
  {
    FlattenStep(literal, name, rest);
    assert Flatten(literal) == text[tagEnd..p] by {
      if tagEnd < p {
        assert Flatten(literal) == text[tagEnd..p] + Flatten([]);
      }
    }
    assert text[p..p + |name|] == name;
    SliceThree(text, tagEnd, p, p + |name|);
  }


  /** The tokenizer round trip: with every marker at its recorded offset, the segments spell the template. */
  lemma SplitEntryTextRoundTrip(tags: seq<TagData>, text: string)
    requires WellPlaced(tags, text)
    requires MarkersInPlace(tags, text)
    ensures Flatten(SplitEntryText(tags, text)) == text
  {
    WellPlacedWalkOk(tags, text);
    SplitWalkRoundTrip(tags, text, SortPositions(SetPositions(tags)), 0);
  }

  /** Some set tag is recorded at offset `pos` under marker `name`. */
  ghost predicate SetTagNamed(tags: seq<TagData>, pos: int, name: string)
  {
    exists i :: 0 <= i < |tags| && tags[i].isSet && tags[i].position == pos && tags[i].name == name
  }

  /** Each marker emitted along a run of offsets names the set tag recorded at its offset. */
  lemma NamesAtSetTags(tags: seq<TagData>, p: seq<int>, names: seq<string>)
    requires forall k :: 0 <= k < |p| ==> TagAt(tags, p[k]).Some?
    requires names == NamesAt(tags, p)
    ensures |names| == |p|
    ensures forall k :: 0 <= k < |names| ==> SetTagNamed(tags, p[k], names[k])
  {
    forall k | 0 <= k < |names| ensures SetTagNamed(tags, p[k], names[k]) {
      var t := TagAt(tags, p[k]).value;
      var i :| 0 <= i < |tags| && tags[i] == t;
      assert tags[i].isSet && tags[i].position == p[k] && tags[i].name == names[k];
    }
  }

  /**
    One marker per set tag, in ascending offset order: the k-th marker is the
    name of the set tag at the k-th smallest offset.
   */
  lemma SplitEntryTextMarkerOrder(tags: seq<TagData>, text: string)
    requires WellPlaced(tags, text)
    ensures |MarkerNames(SplitEntryText(tags, text))| == |SetPositions(tags)|
    ensures StrictlyAscending(SortPositions(SetPositions(tags)))
    ensures forall k :: 0 <= k < |MarkerNames(SplitEntryText(tags, text))| ==>
      SetTagNamed(tags, SortPositions(SetPositions(tags))[k], MarkerNames(SplitEntryText(tags, text))[k])
  {
    var p := SortPositions(SetPositions(tags));
    SortedPositionsFacts(tags, text);
    NamesAtSetTags(tags, p, MarkerNames(SplitEntryText(tags, text)));
  }

  // ---------------------------------------------------------------------
  // update_tags and the edits that call it
  // ---------------------------------------------------------------------

  /** No tag carries the just-added flag; it only lives between add_tag and the next update. */
  predicate Settled(tags: seq<TagData>)
  {
    forall i :: 0 <= i < |tags| ==> !tags[i].justAdded
  }

  /** update_tags applied to one tag. */
  function ShiftTag(t: TagData, cursor: int, diff: int): TagData
  {
    if t.justAdded then t.(justAdded := false)
    else if t.isSet && cursor <= t.position then t.(position := t.position + diff)
    else t
  }

  /**
    update_tags: a just-added tag keeps its offset and loses the flag; a set tag
    at or after the cursor moves by the change in text length; every other tag
    stays as it was.
   */
  function UpdateTags(tags: seq<TagData>, cursor: int, newLength: int, storedLength: int): (r: seq<TagData>)
    ensures |r| == |tags|
    ensures Settled(r)
    ensures forall i :: 0 <= i < |tags| ==> r[i] == tags[i].(position := r[i].position, justAdded := false)
    ensures forall i :: 0 <= i < |tags| && tags[i].justAdded ==> r[i].position == tags[i].position
    ensures forall i :: 0 <= i < |tags| && !tags[i].justAdded && tags[i].isSet && cursor <= tags[i].position ==>
      r[i].position == tags[i].position + (newLength - storedLength)
    ensures forall i :: 0 <= i < |tags| && !tags[i].justAdded && !(tags[i].isSet && cursor <= tags[i].position) ==>
      r[i] == tags[i]
  {
    seq(|tags|, i requires 0 <= i < |tags| => ShiftTag(tags[i], cursor, newLength - storedLength))
  }

  /**
    The cursor update_tags reads: the offset the dialog stored when it rewrote
    the text itself, otherwise the entry's own cursor.
   */
  function EffectiveCursor(useManualCursor: bool, manualCursor: int, entryCursor: int): (r: int)
    ensures useManualCursor ==> r == manualCursor
    ensures !useManualCursor ==> r == entryCursor
  {
    if useManualCursor then manualCursor else entryCursor
  }

  /** No set tag's marker has `c` strictly inside it. */
  predicate NotInside(tags: seq<TagData>, c: int)
  {
    forall i :: 0 <= i < |tags| && tags[i].isSet ==> c <= tags[i].position || tags[i].position + |tags[i].name| <= c
  }

  /** No set tag's marker meets the range [c, c + n). */
  predicate Untouched(tags: seq<TagData>, c: int, n: int)
  {
    forall i :: 0 <= i < |tags| && tags[i].isSet ==> tags[i].position + |tags[i].name| <= c || c + n <= tags[i].position
  }

  lemma InsertKeepsOccurrence(text: string, c: int, s: string, name: string, p: int)
    requires 0 <= c <= |text| && OccursAt(text, name, p)
    requires c <= p || p + |name| <= c
    ensures OccursAt(text[..c] + s + text[c..], name, if c <= p then p + |s| else p)
  {
    var t := text[..c] + s + text[c..];
    var q := if c <= p then p + |s| else p;
    forall k | 0 <= k < |name| ensures t[q + k] == name[k] {
      assert text[p..p + |name|][k] == name[k];
    }
    assert t[q..q + |name|] == name;
  }

  lemma DeleteKeepsOccurrence(text: string, c: int, n: nat, name: string, p: int)
    requires 0 <= c && c + n <= |text| && OccursAt(text, name, p)
    requires p + |name| <= c || c + n <= p
    ensures OccursAt(text[..c] + text[c + n..], name, if c + n <= p then p - n else p)
  {
    var t := text[..c] + text[c + n..];
    var q := if c + n <= p then p - n else p;
    forall k | 0 <= k < |name| ensures t[q + k] == name[k] {
      assert text[p..p + |name|][k] == name[k];
    }
    assert t[q..q + |name|] == name;
  }

  /**
    Text inserted at the cursor, with the change handler reading the insertion
    point as the cursor, keeps every marker at its recorded offset.
   */
  lemma {:induction false} InsertKeepsMarkers(tags: seq<TagData>, text: string, c: int, s: string)
    requires WellPlaced(tags, text) && MarkersInPlace(tags, text) && Settled(tags)
    requires 0 <= c <= |text| && NotInside(tags, c)
    ensures WellPlaced(UpdateTags(tags, c, |text| + |s|, |text|), text[..c] + s + text[c..])
    ensures MarkersInPlace(UpdateTags(tags, c, |text| + |s|, |text|), text[..c] + s + text[c..])
  {
    var t := text[..c] + s + text[c..];
    var r := UpdateTags(tags, c, |text| + |s|, |text|);
    forall i | 0 <= i < |r| && r[i].isSet
      ensures r[i].position == (if c <= tags[i].position then tags[i].position + |s| else tags[i].position)
      ensures 0 <= r[i].position && r[i].position + |r[i].name| <= |t| && |r[i].name| > 0
      ensures OccursAt(t, r[i].name, r[i].position)
    {
      InsertKeepsOccurrence(text, c, s, tags[i].name, tags[i].position);
    }
  }

  /**
    Text deleted at the cursor, away from every marker, with the change handler
    reading the deletion point as the cursor, keeps every marker in place.
   */
  lemma {:induction false} DeleteKeepsMarkers(tags: seq<TagData>, text: string, c: int, n: nat)
    requires WellPlaced(tags, text) && MarkersInPlace(tags, text) && Settled(tags)
    requires 0 <= c && c + n <= |text| && Untouched(tags, c, n)
    ensures WellPlaced(UpdateTags(tags, c, |text| - n, |text|), text[..c] + text[c + n..])
    ensures MarkersInPlace(UpdateTags(tags, c, |text| - n, |text|), text[..c] + text[c + n..])
  {
    var t := text[..c] + text[c + n..];
    var r := UpdateTags(tags, c, |text| - n, |text|);
    forall i | 0 <= i < |r| && r[i].isSet
      ensures r[i].position == (if c + n <= tags[i].position then tags[i].position - n else tags[i].position)
      ensures 0 <= r[i].position && r[i].position + |r[i].name| <= |t| && |r[i].name| > 0
      ensures OccursAt(t, r[i].name, r[i].position)
    {
      DeleteKeepsOccurrence(text, c, n, tags[i].name, tags[i].position);
    }
  }

  // ---------------------------------------------------------------------
  // The entry: tag table, text, stored length and action enablement
  // ---------------------------------------------------------------------

  /** The name entry as the dialog tracks it; `storedLength` is name_entry_characters. */
  datatype Entry = Entry(tags: seq<TagData>, text: string, storedLength: int, actions: map<string, bool>)

  predicate Enabled(actions: map<string, bool>, a: string)
  {
    a in actions && actions[a]
  }

  /** The entry's changed handler: update_tags with the cursor it reads, and the new stored length. */
  function OnChanged(e: Entry, newText: string, cursor: int): (r: Entry)
    ensures r.text == newText && r.storedLength == |newText| && r.actions == e.actions
    ensures r.tags == UpdateTags(e.tags, cursor, |newText|, e.storedLength)
  {
    Entry(UpdateTags(e.tags, cursor, |newText|, e.storedLength), newText, |newText|, e.actions)
  }

  /**
    The tag table is keyed by marker text, each tag has its own action, and a
    tag is a numbering tag exactly when its action is a numbering action.
   */
  predicate TableOk(tags: seq<TagData>)
  {
    (forall i :: 0 <= i < |tags| ==> |tags[i].name| > 0)
    && (forall i, j :: 0 <= i < j < |tags| ==> tags[i].name != tags[j].name && tags[i].action != tags[j].action)
    && (forall i :: 0 <= i < |tags| ==> (tags[i].kind == Numbering <==> tags[i].action in NumberingActions))
  }

  predicate NumberingSet(tags: seq<TagData>, i: int)
  {
    0 <= i < |tags| && tags[i].kind == Numbering && tags[i].isSet
  }

  /**
    The exclusivity rule as enablement: at most one numbering tag is set; while
    one is, no numbering action is enabled; a set metadata tag's action is off.
   */
  ghost predicate ActionsOk(tags: seq<TagData>, actions: map<string, bool>)
  {
    (forall i, j :: NumberingSet(tags, i) && NumberingSet(tags, j) ==> i == j)
    && (forall i :: NumberingSet(tags, i) ==> forall a :: a in NumberingActions ==> !Enabled(actions, a))
    && (forall i :: 0 <= i < |tags| && tags[i].isSet && tags[i].kind == Metadata ==> !Enabled(actions, tags[i].action))
  }

  /** The invariant of the entry between user events. */
  ghost predicate EntryOk(e: Entry)
  {
    WellPlaced(e.tags, e.text) && MarkersInPlace(e.tags, e.text) && Settled(e.tags)
    && e.storedLength == |e.text| && TableOk(e.tags) && ActionsOk(e.tags, e.actions)
  }

  /** numbering_tag_is_some_added. */
  function NumberingTagIsSomeAdded(tags: seq<TagData>): (r: bool)
    ensures r <==> exists i :: NumberingSet(tags, i)
  {
    if |tags| == 0 then false
    else if tags[0].kind == Numbering && tags[0].isSet then assert NumberingSet(tags, 0); true
    else
      var r := NumberingTagIsSomeAdded(tags[1..]);
      assert forall i :: 1 <= i < |tags| ==> (NumberingSet(tags, i) <==> NumberingSet(tags[1..], i - 1));
      assert r ==> exists i :: NumberingSet(tags, i) by {
        if r {
          var k :| NumberingSet(tags[1..], k);
          assert NumberingSet(tags, k + 1);
        }
      }
      r
  }

  /** After a key press: with no numbering tag set, all three numbering actions are enabled again. */
  function EnableNumberingIfNoneSet(e: Entry): (r: Entry)
    ensures r.tags == e.tags && r.text == e.text && r.storedLength == e.storedLength
    ensures !NumberingTagIsSomeAdded(e.tags) ==> forall a :: a in NumberingActions ==> Enabled(r.actions, a)
    ensures NumberingTagIsSomeAdded(e.tags) ==> r.actions == e.actions
    ensures forall a :: a !in NumberingActions ==> (Enabled(r.actions, a) <==> Enabled(e.actions, a))
  {
    if NumberingTagIsSomeAdded(e.tags) then e
    else e.(actions := e.actions[NumberingActions[0] := true][NumberingActions[1] := true][NumberingActions[2] := true])
  }

  // ---------------------------------------------------------------------
  // remove_tag
  // ---------------------------------------------------------------------

  /** The key of a key press; `Other` is any key the handler does not name. */
  datatype Key = BackSpace | Delete | Left | Right | Return | Escape | Tab | End | Home | Other(code: int)

  predicate NavigationKey(k: Key)
  {
    k == Left || k == Right || k == Return || k == Escape || k == Tab || k == End || k == Home
  }

  /**
    Whether a key press at `cursor` deletes a marker at `pos` of length `len`,
    tested as the three checks in turn: Backspace anywhere after the start up to
    the end, Delete from the start to before the end, and any other non-modifier
    key that does not move or leave the entry strictly inside.
   */
  function KeyDeletes(key: Key, isModifier: bool, pos: int, len: int, cursor: int): (r: bool)
    ensures key == BackSpace ==> (r <==> pos < cursor <= pos + len)
    ensures key == Delete ==> (r <==> pos <= cursor < pos + len)
    ensures NavigationKey(key) ==> !r
    ensures key.Other? && isModifier ==> !r
    ensures key.Other? && !isModifier ==> (r <==> pos < cursor < pos + len)
  {
    (key == BackSpace && pos < cursor <= pos + len)
    || (key == Delete && pos <= cursor < pos + len)
    || (!isModifier && !NavigationKey(key) && key != Delete && pos < cursor < pos + len)
  }

  /** remove_tag deletes tag `t` for this key press. */
  predicate Deletes(t: TagData, cursor: int, key: Key, isModifier: bool)
  {
    t.isSet && KeyDeletes(key, isModifier, t.position, |t.name|, cursor)
  }

  /** What a remove_tag call leaves: whether it deleted, and the entry after the text change was handled. */
  datatype Removal = Removal(removed: bool, entry: Entry)

  /**
    remove_tag: when the key press deletes the tag, its marker is cut out of the
    text, the tag is unset, its action is enabled again, and the text change is
    handled with the manual cursor at the tag's offset. Otherwise nothing changes.
   */
  function RemoveTag(e: Entry, i: nat, cursor: int, key: Key, isModifier: bool): (r: Removal)
    requires i < |e.tags|
    requires WellPlaced(e.tags, e.text)
    ensures r.removed <==> Deletes(e.tags[i], cursor, key, isModifier)
    ensures |r.entry.tags| == |e.tags|
    ensures !r.removed ==> r.entry == e
    ensures r.removed ==>
      var p := e.tags[i].position;
      r.entry.text == e.text[..p] + e.text[p + |e.tags[i].name|..]
      && !r.entry.tags[i].isSet
      && (forall k :: 0 <= k < |e.tags| && k != i ==> r.entry.tags[k].isSet == e.tags[k].isSet)
      && r.entry.actions == e.actions[e.tags[i].action := true]
  {
    var t := e.tags[i];
    if !Deletes(t, cursor, key, isModifier) then Removal(false, e)
    else
      var text := e.text[..t.position] + e.text[t.position + |t.name|..];
      var unset := e.(tags := e.tags[i := t.(isSet := false)], actions := e.actions[t.action := true]);
      Removal(true, OnChanged(unset, text, EffectiveCursor(true, t.position, 0)))
  }

  /** Putting the marker back at the tag's offset gives the text before the deletion. */
  lemma RemoveTagRestores(e: Entry, i: nat, cursor: int, key: Key, isModifier: bool)
    requires i < |e.tags| && WellPlaced(e.tags, e.text) && MarkersInPlace(e.tags, e.text)
    requires RemoveTag(e, i, cursor, key, isModifier).removed
    ensures var p := e.tags[i].position;
            var t := RemoveTag(e, i, cursor, key, isModifier).entry.text;
            t[..p] + e.tags[i].name + t[p..] == e.text
  {
    var p := e.tags[i].position;
    var n := e.tags[i].name;
    var t := RemoveTag(e, i, cursor, key, isModifier).entry.text;
    assert t[..p] == e.text[..p];
    assert t[p..] == e.text[p + |n|..];
    assert e.text[p..p + |n|] == n;
    SliceThree(e.text, 0, p, p + |n|);
  }

  /** Only the set flags, kinds and actions matter to the enablement rule. */
  lemma ActionsOkIgnoresPositions(tags: seq<TagData>, tags2: seq<TagData>, actions: map<string, bool>)
    requires |tags2| == |tags|
    requires forall k :: 0 <= k < |tags| ==>
      tags2[k].isSet == tags[k].isSet && tags2[k].kind == tags[k].kind && tags2[k].action == tags[k].action
    requires ActionsOk(tags, actions)
    ensures ActionsOk(tags2, actions)
  {
    assert forall k :: NumberingSet(tags2, k) <==> NumberingSet(tags, k);
  }

  /** Unsetting one tag and enabling its action keeps the enablement rule. */
  lemma UnsetKeepsActionsOk(tags: seq<TagData>, actions: map<string, bool>, i: nat)
    requires i < |tags| && tags[i].isSet && TableOk(tags) && ActionsOk(tags, actions)
    ensures ActionsOk(tags[i := tags[i].(isSet := false)], actions[tags[i].action := true])
  {
    var t := tags[i];
    var tags2 := tags[i := t.(isSet := false)];
    var actions2 := actions[t.action := true];
    forall k | NumberingSet(tags2, k) ensures NumberingSet(tags, k) && k != i {}
    assert forall k, j :: NumberingSet(tags2, k) && NumberingSet(tags2, j) ==> k == j;
    forall k | NumberingSet(tags2, k)
      ensures forall a :: a in NumberingActions ==> !Enabled(actions2, a)
    {
      assert NumberingSet(tags, k) && k != i;
      assert t.kind != Numbering by {
        if t.kind == Numbering {
          assert NumberingSet(tags, i);
        }
      }
      assert t.action !in NumberingActions;
      forall a | a in NumberingActions ensures !Enabled(actions2, a) {
        assert a != t.action;
        assert !Enabled(actions, a);
      }
    }
    forall k | 0 <= k < |tags2| && tags2[k].isSet && tags2[k].kind == Metadata
      ensures !Enabled(actions2, tags2[k].action)
    {
      assert k != i;
      if k < i { assert tags[k].action != tags[i].action; } else { assert tags[i].action != tags[k].action; }
      assert !Enabled(actions, tags[k].action);
    }
  }

  /** Only the names, kinds and actions matter to the table's shape. */
  lemma TableOkIgnoresState(tags: seq<TagData>, tags2: seq<TagData>)
    requires |tags2| == |tags| && TableOk(tags)
    requires forall k :: 0 <= k < |tags| ==>
      tags2[k].name == tags[k].name && tags2[k].kind == tags[k].kind && tags2[k].action == tags[k].action
    ensures TableOk(tags2)
  {
  }

  /** remove_tag keeps the entry invariant: the other markers stay at their (shifted) offsets. */
  lemma {:induction false} RemoveTagKeepsEntryOk(e: Entry, i: nat, cursor: int, key: Key, isModifier: bool)
    requires i < |e.tags| && EntryOk(e)
    ensures EntryOk(RemoveTag(e, i, cursor, key, isModifier).entry)
  {
    if Deletes(e.tags[i], cursor, key, isModifier) {
      RemovedEntryShape(e, i, cursor, key, isModifier);
      UnsetEntryOk(e, i, RemoveTag(e, i, cursor, key, isModifier).entry);
    }
  }

  /** The entry remove_tag leaves when it deletes: the tag unset, its marker cut out, offsets shifted. */
  lemma RemovedEntryShape(e: Entry, i: nat, cursor: int, key: Key, isModifier: bool)
    requires i < |e.tags| && WellPlaced(e.tags, e.text) && e.storedLength == |e.text|
    requires Deletes(e.tags[i], cursor, key, isModifier)
    ensures var t, r := e.tags[i], RemoveTag(e, i, cursor, key, isModifier).entry;
      r.tags == UpdateTags(e.tags[i := t.(isSet := false)], t.position, |e.text| - |t.name|, |e.text|)
      && r.text == e.text[..t.position] + e.text[t.position + |t.name|..]
      && r.storedLength == |r.text| && r.actions == e.actions[t.action := true]
  {
  }

  /** The entry after a set tag is unset and its marker cut out keeps the invariant. */
  lemma UnsetEntryOk(e: Entry, i: nat, r: Entry)
    requires i < |e.tags| && EntryOk(e) && e.tags[i].isSet
    requires r.tags == UpdateTags(e.tags[i := e.tags[i].(isSet := false)], e.tags[i].position,
                                  |e.text| - |e.tags[i].name|, |e.text|)
    requires r.text == e.text[..e.tags[i].position] + e.text[e.tags[i].position + |e.tags[i].name|..]
    requires r.storedLength == |r.text| && r.actions == e.actions[e.tags[i].action := true]
    ensures EntryOk(r)
  {
    UnsetPlacement(e.tags, e.text, i, r.tags, r.text);
    var tags' := e.tags[i := e.tags[i].(isSet := false)];
    UnsetKeepsActionsOk(e.tags, e.actions, i);
    ActionsOkIgnoresPositions(tags', r.tags, r.actions);
    TableOkIgnoresState(e.tags, r.tags);
  }

  /** Cutting out an unset tag's marker keeps the other markers at their shifted offsets. */
  lemma UnsetPlacement(tags: seq<TagData>, text: string, i: nat, tags2: seq<TagData>, text2: string)
    requires i < |tags| && tags[i].isSet
    requires WellPlaced(tags, text) && MarkersInPlace(tags, text) && Settled(tags)
    requires tags2 == UpdateTags(tags[i := tags[i].(isSet := false)], tags[i].position, |text| - |tags[i].name|, |text|)
    requires text2 == text[..tags[i].position] + text[tags[i].position + |tags[i].name|..]
    ensures WellPlaced(tags2, text2) && MarkersInPlace(tags2, text2)
  {
    var c, n := tags[i].position, |tags[i].name|;
    forall k | 0 <= k < |tags2| && tags2[k].isSet
      ensures tags2[k].position == (if c + n <= tags[k].position then tags[k].position - n else tags[k].position)
      ensures 0 <= tags2[k].position && tags2[k].position + |tags2[k].name| <= |text2| && |tags2[k].name| > 0
      ensures OccursAt(text2, tags2[k].name, tags2[k].position)
    {
      assert k != i && tags[k].isSet;
      DeleteKeepsOccurrence(text, c, n, tags[k].name, tags[k].position);
    }
  }

  // ---------------------------------------------------------------------
  // add_tag, add_metadata_tag, add_numbering_tag
  // ---------------------------------------------------------------------

  /** The first tag, in key order, whose action is `a`. */
  function IndexOfAction(tags: seq<TagData>, a: string): (r: Option<nat>)
    ensures r.Some? ==> r.value < |tags| && tags[r.value].action == a
    ensures r.Some? ==> forall k :: 0 <= k < r.value ==> tags[k].action != a
    ensures r.None? ==> forall k :: 0 <= k < |tags| ==> tags[k].action != a
  {
    if |tags| == 0 then None
    else if tags[0].action == a then Some(0)
    else
      match IndexOfAction(tags[1..], a)
      case None => None
      case Some(j) => Some(j + 1)
  }

  /**
    add_tag: the tag becomes available, set and just added at the cursor, its
    marker is inserted there, and the text change is handled with the cursor at
    the insertion point. The cursor is the entry's cursor, passed in.
   */
  function AddTag(e: Entry, i: nat, cursor: int): (r: Entry)
    requires i < |e.tags| && 0 <= cursor <= |e.text|
    ensures |r.tags| == |e.tags| && r.actions == e.actions
    ensures r.text == e.text[..cursor] + e.tags[i].name + e.text[cursor..]
    ensures r.tags[i].isSet && r.tags[i].available && r.tags[i].position == cursor
    ensures forall k :: 0 <= k < |e.tags| && k != i ==> r.tags[k].isSet == e.tags[k].isSet
  {
    var t := e.tags[i];
    var added := t.(available := true, isSet := true, justAdded := true, position := cursor);
    OnChanged(e.(tags := e.tags[i := added]), e.text[..cursor] + t.name + e.text[cursor..], cursor)
  }

  /** Adding an unset tag at a cursor outside every marker keeps all markers at their recorded offsets. */
  lemma {:induction false} AddTagPlacement(e: Entry, i: nat, cursor: int)
    requires EntryOk(e) && i < |e.tags| && !e.tags[i].isSet
    requires 0 <= cursor <= |e.text| && NotInside(e.tags, cursor)
    ensures WellPlaced(AddTag(e, i, cursor).tags, AddTag(e, i, cursor).text)
    ensures MarkersInPlace(AddTag(e, i, cursor).tags, AddTag(e, i, cursor).text)
    ensures Settled(AddTag(e, i, cursor).tags)
    ensures AddTag(e, i, cursor).storedLength == |AddTag(e, i, cursor).text|
  {
    var r := AddTag(e, i, cursor);
    assert |e.tags[i].name| > 0;
    AddedPlacement(e.tags, e.text, i, cursor, r.tags, r.text);
  }

  /** The added marker sits at the cursor and every other marker moves with the insertion. */
  lemma AddedPlacement(tags: seq<TagData>, text: string, i: nat, cursor: int, tags2: seq<TagData>, text2: string)
    requires i < |tags| && !tags[i].isSet && |tags[i].name| > 0
    requires WellPlaced(tags, text) && MarkersInPlace(tags, text) && Settled(tags)
    requires 0 <= cursor <= |text| && NotInside(tags, cursor)
    requires tags2 == UpdateTags(tags[i := tags[i].(available := true, isSet := true, justAdded := true, position := cursor)],
                                 cursor, |text| + |tags[i].name|, |text|)
    requires text2 == text[..cursor] + tags[i].name + text[cursor..]
    ensures WellPlaced(tags2, text2) && MarkersInPlace(tags2, text2)
  {
    var n := |tags[i].name|;
    forall k | 0 <= k < |tags2| && tags2[k].isSet
      ensures tags2[k].position == (if k == i then cursor else if cursor <= tags[k].position then tags[k].position + n else tags[k].position)
      ensures k != i ==> tags[k].isSet && (cursor <= tags[k].position || tags[k].position + |tags[k].name| <= cursor)
      ensures 0 <= tags2[k].position && tags2[k].position + |tags2[k].name| <= |text2| && |tags2[k].name| > 0
      ensures OccursAt(text2, tags2[k].name, tags2[k].position)
    {
      if k != i {
        InsertKeepsOccurrence(text, cursor, tags[i].name, tags[k].name, tags[k].position);
      } else {
        assert text2[cursor..cursor + n] == tags[i].name;
      }
    }
  }

  /** add_metadata_tag: add the metadata tag of action `a` and disable that action. */
  function AddMetadataTag(e: Entry, a: string, cursor: int): (r: Entry)
    requires 0 <= cursor <= |e.text|
    ensures !Enabled(r.actions, a) || r == e
    ensures r.text != e.text ==> exists i :: 0 <= i < |e.tags| && e.tags[i].action == a && e.tags[i].kind == Metadata
  {
    match IndexOfAction(e.tags, a)
    case Some(i) =>
      if e.tags[i].kind == Metadata then
        var r := AddTag(e, i, cursor);
        r.(actions := r.actions[a := false])
      else e
    case None => e
  }

  /** Disables the three numbering actions. */
  function DisableNumbering(actions: map<string, bool>): (r: map<string, bool>)
    ensures forall a :: a in NumberingActions ==> !Enabled(r, a)
    ensures forall a :: a !in NumberingActions ==> (Enabled(r, a) <==> Enabled(actions, a))
  {
    actions[NumberingActions[0] := false][NumberingActions[1] := false][NumberingActions[2] := false]
  }

  /**
    add_numbering_tag: add the numbering tag of action `a`, and disable all three
    numbering actions, whichever one was chosen.
   */
  function AddNumberingTag(e: Entry, a: string, cursor: int): (r: Entry)
    requires 0 <= cursor <= |e.text|
    ensures forall n :: n in NumberingActions ==> !Enabled(r.actions, n)
    ensures forall n :: n !in NumberingActions ==> (Enabled(r.actions, n) <==> Enabled(e.actions, n))
  {
    var added :=
      match IndexOfAction(e.tags, a)
      case Some(i) => if e.tags[i].kind == Numbering then AddTag(e, i, cursor) else e
      case None => e;
    added.(actions := DisableNumbering(added.actions))
  }

  /** The table rows other than `i` keep their set flags, kinds and actions. */
  predicate SameBut(tags: seq<TagData>, tags2: seq<TagData>, i: nat)
  {
    |tags2| == |tags|
    && forall k :: 0 <= k < |tags| && k != i ==>
         tags2[k].isSet == tags[k].isSet && tags2[k].kind == tags[k].kind && tags2[k].action == tags[k].action
  }

  /** An enabled metadata action belongs to an unset tag, so adding it keeps the entry invariant. */
  lemma {:induction false} AddMetadataTagKeepsEntryOk(e: Entry, a: string, cursor: int)
    requires EntryOk(e) && Enabled(e.actions, a)
    requires 0 <= cursor <= |e.text| && NotInside(e.tags, cursor)
    ensures EntryOk(AddMetadataTag(e, a, cursor))
  {
    match IndexOfAction(e.tags, a)
    case Some(i) =>
      if e.tags[i].kind == Metadata {
        assert !e.tags[i].isSet;
        AddTagPlacement(e, i, cursor);
        var r0 := AddTag(e, i, cursor);
        var r := AddMetadataTag(e, a, cursor);
        assert r == r0.(actions := r0.actions[a := false]);
        TableOkIgnoresState(e.tags, r.tags);
        assert forall k :: NumberingSet(r.tags, k) <==> NumberingSet(e.tags, k);
        forall k | 0 <= k < |r.tags| && r.tags[k].isSet && r.tags[k].kind == Metadata
          ensures !Enabled(r.actions, r.tags[k].action)
        {
          if k != i {
            assert e.tags[k].isSet && r.tags[k].action == e.tags[k].action;
          }
        }
        forall k | NumberingSet(r.tags, k) ensures forall n :: n in NumberingActions ==> !Enabled(r.actions, n) {
          assert NumberingSet(e.tags, k);
        }
      }
    case None =>
  }

  /**
    The exclusivity rule: an enabled numbering action means no numbering tag is
    set, so after adding one exactly one numbering tag is set and the entry
    invariant holds again.
   */
  lemma {:induction false} AddNumberingTagKeepsEntryOk(e: Entry, a: string, cursor: int)
    requires EntryOk(e) && Enabled(e.actions, a) && a in NumberingActions
    requires exists i :: 0 <= i < |e.tags| && e.tags[i].action == a
    requires 0 <= cursor <= |e.text| && NotInside(e.tags, cursor)
    ensures EntryOk(AddNumberingTag(e, a, cursor))
    ensures exists i :: NumberingSet(AddNumberingTag(e, a, cursor).tags, i)
  {
    assert forall k :: !NumberingSet(e.tags, k);
    match IndexOfAction(e.tags, a)
    case Some(i) =>
      assert e.tags[i].kind == Numbering;
      assert !NumberingSet(e.tags, i);
      AddTagPlacement(e, i, cursor);
      var r0 := AddTag(e, i, cursor);
      var r := AddNumberingTag(e, a, cursor);
      assert r == r0.(actions := DisableNumbering(r0.actions));
      TableOkIgnoresState(e.tags, r.tags);
      assert NumberingSet(r.tags, i);
      forall k | 0 <= k < |r.tags| && k != i ensures !NumberingSet(r.tags, k) {
        assert !NumberingSet(e.tags, k);
        assert r.tags[k].isSet == e.tags[k].isSet && r.tags[k].kind == e.tags[k].kind;
      }
      forall k | 0 <= k < |r.tags| && r.tags[k].isSet && r.tags[k].kind == Metadata
        ensures !Enabled(r.actions, r.tags[k].action)
      {
        assert k != i;
        assert e.tags[k].isSet && r.tags[k].action == e.tags[k].action;
        assert r.tags[k].action !in NumberingActions;
      }
    case None =>
  }

  // ---------------------------------------------------------------------
  // The key-press handler without a selection
  // ---------------------------------------------------------------------

  /** The first tag, in key order from `from` on, that this key press deletes. */
  function FirstRemoval(tags: seq<TagData>, from: nat, cursor: int, key: Key, isModifier: bool): (r: Option<nat>)
    requires from <= |tags|
    decreases |tags| - from
    ensures r.Some? ==> from <= r.value < |tags| && Deletes(tags[r.value], cursor, key, isModifier)
    ensures r.Some? ==> forall k :: from <= k < r.value ==> !Deletes(tags[k], cursor, key, isModifier)
    ensures r.None? ==> forall k :: from <= k < |tags| ==> !Deletes(tags[k], cursor, key, isModifier)
  {
    if from == |tags| then None
    else if Deletes(tags[from], cursor, key, isModifier) then Some(from)
    else FirstRemoval(tags, from + 1, cursor, key, isModifier)
  }

  /** Tag `j` is the first, in key order, that the key press deletes. */
  predicate FirstDeleting(tags: seq<TagData>, j: int, cursor: int, key: Key, isModifier: bool)
  {
    0 <= j < |tags| && Deletes(tags[j], cursor, key, isModifier)
    && forall k :: 0 <= k < j ==> !Deletes(tags[k], cursor, key, isModifier)
  }

  /** The entry after a key press, and whether the handler stops the event. */
  datatype KeyOutcome = KeyOutcome(entry: Entry, stop: bool)

  /**
    The handler without a selection: remove_tag is tried on each tag in key
    order until one deletes; then, if no numbering tag is left set, all three
    numbering actions are enabled. Delete and Backspace are stopped when a tag
    went.
   */
  function KeyPressRemoval(e: Entry, cursor: int, key: Key, isModifier: bool): (r: KeyOutcome)
    requires WellPlaced(e.tags, e.text)
    ensures r.stop <==> (key == Delete || key == BackSpace)
                        && exists j :: 0 <= j < |e.tags| && Deletes(e.tags[j], cursor, key, isModifier)
    ensures (forall j :: 0 <= j < |e.tags| ==> !Deletes(e.tags[j], cursor, key, isModifier)) ==>
      r.entry.text == e.text && r.entry.tags == e.tags
    ensures !NumberingTagIsSomeAdded(r.entry.tags) ==> forall a :: a in NumberingActions ==> Enabled(r.entry.actions, a)
  {
    var j := FirstRemoval(e.tags, 0, cursor, key, isModifier);
    if j.None? then KeyOutcome(EnableNumberingIfNoneSet(e), false)
    else
      var removal := RemoveTag(e, j.value, cursor, key, isModifier);
      KeyOutcome(EnableNumberingIfNoneSet(removal.entry), key == Delete || key == BackSpace)
  }

  /**
    A key press that deletes some tag runs remove_tag on the first such tag in
    key order, and on no other; RemoveTag's contract then says the marker is
    cut out and that tag alone is unset.
   */
  lemma KeyPressRemovesFirst(e: Entry, cursor: int, key: Key, isModifier: bool, j: nat)
    requires WellPlaced(e.tags, e.text) && FirstDeleting(e.tags, j, cursor, key, isModifier)
    ensures KeyPressRemoval(e, cursor, key, isModifier).entry
            == EnableNumberingIfNoneSet(RemoveTag(e, j, cursor, key, isModifier).entry)
  {
    var f := FirstRemoval(e.tags, 0, cursor, key, isModifier);
    FirstDeletingUnique(e.tags, j, cursor, key, isModifier);
    assert FirstDeleting(e.tags, f.value, cursor, key, isModifier);
  }

  /** Only one tag can be the first, in key order, that a key press deletes. */
  lemma FirstDeletingUnique(tags: seq<TagData>, j: nat, cursor: int, key: Key, isModifier: bool)
    requires FirstDeleting(tags, j, cursor, key, isModifier)
    ensures forall m :: FirstDeleting(tags, m, cursor, key, isModifier) ==> m == j
  {
  }

  /** Re-enabling the numbering actions when no numbering tag is set keeps the enablement rule. */
  lemma EnableNumberingKeepsEntryOk(e: Entry)
    requires EntryOk(e)
    ensures EntryOk(EnableNumberingIfNoneSet(e))
  {
    var r := EnableNumberingIfNoneSet(e);
    forall k | 0 <= k < |r.tags| && r.tags[k].isSet && r.tags[k].kind == Metadata
      ensures !Enabled(r.actions, r.tags[k].action)
    {
      assert r.tags[k].action !in NumberingActions;
    }
  }

  /** The handler without a selection keeps the entry invariant. */
  lemma KeyPressRemovalKeepsEntryOk(e: Entry, cursor: int, key: Key, isModifier: bool)
    requires EntryOk(e)
    ensures EntryOk(KeyPressRemoval(e, cursor, key, isModifier).entry)
  {
    var j := FirstRemoval(e.tags, 0, cursor, key, isModifier);
    var before := if j.Some? then RemoveTag(e, j.value, cursor, key, isModifier).entry else e;
    if j.Some? {
      RemoveTagKeepsEntryOk(e, j.value, cursor, key, isModifier);
    }
    EnableNumberingKeepsEntryOk(before);
    KeyPressRemovalEntry(e, cursor, key, isModifier);
  }

  /** The handler's entry is the one numbering re-enablement makes of remove_tag's result, or of the entry itself. */
  lemma KeyPressRemovalEntry(e: Entry, cursor: int, key: Key, isModifier: bool)
    requires WellPlaced(e.tags, e.text)
    ensures var j := FirstRemoval(e.tags, 0, cursor, key, isModifier);
      KeyPressRemoval(e, cursor, key, isModifier).entry
      == EnableNumberingIfNoneSet(if j.Some? then RemoveTag(e, j.value, cursor, key, isModifier).entry else e)
  {
  }

  // ---------------------------------------------------------------------
  // The key-press handler with a selection
  // ---------------------------------------------------------------------

  /**
    update_tag_position: for a set tag, remember the recorded offset and find
    the marker's last occurrence in the current text. The C code needs the
    marker to be there: a missing one hands NULL to the offset conversion.
   */
  function UpdateTagPosition(t: TagData, text: string): (r: TagData)
    requires t.isSet ==> Contains(text, t.name)
    ensures !t.isSet ==> r == t
    ensures t.isSet ==> r == t.(originalPosition := t.position, newPosition := r.newPosition)
    ensures t.isSet ==> OccursAt(text, t.name, r.newPosition)
    ensures t.isSet ==> forall j :: r.newPosition < j ==> !OccursAt(text, t.name, j)
  {
    if !t.isSet then t
    else
      match LastIndexOf(text, t.name)
      case Some(p) => t.(originalPosition := t.position, newPosition := p)
      case None => assert false; t
  }

  /** A marker that sits at its recorded offset and nowhere later is found there. */
  lemma UpdateTagPositionFindsMarker(t: TagData, text: string)
    requires t.isSet && OccursAt(text, t.name, t.position)
    requires forall j :: t.position < j ==> !OccursAt(text, t.name, j)
    ensures UpdateTagPosition(t, text).newPosition == t.position
    ensures UpdateTagPosition(t, text).originalPosition == t.position
  {
  }

  /** The recorded marker range [originalPosition, originalPosition + len) meets the selection [start, end). */
  predicate OverlapsSelection(t: TagData, start: int, end: int)
  {
    t.originalPosition < end && t.originalPosition + |t.name| > start
  }

  datatype Cut = Cut(tag: TagData, text: string, removed: bool)

  /**
    remove_tag_selection: a set tag whose recorded range meets the selection is
    unset and its marker cut out of the text at the found offset; otherwise the
    text comes back unchanged.
   */
  function RemoveTagSelection(t: TagData, text: string, start: int, end: int): (r: Cut)
    requires t.isSet && OverlapsSelection(t, start, end) ==> OccursAt(text, t.name, t.newPosition)
    ensures r.removed <==> t.isSet && OverlapsSelection(t, start, end)
    ensures !r.removed ==> r.text == text && r.tag == t
    ensures r.removed ==> r.tag == t.(isSet := false) && |r.text| == |text| - |t.name|
    ensures r.removed ==> r.text[..t.newPosition] + t.name + r.text[t.newPosition..] == text
  {
    if t.isSet && OverlapsSelection(t, start, end) then
      var p := t.newPosition;
      var cut := text[..p] + text[p + |t.name|..];
      assert cut[..p] == text[..p] && cut[p..] == text[p + |t.name|..];
      SliceThree(text, 0, p, p + |t.name|);
      Cut(t.(isSet := false), cut, true)
    else Cut(t, text, false)
  }

  /** A set tag the selection removes: its recorded range meets the selection. */
  predicate SelectionRemoves(t: TagData, start: int, end: int)
  {
    t.isSet && t.position < end && t.position + |t.name| > start
  }

  function MinOpt(a: Option<int>, b: int): (r: Option<int>)
    ensures r.Some?
    ensures r.value <= b && (a.Some? ==> r.value <= a.value)
    ensures r.value == b || (a.Some? && r.value == a.value)
  {
    if a.Some? && a.value <= b then a else Some(b)
  }

  /** The smallest recorded offset among the tags from `k` on that the selection removes. */
  function MinRemoved(tags: seq<TagData>, k: nat, start: int, end: int, acc: Option<int>): Option<int>
    requires k <= |tags|
    decreases |tags| - k
  {
    if k == |tags| then acc
    else if SelectionRemoves(tags[k], start, end) then MinRemoved(tags, k + 1, start, end, MinOpt(acc, tags[k].position))
    else MinRemoved(tags, k + 1, start, end, acc)
  }

  /** The total marker length the selection removes from `k` on. */
  function RemovedLength(tags: seq<TagData>, k: nat, start: int, end: int): int
    requires k <= |tags|
    decreases |tags| - k
  {
    if k == |tags| then 0
    else (if SelectionRemoves(tags[k], start, end) then |tags[k].name| else 0) + RemovedLength(tags, k + 1, start, end)
  }

  /** The state the selection loop threads: tags, actions, text and the smallest removed offset. */
  datatype SelectionState = SelectionState(tags: seq<TagData>, actions: map<string, bool>, text: string, minimum: Option<int>)

  /** Tag `k` and the selection loop's body for it: update its position, then try to remove it. */
  function SelectionStep(s: SelectionState, k: nat, start: int, end: int): (r: Option<SelectionState>)
    requires k < |s.tags| && |s.tags[k].name| > 0
    ensures r.None? <==> s.tags[k].isSet && !Contains(s.text, s.tags[k].name)
    ensures r.Some? ==> |r.value.tags| == |s.tags|
    ensures r.Some? ==> forall j :: 0 <= j < |s.tags| && j != k ==> r.value.tags[j] == s.tags[j]
    ensures r.Some? ==>
      r.value.tags[k].isSet == (s.tags[k].isSet && !SelectionRemoves(s.tags[k], start, end))
      && r.value.tags[k].name == s.tags[k].name && r.value.tags[k].position == s.tags[k].position
      && r.value.tags[k].kind == s.tags[k].kind && r.value.tags[k].action == s.tags[k].action
    ensures r.Some? ==>
      (r.value.minimum == if SelectionRemoves(s.tags[k], start, end) then MinOpt(s.minimum, s.tags[k].position) else s.minimum)
    ensures r.Some? ==> |r.value.text| == |s.text| - (if SelectionRemoves(s.tags[k], start, end) then |s.tags[k].name| else 0)
    ensures r.Some? ==> forall a :: Enabled(s.actions, a) ==> Enabled(r.value.actions, a)
    ensures r.Some? && SelectionRemoves(s.tags[k], start, end) ==> Enabled(r.value.actions, s.tags[k].action)
  {
    var t := s.tags[k];
    if !t.isSet then Some(s)
    else if !Contains(s.text, t.name) then None
    else
      var t1 := UpdateTagPosition(t, s.text);
      var cut := RemoveTagSelection(t1, s.text, start, end);
      var changed := cut.text != s.text;
      assert cut.removed ==> |cut.text| < |s.text|;
      assert changed <==> SelectionRemoves(t, start, end);
      Some(SelectionState(
        s.tags[k := cut.tag],
        if cut.removed then s.actions[t.action := true] else s.actions,
        cut.text,
        if changed then MinOpt(s.minimum, t.position) else s.minimum))
  }

  /**
    The selection loop from tag `k` on, in key order. None when a set tag's
    marker is missing from the text at its turn.
   */
  function SelectionFrom(s: SelectionState, k: nat, start: int, end: int): (r: Option<SelectionState>)
    requires k <= |s.tags|
    requires forall j :: 0 <= j < |s.tags| ==> |s.tags[j].name| > 0
    decreases |s.tags| - k
    ensures r.Some? ==> |r.value.tags| == |s.tags|
    ensures r.Some? ==> forall j :: 0 <= j < k ==> r.value.tags[j] == s.tags[j]
  {
    if k == |s.tags| then Some(s)
    else
      match SelectionStep(s, k, start, end)
      case None => None
      case Some(next) => SelectionFrom(next, k + 1, start, end)
  }

  /** The selection loop unsets exactly the set tags whose recorded range meets the selection, and nothing else. */
  lemma {:induction false} SelectionFromFlags(s: SelectionState, k: nat, start: int, end: int)
    requires k <= |s.tags|
    requires forall j :: 0 <= j < |s.tags| ==> |s.tags[j].name| > 0
    requires SelectionFrom(s, k, start, end).Some?
    decreases |s.tags| - k
    ensures forall j :: k <= j < |s.tags| ==>
      var t := SelectionFrom(s, k, start, end).value.tags[j];
      t.isSet == (s.tags[j].isSet && !SelectionRemoves(s.tags[j], start, end))
      && t.name == s.tags[j].name && t.position == s.tags[j].position
      && t.kind == s.tags[j].kind && t.action == s.tags[j].action
  {
    if k < |s.tags| {
      var next := SelectionStep(s, k, start, end).value;
      SelectionFromFlags(next, k + 1, start, end);
    }
  }

  /** The selection loop's minimum is the smallest recorded offset of a removed tag. */
  lemma {:induction false} SelectionFromMinimum(s: SelectionState, k: nat, start: int, end: int)
    requires k <= |s.tags|
    requires forall j :: 0 <= j < |s.tags| ==> |s.tags[j].name| > 0
    requires SelectionFrom(s, k, start, end).Some?
    decreases |s.tags| - k
    ensures SelectionFrom(s, k, start, end).value.minimum == MinRemoved(s.tags, k, start, end, s.minimum)
  {
    if k == |s.tags| {
      assert SelectionFrom(s, k, start, end) == Some(s);
    } else {
      var next := SelectionFromStep(s, k, start, end);
      SelectionFromMinimum(next, k + 1, start, end);
      RemovedStep(s.tags, next.tags, k, start, end, s.minimum, next.minimum);
    }
  }

  /** One turn of the selection loop, with the facts the loop lemmas need about the state it hands on. */
  lemma SelectionFromStep(s: SelectionState, k: nat, start: int, end: int) returns (next: SelectionState)
    requires k < |s.tags|
    requires forall j :: 0 <= j < |s.tags| ==> |s.tags[j].name| > 0
    requires SelectionFrom(s, k, start, end).Some?
    ensures |next.tags| == |s.tags| && forall j :: k < j < |s.tags| ==> next.tags[j] == s.tags[j]
    ensures forall j :: 0 <= j < |next.tags| ==> |next.tags[j].name| > 0
    ensures SelectionFrom(s, k, start, end) == SelectionFrom(next, k + 1, start, end)
    ensures next.minimum == if SelectionRemoves(s.tags[k], start, end) then MinOpt(s.minimum, s.tags[k].position) else s.minimum
    ensures |next.text| == |s.text| - (if SelectionRemoves(s.tags[k], start, end) then |s.tags[k].name| else 0)
  {
    next := SelectionStep(s, k, start, end).value;
    assert forall j :: 0 <= j < |next.tags| && j != k ==> next.tags[j] == s.tags[j];
  }

  /** The selection loop shortens the text by the total length of the markers it removes. */
  lemma {:induction false} SelectionFromLength(s: SelectionState, k: nat, start: int, end: int)
    requires k <= |s.tags|
    requires forall j :: 0 <= j < |s.tags| ==> |s.tags[j].name| > 0
    requires SelectionFrom(s, k, start, end).Some?
    decreases |s.tags| - k
    ensures |SelectionFrom(s, k, start, end).value.text| == |s.text| - RemovedLength(s.tags, k, start, end)
  {
    if k == |s.tags| {
      assert SelectionFrom(s, k, start, end) == Some(s);
    } else {
      var next := SelectionFromStep(s, k, start, end);
      SelectionFromLength(next, k + 1, start, end);
      RemovedStep(s.tags, next.tags, k, start, end, s.minimum, next.minimum);
    }
  }

  /** MinRemoved and RemovedLength from `k` on, in terms of the tags the loop hands on after tag `k`. */
  lemma RemovedStep(tags: seq<TagData>, tags2: seq<TagData>, k: nat, start: int, end: int, acc: Option<int>, acc2: Option<int>)
    requires k < |tags| == |tags2|
    requires forall j :: k < j < |tags| ==> tags2[j] == tags[j]
    requires acc2 == if SelectionRemoves(tags[k], start, end) then MinOpt(acc, tags[k].position) else acc
    ensures MinRemoved(tags2, k + 1, start, end, acc2) == MinRemoved(tags, k, start, end, acc)
    ensures RemovedLength(tags, k, start, end)
            == (if SelectionRemoves(tags[k], start, end) then |tags[k].name| else 0) + RemovedLength(tags2, k + 1, start, end)
  {
    MinRemovedSuffix(tags, tags2, k + 1, start, end, acc2);
  }

  /** MinRemoved and RemovedLength from `k` on only look at the tags from `k` on. */
  lemma {:induction false} MinRemovedSuffix(tags: seq<TagData>, tags2: seq<TagData>, k: nat, start: int, end: int, acc: Option<int>)
    requires k <= |tags| == |tags2|
    requires forall j :: k <= j < |tags| ==> tags2[j] == tags[j]
    decreases |tags| - k
    ensures MinRemoved(tags2, k, start, end, acc) == MinRemoved(tags, k, start, end, acc)
    ensures RemovedLength(tags2, k, start, end) == RemovedLength(tags, k, start, end)
  {
    if k < |tags| {
      MinRemovedSuffix(tags, tags2, k + 1, start, end, MinOpt(acc, tags[k].position));
      MinRemovedSuffix(tags, tags2, k + 1, start, end, acc);
    }
  }

  /** The selection loop enables the action of every tag it removes and disables none. */
  lemma {:induction false} SelectionFromActions(s: SelectionState, k: nat, start: int, end: int)
    requires k <= |s.tags|
    requires forall j :: 0 <= j < |s.tags| ==> |s.tags[j].name| > 0
    requires SelectionFrom(s, k, start, end).Some?
    decreases |s.tags| - k
    ensures forall a :: Enabled(s.actions, a) ==> Enabled(SelectionFrom(s, k, start, end).value.actions, a)
    ensures forall j :: k <= j < |s.tags| && SelectionRemoves(s.tags[j], start, end) ==>
      Enabled(SelectionFrom(s, k, start, end).value.actions, s.tags[j].action)
  {
    if k < |s.tags| {
      var next := SelectionStep(s, k, start, end).value;
      SelectionFromActions(next, k + 1, start, end);
    }
  }

  /** With nothing removed from `k` on, the smallest removed offset stays what it was and no length goes. */
  lemma {:induction false} NothingRemoved(tags: seq<TagData>, k: nat, start: int, end: int, acc: Option<int>)
    requires k <= |tags|
    requires MinRemoved(tags, k, start, end, acc).None?
    ensures acc.None?
    ensures RemovedLength(tags, k, start, end) == 0
    decreases |tags| - k
  {
    if k < |tags| {
      if SelectionRemoves(tags[k], start, end) {
        NothingRemoved(tags, k + 1, start, end, MinOpt(acc, tags[k].position));
      } else {
        NothingRemoved(tags, k + 1, start, end, acc);
      }
    }
  }

  /** The key press handler's choice of the selection branch. */
  predicate SelectionBranch(hasSelection: bool, key: Key, isModifier: bool)
  {
    hasSelection && (key == Delete || key == BackSpace || (!isModifier && !NavigationKey(key)))
  }

  /**
    The handler with a selection: the loop over the set tags, the numbering
    actions re-enabled when none is left set, and, when a tag went, the new text
    handled with the manual cursor at the smallest removed offset.
   */
  function KeyPressSelection(e: Entry, start: int, end: int, key: Key): (r: Option<KeyOutcome>)
    requires forall j :: 0 <= j < |e.tags| ==> |e.tags[j].name| > 0
    ensures r.Some? ==> |r.value.entry.tags| == |e.tags|
    ensures r.Some? ==> forall j :: 0 <= j < |e.tags| ==>
      (r.value.entry.tags[j].isSet <==> e.tags[j].isSet && !SelectionRemoves(e.tags[j], start, end))
    ensures r.Some? ==> |r.value.entry.text| == |e.text| - RemovedLength(e.tags, 0, start, end)
    ensures r.Some? ==> (r.value.stop <==> (key == Delete || key == BackSpace) && MinRemoved(e.tags, 0, start, end, None).Some?)
    ensures r.Some? && !NumberingTagIsSomeAdded(r.value.entry.tags) ==>
      forall a :: a in NumberingActions ==> Enabled(r.value.entry.actions, a)
    ensures r.Some? ==> forall j :: 0 <= j < |e.tags| && SelectionRemoves(e.tags[j], start, end) ==>
      Enabled(r.value.entry.actions, e.tags[j].action)
    ensures r.Some? ==> forall a :: Enabled(e.actions, a) ==> Enabled(r.value.entry.actions, a)
  {
    match SelectionFrom(SelectionState(e.tags, e.actions, e.text, None), 0, start, end)
    case None => None
    case Some(s) =>
      SelectionLoopFacts(e, start, end, s);
      Some(FinishSelection(e, s, key))
  }

  /** What the selection loop over the whole table leaves, in terms of the table it started from. */
  lemma SelectionLoopFacts(e: Entry, start: int, end: int, s: SelectionState)
    requires forall j :: 0 <= j < |e.tags| ==> |e.tags[j].name| > 0
    requires SelectionFrom(SelectionState(e.tags, e.actions, e.text, None), 0, start, end) == Some(s)
    ensures |s.tags| == |e.tags|
    ensures forall j :: 0 <= j < |e.tags| ==> (s.tags[j].isSet <==> e.tags[j].isSet && !SelectionRemoves(e.tags[j], start, end))
    ensures |s.text| == |e.text| - RemovedLength(e.tags, 0, start, end)
    ensures s.minimum == MinRemoved(e.tags, 0, start, end, None)
    ensures s.minimum.None? ==> |s.text| == |e.text|
    ensures forall j :: 0 <= j < |e.tags| && SelectionRemoves(e.tags[j], start, end) ==> Enabled(s.actions, e.tags[j].action)
    ensures forall a :: Enabled(e.actions, a) ==> Enabled(s.actions, a)
  {
    var s0 := SelectionState(e.tags, e.actions, e.text, None);
    SelectionFromFlags(s0, 0, start, end);
    SelectionFromMinimum(s0, 0, start, end);
    SelectionFromLength(s0, 0, start, end);
    SelectionFromActions(s0, 0, start, end);
    if s.minimum.None? {
      NothingRemoved(e.tags, 0, start, end, None);
    }
  }

  /**
    The rest of the handler once the loop is done: the numbering actions
    re-enabled when no numbering tag is left set, and, when a tag went, the
    loop's text handled with the manual cursor at the smallest removed offset.
   */
  function FinishSelection(e: Entry, s: SelectionState, key: Key): (r: KeyOutcome)
    requires |s.tags| == |e.tags|
    ensures |r.entry.tags| == |e.tags|
    ensures forall j :: 0 <= j < |e.tags| ==> r.entry.tags[j].isSet == s.tags[j].isSet
    ensures r.entry.text == if s.minimum.Some? then s.text else e.text
    ensures r.stop <==> (key == Delete || key == BackSpace) && s.minimum.Some?
    ensures !NumberingTagIsSomeAdded(r.entry.tags) ==> forall a :: a in NumberingActions ==> Enabled(r.entry.actions, a)
    ensures forall a :: Enabled(s.actions, a) ==> Enabled(r.entry.actions, a)
  {
    var fixed := EnableNumberingIfNoneSet(Entry(s.tags, e.text, e.storedLength, s.actions));
    var after :=
      match s.minimum
      case Some(m) => OnChanged(fixed, s.text, EffectiveCursor(true, m, 0))
      case None => fixed;
    assert forall j :: NumberingSet(after.tags, j) <==> NumberingSet(fixed.tags, j);
    KeyOutcome(after, (key == Delete || key == BackSpace) && s.minimum.Some?)
  }

  /**
    on_key_press_event: Control combinations pass through untouched; a
    selection with an editing key goes to the selection loop; anything else to
    the tag-by-tag removal.
   */
  function OnKeyPress(e: Entry, cursor: int, selection: Option<(int, int)>, key: Key, isModifier: bool, control: bool)
    : (r: Option<KeyOutcome>)
    requires WellPlaced(e.tags, e.text) && TableOk(e.tags)
    ensures control ==> r == Some(KeyOutcome(e, false))
    ensures !control && !SelectionBranch(selection.Some?, key, isModifier) ==>
      r == Some(KeyPressRemoval(e, cursor, key, isModifier))
    ensures !control && SelectionBranch(selection.Some?, key, isModifier) ==>
      r == KeyPressSelection(e, selection.value.0, selection.value.1, key)
  {
    if control then Some(KeyOutcome(e, false))
    else if SelectionBranch(selection.Some?, key, isModifier) then
      KeyPressSelection(e, selection.value.0, selection.value.1, key)
    else Some(KeyPressRemoval(e, cursor, key, isModifier))
  }

  // ---------------------------------------------------------------------
  // init and initialize_actions
  // ---------------------------------------------------------------------

  /** Every action the dialog registers, in registration order. */
  const DialogActions: seq<string> := ["numbering-order-changed"] + NumberingActions + MetadataActions

  /** A row of the static tag tables: the marker text and its action. */
  datatype TagConstant = TagConstant(name: string, action: string, isOriginalName: bool)

  /**
    The table init builds: every numbering tag available and unset; of the
    metadata tags only the original name is available, and it is set; all at
    offset 0.
   */
  function InitialTable(numbering: seq<TagConstant>, metadata: seq<TagConstant>): (r: seq<TagData>)
    ensures |r| == |numbering| + |metadata|
    ensures forall i :: 0 <= i < |numbering| ==>
      r[i].name == numbering[i].name && r[i].action == numbering[i].action && r[i].kind == Numbering
      && r[i].available && !r[i].isSet
    ensures forall i :: 0 <= i < |metadata| ==>
      var t := r[|numbering| + i];
      t.name == metadata[i].name && t.action == metadata[i].action && t.kind == Metadata
      && t.available == metadata[i].isOriginalName && t.isSet == metadata[i].isOriginalName
    ensures forall i :: 0 <= i < |r| ==> r[i].position == 0 && !r[i].justAdded
  {
    seq(|numbering|, i requires 0 <= i < |numbering| =>
      TagData(numbering[i].name, numbering[i].action, Numbering, true, false, 0, 0, 0, false))
    + seq(|metadata|, i requires 0 <= i < |metadata| =>
      TagData(metadata[i].name, metadata[i].action, Metadata, metadata[i].isOriginalName, metadata[i].isOriginalName, 0, 0, 0, false))
  }

  /** initialize_actions: every registered action enabled except the original-name action. */
  function InitialActions(originalAction: string): (r: map<string, bool>)
    ensures forall a :: Enabled(r, a) <==> a in DialogActions && a != originalAction
  {
    map a | a in DialogActions :: a != originalAction
  }

  /** The static tables: actions from the registered sets, marker texts and actions distinct, one original name. */
  predicate ConstantsOk(numbering: seq<TagConstant>, metadata: seq<TagConstant>, original: nat)
  {
    var all := numbering + metadata;
    original < |metadata|
    && (forall i :: 0 <= i < |numbering| ==> numbering[i].action in NumberingActions)
    && (forall i :: 0 <= i < |metadata| ==> metadata[i].action in MetadataActions)
    && (forall i :: 0 <= i < |metadata| ==> (metadata[i].isOriginalName <==> i == original))
    && (forall i :: 0 <= i < |all| ==> |all[i].name| > 0)
    && (forall i, j :: 0 <= i < j < |all| ==> all[i].name != all[j].name && all[i].action != all[j].action)
  }

  /** The dialog's entry as init and initialize_actions leave it: the original-name marker alone. */
  function InitialEntry(numbering: seq<TagConstant>, metadata: seq<TagConstant>, original: nat): (r: Entry)
    requires original < |metadata|
    ensures r.text == metadata[original].name && r.storedLength == |r.text|
    ensures |r.tags| == |numbering| + |metadata|
  {
    var text := metadata[original].name;
    Entry(InitialTable(numbering, metadata), text, |text|, InitialActions(metadata[original].action))
  }

  /** No registered metadata action is a numbering action. */
  lemma MetadataActionsNotNumbering(a: string)
    requires a in MetadataActions
    ensures a !in NumberingActions
  {
  }

  /**
    The initial entry meets the entry invariant: the one set tag is the original
    name at offset 0, which is the whole text, its action is off, and with no
    numbering tag set every numbering action is on.
   */
  lemma {:induction false} InitialEntryOk(numbering: seq<TagConstant>, metadata: seq<TagConstant>, original: nat)
    requires ConstantsOk(numbering, metadata, original)
    ensures EntryOk(InitialEntry(numbering, metadata, original))
    ensures !NumberingTagIsSomeAdded(InitialEntry(numbering, metadata, original).tags)
    ensures forall a :: a in NumberingActions ==> Enabled(InitialEntry(numbering, metadata, original).actions, a)
    ensures forall i :: 0 <= i < |numbering| + |metadata| ==>
      (InitialEntry(numbering, metadata, original).tags[i].isSet <==> i == |numbering| + original)
  {
    var e := InitialEntry(numbering, metadata, original);
    var k := |numbering| + original;
    InitialTableFacts(numbering, metadata, original, e.tags);
    OnlyTagPlaced(e.tags, e.text, k);
    MetadataActionsNotNumbering(metadata[original].action);
    assert e.tags[k].action == metadata[original].action;
    InitialActionsOk(e.tags, k, e.actions);
  }

  /** The initial table is well formed, settled, and has the original name as its only set tag. */
  lemma InitialTableFacts(numbering: seq<TagConstant>, metadata: seq<TagConstant>, original: nat, tags: seq<TagData>)
    requires ConstantsOk(numbering, metadata, original) && tags == InitialTable(numbering, metadata)
    ensures TableOk(tags) && Settled(tags)
    ensures forall i :: 0 <= i < |tags| ==> (tags[i].isSet <==> i == |numbering| + original)
    ensures forall i :: 0 <= i < |tags| ==> tags[i].position == 0
    ensures tags[|numbering| + original].name == metadata[original].name
    ensures tags[|numbering| + original].kind == Metadata
  {
    InitialTableOk(numbering, metadata, original, tags);
    var n := |numbering|;
    forall i | 0 <= i < |tags|
      ensures tags[i].isSet <==> i == n + original
    {
      if i >= n {
        assert tags[i].isSet == metadata[i - n].isOriginalName;
      }
    }
  }

  lemma InitialTableOk(numbering: seq<TagConstant>, metadata: seq<TagConstant>, original: nat, tags: seq<TagData>)
    requires ConstantsOk(numbering, metadata, original) && tags == InitialTable(numbering, metadata)
    ensures TableOk(tags)
  {
    InitialTableNames(numbering, metadata, original, tags);
    InitialTableKinds(numbering, metadata, original, tags);
  }

  /** The table's markers and actions are the constants', so they are non-empty and pairwise distinct. */
  lemma InitialTableNames(numbering: seq<TagConstant>, metadata: seq<TagConstant>, original: nat, tags: seq<TagData>)
    requires ConstantsOk(numbering, metadata, original) && tags == InitialTable(numbering, metadata)
    ensures forall i :: 0 <= i < |tags| ==> |tags[i].name| > 0
    ensures forall i, j :: 0 <= i < j < |tags| ==> tags[i].name != tags[j].name && tags[i].action != tags[j].action
  {
    var all := numbering + metadata;
    assert forall i :: 0 <= i < |tags| ==> tags[i].name == all[i].name && tags[i].action == all[i].action;
  }

  /** The numbering rows are exactly the rows with a numbering action. */
  lemma InitialTableKinds(numbering: seq<TagConstant>, metadata: seq<TagConstant>, original: nat, tags: seq<TagData>)
    requires ConstantsOk(numbering, metadata, original) && tags == InitialTable(numbering, metadata)
    ensures forall i :: 0 <= i < |tags| ==> (tags[i].kind == Numbering <==> tags[i].action in NumberingActions)
  {
    var n := |numbering|;
    forall i | 0 <= i < |tags|
      ensures tags[i].kind == Numbering <==> tags[i].action in NumberingActions
    {
      if i >= n {
        assert tags[i].action == metadata[i - n].action;
        MetadataActionsNotNumbering(metadata[i - n].action);
      }
    }
  }

  /** A single set tag at offset 0 whose marker is the whole text is well placed. */
  lemma OnlyTagPlaced(tags: seq<TagData>, text: string, k: nat)
    requires k < |tags| && tags[k].name == text && tags[k].position == 0 && |text| > 0
    requires forall i :: 0 <= i < |tags| ==> (tags[i].isSet <==> i == k)
    ensures WellPlaced(tags, text) && MarkersInPlace(tags, text)
  {
    assert OccursAt(text, text, 0);
  }

  /** With one set tag, a metadata tag whose action is the one left off, the initial actions are consistent. */
  lemma InitialActionsOk(tags: seq<TagData>, k: nat, actions: map<string, bool>)
    requires k < |tags| && tags[k].kind == Metadata && tags[k].action !in NumberingActions
    requires forall i :: 0 <= i < |tags| ==> (tags[i].isSet <==> i == k)
    requires actions == InitialActions(tags[k].action)
    ensures ActionsOk(tags, actions)
    ensures forall i :: !NumberingSet(tags, i)
    ensures forall a :: a in NumberingActions ==> Enabled(actions, a)
  {
  }

}

=== FILE: text.dfy ===
/**
  Character-string helpers shared by the rename planner: substring occurrence,
  last occurrence (the behaviour of g_strrstr), and split-then-rejoin on a
  delimiter (the behaviour of g_strsplit followed by joining the pieces).
  Strings are sequences of characters; character offsets are sequence indices.
 */
module Text {

  datatype Option<+T> = None | Some(value: T)

  /** `t` occurs in `s` starting at offset `i`. */
  predicate OccursAt(s: string, t: string, i: int)
  {
    0 <= i && i + |t| <= |s| && s[i..i + |t|] == t
  }

  /** `t` occurs somewhere in `s`. */
  predicate Contains(s: string, t: string)
  {
    exists i :: 0 <= i <= |s| - |t| && OccursAt(s, t, i)
  }

  /** The character `c` appears in `s`. */
  predicate HasChar(s: string, c: char)
  {
    exists i :: 0 <= i < |s| && s[i] == c
  }

  /** Offset of the last occurrence of `t` in `s` at or before `from`, scanning down. */
  function LastIndexFrom(s: string, t: string, from: int): (r: Option<nat>)
    requires from < |s| + 1
    decreases from + 1
    ensures r.Some? ==> r.value <= from && OccursAt(s, t, r.value)
    ensures r.Some? ==> forall j :: r.value < j <= from ==> !OccursAt(s, t, j)
    ensures r.None? ==> forall j :: 0 <= j <= from ==> !OccursAt(s, t, j)
  {
    if from < 0 then None
    else if OccursAt(s, t, from) then Some(from)
    else LastIndexFrom(s, t, from - 1)
  }

  /** The offset of the last occurrence of `t` in `s`, as g_strrstr locates it. */
  function LastIndexOf(s: string, t: string): (r: Option<nat>)
    ensures r.Some? ==> OccursAt(s, t, r.value)
    ensures r.Some? ==> forall j :: r.value < j ==> !OccursAt(s, t, j)
    ensures r.None? <==> !Contains(s, t)
  {
    var r := LastIndexFrom(s, t, |s| - |t|);
    if r.None? then
      assert forall j :: 0 <= j <= |s| - |t| ==> !OccursAt(s, t, j);
      r
    else
      r
  }

  /**
    Splits `s` on every non-overlapping occurrence of `d`, scanning left to
    right, exactly as g_strsplit does for a non-empty string with no limit.
   */
  function Split(s: string, d: string): (pieces: seq<string>)
    requires |d| > 0
    decreases |s|
    ensures |pieces| >= 1
  {
    if |s| < |d| then [s]
    else if d <= s then [[]] + Split(s[|d|..], d)
    else
      var rest := Split(s[1..], d);
      [[s[0]] + rest[0]] + rest[1..]
  }

  /** Concatenates `pieces`, putting `sep` between consecutive pieces. */
  function Join(pieces: seq<string>, sep: string): (r: string)
    decreases |pieces|
  {
    if |pieces| == 0 then []
    else if |pieces| == 1 then pieces[0]
    else pieces[0] + sep + Join(pieces[1..], sep)
  }

  /** Number of non-overlapping occurrences of `d` in `s`, counted greedily from the left. */
  function CountOccurrences(s: string, d: string): nat
    requires |d| > 0
    decreases |s|
  {
    if |s| < |d| then 0
    else if d <= s then 1 + CountOccurrences(s[|d|..], d)
    else CountOccurrences(s[1..], d)
  }

  /** Total length of all pieces. */
  function TotalLength(pieces: seq<string>): nat
  {
    if |pieces| == 0 then 0 else |pieces[0]| + TotalLength(pieces[1..])
  }

  /** Joining a piece in front of at least one more puts one separator after it. */
  lemma JoinCons(first: string, rest: seq<string>, sep: string)
    requires |rest| >= 1
    ensures Join([first] + rest, sep) == first + sep + Join(rest, sep)
  {
    assert ([first] + rest)[1..] == rest;
  }

  /** Growing the first piece by a character grows the joined string by that character. */
  lemma JoinGrowFirst(c: char, rest: seq<string>, sep: string)
    requires |rest| >= 1
    ensures Join([[c] + rest[0]] + rest[1..], sep) == [c] + Join(rest, sep)
  {
    if |rest| > 1 {
      JoinCons([c] + rest[0], rest[1..], sep);
      JoinCons(rest[0], rest[1..], sep);
      assert [rest[0]] + rest[1..] == rest;
    }
  }

  /** Rejoining the pieces with the delimiter itself gives back the original string. */
  lemma {:induction false} SplitJoinRoundTrip(s: string, d: string)
    requires |d| > 0
    ensures Join(Split(s, d), d) == s
    decreases |s|
  {
    if |s| < |d| {
    } else if d <= s {
      var rest := Split(s[|d|..], d);
      SplitJoinRoundTrip(s[|d|..], d);
      JoinCons([], rest, d);
      assert s == d + s[|d|..];
    } else {
      var rest := Split(s[1..], d);
      SplitJoinRoundTrip(s[1..], d);
      JoinGrowFirst(s[0], rest, d);
      assert s == [s[0]] + s[1..];
    }
  }

  /** There is one more piece than there are occurrences of the delimiter. */
  lemma {:induction false} SplitCount(s: string, d: string)
    requires |d| > 0
    ensures |Split(s, d)| == CountOccurrences(s, d) + 1
    decreases |s|
  {
    if |s| < |d| {
    } else if d <= s {
      SplitCount(s[|d|..], d);
    } else {
      SplitCount(s[1..], d);
    }
  }

  /** The length of a joined string: all pieces plus one separator between each pair. */
  lemma {:induction false} JoinLength(pieces: seq<string>, sep: string)
    requires |pieces| >= 1
    ensures |Join(pieces, sep)| == TotalLength(pieces) + (|pieces| - 1) * |sep|
    decreases |pieces|
  {
    if |pieces| == 1 {
      assert TotalLength(pieces[1..]) == 0;
    } else {
      JoinLength(pieces[1..], sep);
    }
  }

  /**
    Split-and-rejoin with `r` rewrites the first occurrence of `d` (the one at
    `k`, with none before it) to `r` and carries on with the rest of the string.
   */
  lemma {:induction false} JoinSplitFirstOccurrence(s: string, d: string, r: string, k: nat)
    requires |d| > 0
    requires OccursAt(s, d, k)
    requires forall j :: 0 <= j < k ==> !OccursAt(s, d, j)
    ensures Join(Split(s, d), r) == s[..k] + r + Join(Split(s[k + |d|..], d), r)
    decreases k
  {
    if k == 0 {
      JoinSplitAtHead(s, d, r);
    } else {
      var t, j := s[1..], k - 1;
      ShiftOccurrences(s, d, k);
      JoinSplitFirstOccurrence(t, d, r, j);
      JoinSplitPastHead(s, t, d, r, j, k);
    }
  }

  /** The base case: the string starts with the delimiter. */
  lemma JoinSplitAtHead(s: string, d: string, r: string)
    requires |d| > 0 && OccursAt(s, d, 0)
    ensures Join(Split(s, d), r) == s[..0] + r + Join(Split(s[|d|..], d), r)
  {
    assert d <= s;
    SplitAtHead(s, d);
    JoinCons([], Split(s[|d|..], d), r);
  }

  /** The step: a first character that starts no occurrence passes through unchanged. */
  lemma JoinSplitPastHead(s: string, t: string, d: string, r: string, j: nat, k: nat)
    requires |d| > 0 && |s| > 0 && t == s[1..] && k == j + 1 && k + |d| <= |s|
    requires !OccursAt(s, d, 0)
    requires Join(Split(t, d), r) == t[..j] + r + Join(Split(t[j + |d|..], d), r)
    ensures Join(Split(s, d), r) == s[..k] + r + Join(Split(s[k + |d|..], d), r)
  {
    var p, head := Split(t, d), t[..j];
    var rest := Join(Split(s[k + |d|..], d), r);
    assert Join(p, r) == head + r + rest by {
      assert t[j + |d|..] == s[k + |d|..];
    }
    assert Join(Split(s, d), r) == [s[0]] + Join(p, r) by {
      assert !(d <= s) by { assert s[..|d|] == s[0..0 + |d|]; }
      SplitPastHead(s, d);
      JoinGrowFirst(s[0], p, r);
    }
    ConsAssoc(s[0], head, r, rest);
    assert [s[0]] + head == s[..k];
  }

  lemma ConsAssoc<T>(x: T, a: seq<T>, b: seq<T>, c: seq<T>)
    ensures [x] + (a + b + c) == [x] + a + b + c
  {
  }

  /** Splitting a string that starts with the delimiter opens with an empty piece. */
  lemma SplitAtHead(s: string, d: string)
    requires |d| > 0 && d <= s
    ensures Split(s, d) == [[]] + Split(s[|d|..], d)
  {
  }

  /** Splitting a long enough string that does not start with the delimiter keeps its first character in the first piece. */
  lemma SplitPastHead(s: string, d: string)
    requires |d| > 0 && |s| >= |d| && !(d <= s)
    ensures Split(s, d) == [[s[0]] + Split(s[1..], d)[0]] + Split(s[1..], d)[1..]
  {
  }

  /** Dropping the first character shifts a first occurrence one place left. */
  lemma ShiftOccurrences(s: string, d: string, k: nat)
    requires |d| > 0 && k > 0
    requires OccursAt(s, d, k)
    requires forall j :: 0 <= j < k ==> !OccursAt(s, d, j)
    ensures OccursAt(s[1..], d, k - 1)
    ensures forall j :: 0 <= j < k - 1 ==> !OccursAt(s[1..], d, j)
  {
    var t := s[1..];
    assert t[k - 1..k - 1 + |d|] == s[k..k + |d|];
    forall j | 0 <= j < k - 1 ensures !OccursAt(t, d, j) {
      if OccursAt(t, d, j) {
        assert t[j..j + |d|] == s[j + 1..j + 1 + |d|];
        assert OccursAt(s, d, j + 1);
      }
    }
  }

  /** The first piece is a prefix of the split string. */
  lemma {:induction false} SplitFirstIsPrefix(s: string, d: string)
    requires |d| > 0
    ensures Split(s, d)[0] <= s
    decreases |s|
  {
    if |s| < |d| {
    } else if d <= s {
    } else {
      SplitFirstIsPrefix(s[1..], d);
    }
  }

  /** When `d` does not occur in `s`, splitting yields `s` as the single piece. */
  lemma {:induction false} SplitNoOccurrence(s: string, d: string)
    requires |d| > 0
    requires !Contains(s, d)
    ensures Split(s, d) == [s]
    decreases |s|
  {
    if |s| < |d| {
    } else if d <= s {
      assert OccursAt(s, d, 0);
      assert false;
    } else {
      assert !Contains(s[1..], d) by {
        forall i | 0 <= i <= |s[1..]| - |d| && OccursAt(s[1..], d, i)
          ensures false
        {
          assert s[1..][i..i + |d|] == s[i + 1..i + 1 + |d|];
          assert OccursAt(s, d, i + 1);
        }
      }
      SplitNoOccurrence(s[1..], d);
      assert [s[0]] + s[1..] == s;
    }
  }

  /** No piece contains the delimiter. */
  predicate PiecesFree(pieces: seq<string>, d: string)
  {
    forall k :: 0 <= k < |pieces| ==> !Contains(pieces[k], d)
  }

  lemma PiecesFreeCons(first: string, rest: seq<string>, d: string)
    requires !Contains(first, d) && PiecesFree(rest, d)
    ensures PiecesFree([first] + rest, d)
  {
    forall k | 0 <= k < |[first] + rest| ensures !Contains(([first] + rest)[k], d) {
      if k > 0 {
        assert ([first] + rest)[k] == rest[k - 1];
      }
    }
  }

  lemma PiecesFreeTail(pieces: seq<string>, d: string)
    requires PiecesFree(pieces, d) && |pieces| >= 1
    ensures !Contains(pieces[0], d) && PiecesFree(pieces[1..], d)
  {
    forall k | 0 <= k < |pieces[1..]| ensures !Contains(pieces[1..][k], d) {
      assert pieces[1..][k] == pieces[k + 1];
    }
  }

  /** A string that does not start with `d` and whose tail does not contain it does not contain it. */
  lemma ExtendFree(c: char, t: string, d: string)
    requires !Contains(t, d) && !(d <= [c] + t)
    ensures !Contains([c] + t, d)
  {
    var u := [c] + t;
    forall i | 0 <= i <= |u| - |d| && OccursAt(u, d, i) ensures false {
      if i > 0 {
        assert u[i..i + |d|] == t[i - 1..i - 1 + |d|];
        assert OccursAt(t, d, i - 1);
      }
    }
  }

  /** No piece of a split contains the delimiter. */
  lemma {:induction false} SplitPiecesFree(s: string, d: string)
    requires |d| > 0
    ensures PiecesFree(Split(s, d), d)
    decreases |s|
  {
    if |s| < |d| {
      assert Split(s, d) == [s];
    } else if d <= s {
      SplitPiecesFree(s[|d|..], d);
      PiecesFreeCons([], Split(s[|d|..], d), d);
    } else {
      var rest := Split(s[1..], d);
      SplitPiecesFree(s[1..], d);
      SplitFirstIsPrefix(s[1..], d);
      PiecesFreeTail(rest, d);
      var first := [s[0]] + rest[0];
      assert !(d <= first) by {
        assert s == [s[0]] + s[1..];
        assert first <= s;
      }
      ExtendFree(s[0], rest[0], d);
      PiecesFreeCons(first, rest[1..], d);
    }
  }

  /** Every piece of a split is made only of characters of the split string. */
  lemma {:induction false} SplitCharsFromSource(s: string, d: string, c: char)
    requires |d| > 0
    requires !HasChar(s, c)
    ensures forall k :: 0 <= k < |Split(s, d)| ==> !HasChar(Split(s, d)[k], c)
    decreases |s|
  {
    if |s| < |d| {
    } else if d <= s {
      assert !HasChar(s[|d|..], c) by {
        forall i | 0 <= i < |s[|d|..]| ensures s[|d|..][i] != c {
          assert s[|d|..][i] == s[|d| + i];
        }
      }
      SplitCharsFromSource(s[|d|..], d, c);
      var rest := Split(s[|d|..], d);
      forall k | 0 <= k < |Split(s, d)| ensures !HasChar(Split(s, d)[k], c)
      {
        if k > 0 {
          assert Split(s, d)[k] == rest[k - 1];
        }
      }
    } else {
      assert !HasChar(s[1..], c) by {
        forall i | 0 <= i < |s[1..]| ensures s[1..][i] != c {
          assert s[1..][i] == s[1 + i];
        }
      }
      SplitCharsFromSource(s[1..], d, c);
      var rest := Split(s[1..], d);
      var first := [s[0]] + rest[0];
      assert !HasChar(first, c) by {
        forall i | 0 <= i < |first| ensures first[i] != c {
          if i > 0 {
            assert first[i] == rest[0][i - 1];
          }
        }
      }
      forall k | 0 <= k < |Split(s, d)| ensures !HasChar(Split(s, d)[k], c)
      {
        if k > 0 {
          assert Split(s, d)[k] == rest[k];
        }
      }
    }
  }

  /** A joined string only holds characters found in the pieces or in the separator. */
  lemma {:induction false} JoinCharsFromParts(pieces: seq<string>, sep: string, c: char)
    requires forall k :: 0 <= k < |pieces| ==> !HasChar(pieces[k], c)
    requires !HasChar(sep, c)
    ensures !HasChar(Join(pieces, sep), c)
    decreases |pieces|
  {
    if |pieces| == 0 {
    } else if |pieces| == 1 {
    } else {
      JoinCharsFromParts(pieces[1..], sep, c);
      var tail := Join(pieces[1..], sep);
      var whole := pieces[0] + sep + tail;
      forall i | 0 <= i < |whole| ensures whole[i] != c
      {
        if i < |pieces[0]| {
          assert whole[i] == pieces[0][i];
        } else if i < |pieces[0]| + |sep| {
          assert whole[i] == sep[i - |pieces[0]|];
        } else {
          assert whole[i] == tail[i - |pieces[0]| - |sep|];
        }
      }
    }
  }
}

=== FILE: transforms.dfy ===
/**
  The three name transforms of the batch-rename utilities (append, prepend,
  literal find-and-replace) and the building of the new-name list for a
  selection.
 */
module Transforms {

  import opened Text
  import opened Selection
  import opened Lists

  /** The file name followed by the entry text. */
  function BatchRenameAppend(fileName: string, entryText: string): (r: string)
    ensures |r| == |fileName| + |entryText|
    ensures r[..|fileName|] == fileName && r[|fileName|..] == entryText
  {
    fileName + entryText
  }

  /** The entry text followed by the file name. */
  function BatchRenamePrepend(fileName: string, entryText: string): (r: string)
    ensures |r| == |entryText| + |fileName|
    ensures r[..|entryText|] == entryText && r[|entryText|..] == fileName
  {
    entryText + fileName
  }

  /** g_strsplit: the empty string splits into no pieces at all. */
  function StrSplit(s: string, d: string): (pieces: seq<string>)
    requires |d| > 0
    ensures |s| == 0 <==> |pieces| == 0
  {
    if |s| == 0 then [] else Split(s, d)
  }

  /**
    Replaces every non-overlapping occurrence of `substr`, found left to right,
    by `replacement`. A missing argument (a NULL pointer) or an empty search
    text leaves the name as it is.
   */
  function BatchRenameReplace(s: string, substr: Option<string>, replacement: Option<string>): (r: string)
    ensures substr.None? || replacement.None? || substr == Some([]) ==> r == s
    ensures substr.Some? && replacement.Some? && |substr.value| > 0 && !Contains(s, substr.value) ==> r == s
    ensures substr.Some? && replacement.Some? && |substr.value| > 0 ==>
      |r| == |s| + CountOccurrences(s, substr.value) * (|replacement.value| - |substr.value|)
  {
    if substr.None? || replacement.None? then s
    else if substr.value == [] then s
    else
      var pieces := StrSplit(s, substr.value);
      ReplaceFacts(s, substr.value, replacement.value);
      Join(pieces, replacement.value)
  }

  lemma ReplaceFacts(s: string, d: string, repl: string)
    requires |d| > 0
    ensures !Contains(s, d) ==> Join(StrSplit(s, d), repl) == s
    ensures |Join(StrSplit(s, d), repl)| == |s| + CountOccurrences(s, d) * (|repl| - |d|)
  {
    if |s| == 0 {
    } else {
      if !Contains(s, d) {
        SplitNoOccurrence(s, d);
      }
      ReplaceLength(s, d, repl);
    }
  }

  /** The split-and-rejoin length arithmetic: each occurrence trades |d| characters for |repl|. */
  lemma ReplaceLength(s: string, d: string, repl: string)
    requires |d| > 0
    ensures |Join(Split(s, d), repl)| == |s| + CountOccurrences(s, d) * (|repl| - |d|)
  {
    var pieces := Split(s, d);
    var n := CountOccurrences(s, d);
    SplitCount(s, d);
    SplitJoinRoundTrip(s, d);
    JoinLength(pieces, d);
    JoinLength(pieces, repl);
    assert n * (|repl| - |d|) == n * |repl| - n * |d|;
  }

  /** Replacing a text by itself gives back the name unchanged. */
  lemma ReplaceBySelfIsIdentity(s: string, d: string)
    ensures BatchRenameReplace(s, Some(d), Some(d)) == s
  {
    if |d| > 0 && |s| > 0 {
      SplitJoinRoundTrip(s, d);
    }
  }

  /**
    Replace rewrites the leftmost occurrence of the searched text (at `k`) to
    the replacement and goes on replacing in what follows it. Together with
    the no-occurrence clause of BatchRenameReplace this fixes the result
    character for character.
   */
  lemma ReplaceFirstOccurrence(s: string, d: string, repl: string, k: nat)
    requires |d| > 0
    requires OccursAt(s, d, k)
    requires forall j :: 0 <= j < k ==> !OccursAt(s, d, j)
    ensures BatchRenameReplace(s, Some(d), Some(repl))
            == s[..k] + repl + BatchRenameReplace(s[k + |d|..], Some(d), Some(repl))
  {
    var tail := s[k + |d|..];
    JoinSplitFirstOccurrence(s, d, repl, k);
    if |tail| == 0 {
      assert Split(tail, d) == [tail];
    }
  }

  /** Replacing "a" with "c" in "ab" gives "cb". */
  lemma ReplaceExample()
    ensures BatchRenameReplace("ab", Some("a"), Some("c")) == "cb"
  {
    assert OccursAt("ab", "a", 0);
    ReplaceFirstOccurrence("ab", "a", "c", 0);
    assert !Contains("b", "a") by {
      assert !OccursAt("b", "a", 0);
    }
    assert "ab"[1..] == "b";
  }

  /**
    A character found neither in the name nor in the replacement cannot appear
    in the result: replace never invents characters.
   */
  lemma ReplaceKeepsCharOut(s: string, substr: Option<string>, replacement: Option<string>, c: char)
    requires !HasChar(s, c)
    requires replacement.Some? ==> !HasChar(replacement.value, c)
    ensures !HasChar(BatchRenameReplace(s, substr, replacement), c)
  {
    if substr.Some? && replacement.Some? && |substr.value| > 0 && |s| > 0 {
      SplitCharsFromSource(s, substr.value, c);
      JoinCharsFromParts(Split(s, substr.value), replacement.value, c);
    }
  }

  /**
    The new name a mode gives one file; format mode produces none in this
    function (its tag resolution is not part of this model).
   */
  function NewName(mode: BatchRenameMode, name: string, entryText: string, replaceText: Option<string>): (r: Option<string>)
    ensures r.None? <==> mode == Format
  {
    match mode
    case Prepend => Some(BatchRenamePrepend(name, entryText))
    case Append => Some(BatchRenameAppend(name, entryText))
    case Replace => Some(BatchRenameReplace(name, Some(entryText), replaceText))
    case Format => None
  }

  /**
    get_new_names_list: one new name per selected file, prepended as the
    selection is walked, so the list comes out in reverse selection order.
   */
  method GetNewNamesList(mode: BatchRenameMode, sel: seq<File>, entryText: string, replaceText: Option<string>)
    returns (r: seq<string>)
    ensures mode == Format ==> r == []
    ensures mode != Format ==> |r| == |sel|
    ensures mode != Format ==> forall i :: 0 <= i < |sel| ==>
      Some(r[i]) == NewName(mode, sel[|sel| - 1 - i].name, entryText, replaceText)
  {
    r := [];
    for i := 0 to |sel|
      invariant mode == Format ==> r == []
      invariant mode != Format ==> |r| == i
      invariant mode != Format ==> forall k :: 0 <= k < i ==>
        Some(r[k]) == NewName(mode, sel[i - 1 - k].name, entryText, replaceText)
    {
      var fileName := sel[i].name;
      if mode == Prepend {
        r := [BatchRenamePrepend(fileName, entryText)] + r;
      }
      if mode == Append {
        r := [BatchRenameAppend(fileName, entryText)] + r;
      }
      if mode == Replace {
        r := [BatchRenameReplace(fileName, Some(entryText), replaceText)] + r;
      }
    }
  }

  /**
    The caller's view: the reversed list, so the i-th new name belongs to the
    i-th selected file.
   */
  method GetNewNames(mode: BatchRenameMode, sel: seq<File>, entryText: string, replaceText: Option<string>)
    returns (names: seq<string>)
    ensures mode == Format ==> names == []
    ensures mode != Format ==> |names| == |sel|
    ensures mode != Format ==> forall i :: 0 <= i < |sel| ==>
      Some(names[i]) == NewName(mode, sel[i].name, entryText, replaceText)
  {
    var list := GetNewNamesList(mode, sel, entryText, replaceText);
    names := Reverse(list);
  }
}
